=== FILE: README.md ===
# Skill Studio rule engines in Dafny

Skill Studio is a learning platform with a Python (FastAPI + SQLAlchemy)
backend. Its engineering content lives in a set of rule-based engines:

- course recommendation and scoring;
- two learning-path planners;
- skill-gap analysis;
- diagnostic and adaptive assessment;
- learning analytics and gamification;
- a handful of decision functions and small state machines inside the HTTP
  handlers (dashboard insights, next best action, live-class lifecycle,
  websocket registry, instructor analytics, upload classification, user
  validators).

Each engine sits behind database queries. Once the rows are fetched, each
one is a pure function over small records. This project models those
functions in Dafny 4.11 and proves what the code promises about them. The
main properties are:

- bounds and caps;
- the order in which rules fire;
- the invariants the path planners keep;
- the round trips of the state machines;
- agreement between each operation and an independent statement of what it
  computes.

How the model treats the source:

- **Database queries** become parameters holding the rows, in the order the
  query returns them: sequences, sets, maps and `Option`s.
- **The clock** becomes an integer parameter (`today`, `now`).
- **`random.choice` and `random.sample`** become an explicit pick, and the
  contracts hold for every pick.
- **Python floats** are exact `real`s.
- **Python's `int()` truncation and integer square root** are written out
  (`Trunc`, `TruncDiv`, `ISqrt`).
- **Python strings** are `seq<char>`. `lower`, `isdigit` and `isalpha` are
  their ASCII versions; `strip` and `split()` use Python's full `isspace`
  set, Unicode separators included.

Modules, one per source file of the core:

| module | models |
|---|---|
| `Wrappers`, `Text`, `SkillLevels`, `Sorting` | `Option`/`Result`, the string functions the source calls, JSON dictionaries as association lists, and a stable index sort |
| `CourseScoring` | the five-factor course score, the recommendation reasons and the ranking (`services/ai_recommendations.py`) |
| `GreedyPath` | the greedy, prerequisite-respecting path planner of `LearningPathGenerator` |
| `SkillGaps` | `SkillGapAnalyzer`: gap classification, strengths, recommendations and readiness |
| `RuleEngine` | `services/recommendation_engine.py`: the single-pass path builder, next lesson, revision skills, struggling-learner rules and difficulty adjustment |
| `SkillAssessment` | the answer checker, the diagnostic skill-level formula, the profile merge, the history estimate and the skill breakdown |
| `AdaptiveAssessment` | next-question selection, weighted scoring, tier breakdown, the feedback rules and the recommendations |
| `LearningAnalytics` | streak, trend, completion rate, struggling topics, weekly adjustments, learning pace and engagement patterns |
| `Gamification` | level from XP, XP awards, the daily-streak machine, quiz XP, achievement unlocking and leaderboard ranks |
| `Dashboard` | the insight panel of the learner dashboard |
| `NextAction` | the next-best-action cascade |
| `LiveClass` | the live-class session lifecycle |
| `WsRegistry` | the websocket connection and room bookkeeping |
| `InstructorAnalytics` | draft count, completion rate and progress histogram of the instructor dashboard |
| `Upload` | file-extension classification of the upload endpoints |
| `UserSchema` | the registration and profile-update validators |

All paths below are under `backend/app/`.

## Model

| member | source | states |
|---|---|---|
| CourseScoring.TargetSkills | backend/app/services/ai_recommendations.py:124-133 | a skill is a target exactly when some goal lists it |
| CourseScoring.SkillMatch | backend/app/services/ai_recommendations.py:169-177 | the Jaccard score lies in [0, 40]; it is positive iff the course and the targets share a skill, so it is 0 when either set is empty; it is 40 iff the two sets are equal and non-empty |
| CourseScoring.DifficultyRank | backend/app/services/ai_recommendations.py:180-184 | ranks lie in 1..4, and every label other than the upper-case BEGINNER..EXPERT falls back to 2 |
| CourseScoring.DifficultyMatch | backend/app/services/ai_recommendations.py:186-195 | the score lies in [0, 20]; it is 20 iff the levels are equal, and at least 15 iff the course is at the preferred level or one above it |
| CourseScoring.DifficultyMatchAntitone | backend/app/services/ai_recommendations.py:186-195 | moving a course away from the preferred level, in either direction, never raises its difficulty score |
| CourseScoring.StoredLevelsScoreFull | backend/app/services/ai_recommendations.py:180-189 | the lower-case labels the database stores all rank 2, like the default preference, so every stored course gets the full 20 |
| CourseScoring.GoalPoints | backend/app/services/ai_recommendations.py:198-211 | one goal gives 15 iff it shares a skill with the course, plus 10 iff it has a role one of whose words occurs in the course text |
| CourseScoring.GoalAlignment | backend/app/services/ai_recommendations.py:198-213 | the goals' summed points capped at 25, so within [0, 25]; it is 0 iff no goal scores; any goal scoring both bonuses reaches the cap |
| CourseScoring.GoalAlignmentAddsGoal | backend/app/services/ai_recommendations.py:198-213 | one more goal adds its own points to the capped total, so goals worth 15 and 10 give 25 |
| CourseScoring.SumGoalPoints | backend/app/services/ai_recommendations.py:198-211 | the running score starts at 0, is one goal's points for one goal, is non-negative, is 0 iff no goal scores, and is at least every single goal's points |
| CourseScoring.SumGoalPointsAppend | backend/app/services/ai_recommendations.py:198-211 | the points of two lists of goals add up: the score accumulates goal by goal |
| CourseScoring.Popularity | backend/app/services/ai_recommendations.py:215-218 | the score is at most 10 and non-negative for a non-negative count; it is 10 iff there are at least 100 enrollments, and above 5 iff there are more than 50 |
| CourseScoring.PrerequisiteReady | backend/app/services/ai_recommendations.py:220-231 | the score lies in [0, 5], and it is 5 iff every prerequisite is a skill the learner has |
| CourseScoring.TotalBounded | backend/app/services/ai_recommendations.py:159-236 | with a non-negative enrollment count, the total of the five factors lies in [0, 100] |
| CourseScoring.FirstTitleGoal | backend/app/services/ai_recommendations.py:260-264 | the goal quoted is the first one whose role occurs in the lower-cased title, and there is none iff no goal's role does |
| CourseScoring.Reasons | backend/app/services/ai_recommendations.py:238-279 | at most four reasons, forming a prefix of the rule-ordered candidates; all candidates are kept when there are at most four |
| CourseScoring.TeachesReason | backend/app/services/ai_recommendations.py:247-252 | the skills reason comes first exactly when the skill score is above 20 and the course teaches a targeted skill; it names min(3, number of matching skills) distinct matching skills |
| CourseScoring.ListsSize | backend/app/services/ai_recommendations.py:251 | a duplicate-free listing of a set has as many entries as the set |
| CourseScoring.PerfectDifficultyReason | backend/app/services/ai_recommendations.py:255-257 | the difficulty reason is given iff the course ranks at the default preference or one above it |
| CourseScoring.QuickWinReason | backend/app/services/ai_recommendations.py:270-272 | the quick-win reason is given iff the duration is set and at most 10 hours |
| CourseScoring.PopularReason | backend/app/services/ai_recommendations.py:266-268 | the popularity reason is given iff there are more than 50 enrollments |
| CourseScoring.Rank | backend/app/services/ai_recommendations.py:45-77 | at most `limit` distinct courses, in non-increasing total; no course left out scores above one kept |
| GreedyPath.PickBest | backend/app/services/ai_recommendations.py:359-386 | the pick is a course not yet on the path whose prerequisites are learned; its gain is positive, maximal, and strictly above every earlier candidate, so the first course wins ties; there is no pick iff no candidate has a positive gain |
| GreedyPath.ExtendGreedy | backend/app/services/ai_recommendations.py:359-395 | appending the greedy pick for the path so far keeps every earlier step the greedy pick for its own prefix |
| GreedyPath.ExtendPath | backend/app/services/ai_recommendations.py:388-395 | appending a candidate with the skills it teaches from the current gaps keeps the path well formed, and the learned skills grow by exactly the course's skills |
| GreedyPath.BuildPath | backend/app/services/ai_recommendations.py:350-397 | at most 20 steps, numbered 1..n; no course occurs twice; each step's prerequisites were learned before it, and its skills are exactly the still-missing targets it teaches; every step is the greedy pick (first course of greatest positive gain) given the steps before it; the loop ends only when the targets are learned, 20 steps are taken, or nothing helps |
| GreedyPath.PathTimeline | backend/app/services/ai_recommendations.py:400-407 | hours per week default to 5; the weeks are the ceiling of hours over hours per week, and 0 when that rate is not positive |
| GreedyPath.Completion | backend/app/services/ai_recommendations.py:436 | the truncated percentage lies in 0..100; with targets it is 100 iff every target is learned; without targets it is 0 |
| GreedyPath.GenerateLearningPath | backend/app/services/ai_recommendations.py:288-437 | fails with "user not found" or "no active goal" exactly as the handler does; otherwise the path is well formed from the profile's skills, every step is the greedy pick given the steps before it, it is stopped for a legitimate reason, and carries the matching timeline and completion |
| SkillGaps.Classify | backend/app/services/ai_recommendations.py:495-505 | high below 3, medium from 3 to below 7, low from 7 |
| SkillGaps.ClassifyMonotone | backend/app/services/ai_recommendations.py:502-503 | a higher level never gets a more urgent priority |
| SkillGaps.Gaps | backend/app/services/ai_recommendations.py:495-505 | one gap per target, at the profile's level (0 when missing), classified by that level |
| SkillGaps.SortByPriority | backend/app/services/ai_recommendations.py:538 | a permutation of the gaps, ordered high, medium, low, that keeps the original order within each priority |
| SkillGaps.Strengths | backend/app/services/ai_recommendations.py:508-512 | exactly the profile skills at level 7 or more |
| SkillGaps.Recommendations | backend/app/services/ai_recommendations.py:515-532 | a focus recommendation comes first iff there is a high-priority gap, and it lists all of them; a strengths recommendation comes last iff there is a strength, and it lists all of them |
| SkillGaps.CalculateReadiness | backend/app/services/ai_recommendations.py:544-566 | 100/ready without targets; otherwise the truncated share of targets at level 7 or more, in [0, 100], and 100 iff all of them are; the status follows the 80/50 thresholds |
| SkillGaps.AnalyzeSkillGaps | backend/app/services/ai_recommendations.py:446-542 | fails iff there is no profile; otherwise the gaps are a priority-sorted permutation of the per-target gaps, the strengths, the recommendations and the readiness are those of the rules above for the unsorted gaps, and the targets are echoed |
| RuleEngine.SkillGapList | backend/app/services/recommendation_engine.py:84-87 | the gaps are exactly the lower-cased targets whose level is below 7 |
| RuleEngine.InitiallyCovered | backend/app/services/recommendation_engine.py:113-116 | covering starts from exactly the skills at level 7 or more |
| RuleEngine.BuildRulePath | backend/app/services/recommendation_engine.py:118-148 | one pass in query order; courses appear in increasing position, numbered from 1; each has its prerequisites covered and credits exactly the skills it newly covers, which is non-empty; every course passed over had an unmet prerequisite or nothing new to teach |
| RuleEngine.StepsDisjoint | backend/app/services/recommendation_engine.py:127-148 | no skill is credited to two steps of a built path |
| RuleEngine.CoveredGrows | backend/app/services/recommendation_engine.py:148 | every step's skills are among the covered skills afterwards |
| RuleEngine.Remaining | backend/app/services/recommendation_engine.py:164 | the remaining gaps are the gaps not covered, in order |
| RuleEngine.Metadata | backend/app/services/recommendation_engine.py:150-165 | the course count, the hour total, the weeks as the ceiling of hours over (study hours or 10), and the remaining gaps |
| RuleEngine.GenerateRulePath | backend/app/services/recommendation_engine.py:36-167 | no path without an active goal; otherwise a justified path from the initially covered skills, every course left off it skipped for a stated reason, and metadata that counts the path's courses and hours, its weeks at the learner's pace, and the goal's gaps it leaves uncovered |
| RuleEngine.CapitalisedGapStaysRemaining | backend/app/services/recommendation_engine.py:84-87 | a target written "R" is compared lower-cased, so covering "R" still leaves the gap "r" |
| RuleEngine.ReasonFor | backend/app/services/recommendation_engine.py:169-184 | the course reason depends only on the difficulty label: "beginner" builds foundation, "intermediate" strengthens |
| RuleEngine.NextLesson | backend/app/services/recommendation_engine.py:209-254 | no enrollment gives none; otherwise the first lesson, in (module, lesson) order, that is not completed and whose prerequisites all parse to completed ids, with every earlier lesson passed over; none iff every lesson is passed over; an error iff the loop reaches a lesson whose prerequisite check meets a string `UUID` rejects |
| RuleEngine.PrereqsMet | backend/app/services/recommendation_engine.py:237-241 | the check succeeds iff every prerequisite parsed to a completed id |
| RuleEngine.PrereqsMetFails | backend/app/services/recommendation_engine.py:237-241 | the check raises iff a rejected string comes before any prerequisite that is not completed (the generator stops at the first false) |
| RuleEngine.FirstStop | backend/app/services/recommendation_engine.py:234-243 | the loop stops at the first lesson it does not pass over, having passed over every one before it |
| RuleEngine.ReadLesson | backend/app/services/recommendation_engine.py:237-239 | each prerequisite is read by `UUID()`, position by position |
| RuleEngine.PrerequisiteSpelling | backend/app/services/recommendation_engine.py:237-241 | a prerequisite written with hyphens, in upper or lower case, or as bare digits matches the completed lesson |
| RuleEngine.MalformedPrerequisiteFails | backend/app/services/recommendation_engine.py:237-241 | a prerequisite "not-a-uuid" on a lesson the loop reaches makes the call raise |
| Uuid.ParseUuid | backend/app/services/recommendation_engine.py:239 | `UUID(s)` succeeds iff the string left after removing the `urn:`/`uuid:` markers, the surrounding braces and the hyphens is 32 hexadecimal digits, and then yields 32 lower-case digits |
| Uuid.ParseFormat | backend/app/services/recommendation_engine.py:239 | the printed 8-4-4-4-12 form of a UUID and its bare digits both parse back to it |
| Uuid.ParseHexDigits | backend/app/services/recommendation_engine.py:239 | 32 hexadecimal digits in any case parse to their lower-case form |
| Uuid.RemoveAll | backend/app/services/recommendation_engine.py:239 | `str.replace(pat, '')` never lengthens, adds no character, and leaves a string without the pattern's first character unchanged |
| Uuid.TrimStart | backend/app/services/recommendation_engine.py:239 | `lstrip` returns a suffix whose dropped characters are all in the set and whose first character is not |
| Uuid.TrimEnd | backend/app/services/recommendation_engine.py:239 | `rstrip` returns a prefix whose dropped characters are all in the set and whose last character is not |
| Uuid.DropChar | backend/app/services/recommendation_engine.py:239 | removing one character keeps exactly the other characters and never lengthens |
| Uuid.DropCharConcat | backend/app/services/recommendation_engine.py:239 | removing a character distributes over concatenation |
| RuleEngine.WeakSkills | backend/app/services/recommendation_engine.py:283-291 | the keys are exactly the skills with some score below 0.7, each listed once |
| RuleEngine.WeakSkillsMinimal | backend/app/services/recommendation_engine.py:288-291 | a weak skill's recorded score is at most each of its weak scores |
| RuleEngine.WeakSkillsAttained | backend/app/services/recommendation_engine.py:288-291 | the recorded score is one the skill actually had |
| RuleEngine.StruggleRules | backend/app/services/recommendation_engine.py:360-383 | flagged iff some reason fires; a reason fires iff time exceeds twice the expected time, pauses exceed 10, rewinds exceed 8, or completion is below 50 with time above the expected time |
| RuleEngine.DetectStruggling | backend/app/services/recommendation_engine.py:327-385 | no progress row means not struggling; the call fails exactly when the lesson has no estimate and completion is below 50 (see Findings) |
| RuleEngine.DetectStrugglingAgrees | backend/app/services/recommendation_engine.py:360-383 | whenever the handler returns, it returns the rules' verdict |
| RuleEngine.AdjustDifficulty | backend/app/services/recommendation_engine.py:417-434 | unchanged below 3 attempts; one up (at most 10) from an average of 90, one down (at least 1) below 60, else unchanged; a difficulty in [1, 10] stays there |
| RuleEngine.AdjustDifficultyMonotone | backend/app/services/recommendation_engine.py:417-434 | a better average never gives a lower difficulty |
| SkillAssessment.CheckAnswer | backend/app/services/skill_assessment.py:114-150 | a falsy answer is never correct; true/false compares truthiness, an absent key answer being false; multiple select compares the answer set with the correct set as Python sets compare them, `True` as 1 and `False` as 0, a scalar answer counting as a singleton; short answer looks the normalised answer up in the lower-cased accepted list; unknown types are never correct |
| SkillAssessment.McqVerdict | backend/app/services/skill_assessment.py:128-132 | multiple choice (also the default type) compares `str(x).strip().lower()` of the answer and the key's answer, `''` when the key has none |
| SkillAssessment.McqIgnoresCaseAndSpace | backend/app/services/skill_assessment.py:128-132 | for text answers, mcq is equality up to case and surrounding space, whether the type is given or defaulted |
| SkillAssessment.McqNormalised | backend/app/services/skill_assessment.py:130-132 | normalising an answer before submitting it changes no verdict |
| SkillAssessment.ScalarIsSingleton | backend/app/services/skill_assessment.py:134-138 | a single answer matches a one-element key and fails a two-element one |
| SkillAssessment.NullKeyReadsNone | backend/app/services/skill_assessment.py:130-132 | a key answer of JSON null reads as `str(None)`, so "None" is right for it and wrong for a key without an answer |
| SkillAssessment.TrueMatchesOne | backend/app/services/skill_assessment.py:134-138 | `{True} == {1}`: the answer `true` matches the key `[1]` |
| SkillAssessment.ReprSwitchesQuotes | backend/app/services/skill_assessment.py:130-132 | `str` of a list shows a string holding a single quote in double quotes |
| SkillAssessment.TallyMatchesCounts | backend/app/services/skill_assessment.py:59-82 | the per-skill tally equals the skill's own count over every tag record |
| SkillAssessment.TallyKeys | backend/app/services/skill_assessment.py:64-71 | a skill is tallied iff some answered question is tagged with it |
| SkillAssessment.StatsBounds | backend/app/services/skill_assessment.py:64-82 | correct never exceeds total, total is positive iff the skill is mentioned, and the maximum difficulty is never negative |
| SkillAssessment.Confidence | backend/app/services/skill_assessment.py:98 | the confidence lies in [0, 1] and is 1 iff at least 5 questions are tagged |
| SkillAssessment.SkillLevel | backend/app/services/skill_assessment.py:92-101 | the level is capped at 10 |
| SkillAssessment.RawLevelMonotone | backend/app/services/skill_assessment.py:92-99 | before rounding, more correct answers never lower the level, and none gives exactly 0 |
| SkillAssessment.SkillLevelMonotone | backend/app/services/skill_assessment.py:92-101 | more correct answers never lower the level, and no correct answers give level 0 |
| SkillAssessment.LevelsAndGaps | backend/app/services/skill_assessment.py:88-107 | every tallied skill gets its level; a skill is a gap iff its level is below 5, or its average difficulty is at most 3 with accuracy below 0.6 |
| SkillAssessment.Diagnose | backend/app/services/skill_assessment.py:28-112 | a skill gets a level iff some question tagged with it exists; that level is the level of the skill's own records; a skill is a gap iff it has records and they make it a gap |
| SkillAssessment.TallyEntry | backend/app/services/skill_assessment.py:57-86 | each tally entry holds exactly its skill's counts |
| SkillAssessment.MergeProfile | backend/app/services/skill_assessment.py:152-183 | a new profile takes the levels as they are; an existing one takes `MergeLevels` of its levels, so every assessed skill ends at least at its old and its new level; the gaps are always replaced |
| SkillAssessment.MergeProfileAsWritten | backend/app/services/skill_assessment.py:174-183 | as stored: an existing non-empty level dict stays as it was, since the in-place update goes unseen; an empty one takes the merge; the gaps are always replaced (see Findings) |
| SkillAssessment.StoredLevelsNotRaised | backend/app/services/skill_assessment.py:174-183 | python at 3 assessed at 7: the code as written keeps 3 stored, the merge gives 7 |
| SkillAssessment.MergeProfileAgrees | backend/app/services/skill_assessment.py:166-176 | without a profile or with empty levels, the code as written stores the merge |
| SkillAssessment.MergeLevels | backend/app/services/skill_assessment.py:176-182 | the keys are the union; a skill absent from the new result keeps its old level |
| SkillAssessment.MergeExact | backend/app/services/skill_assessment.py:176-182 | with distinct keys on both sides, an assessed skill ends at exactly the higher of its old and its new level |
| SkillAssessment.MergeDominates | backend/app/services/skill_assessment.py:178-180 | each merged skill ends at least at both its old and its new level |
| SkillAssessment.MergeNeverLowers | backend/app/services/skill_assessment.py:175-182 | no skill's level drops in a merge |
| SkillAssessment.SkillFromHistory | backend/app/services/skill_assessment.py:204-235 | None iff none of the 10 most recent attempts mention the skill; otherwise a value within the range of those scores times 10, up to rounding |
| SkillAssessment.WeightedMeanBetween | backend/app/services/skill_assessment.py:225-233 | the mean with weight 1/(i+1) for the i-th most recent score lies between the smallest and the largest score |
| SkillAssessment.RecentScoreWeighsMore | backend/app/services/skill_assessment.py:225-235 | the latest 0.9 and an older 0.4 give 7.3: the weights are 1 and 1/2 |
| SkillAssessment.SkillBreakdown | backend/app/services/skill_assessment.py:237-296 | empty without the attempt; otherwise one entry per tagged skill, whose correct count, total and difficulty sum are that skill's own counts over the answered questions; accuracy is correct over total and lies in [0, 1], the average difficulty is the difficulty sum over total, and both ratios are 0 for an empty total |
| AdaptiveAssessment.AnsweredIds | backend/app/services/adaptive_assessment.py:69 | exactly the ids of the previous answers |
| AdaptiveAssessment.TargetTier | backend/app/services/adaptive_assessment.py:78-86 | hard from accuracy 0.8, medium from 0.5, easy below |
| AdaptiveAssessment.TargetTierMonotone | backend/app/services/adaptive_assessment.py:78-86 | more correct answers never lower the target tier |
| AdaptiveAssessment.Unanswered | backend/app/services/adaptive_assessment.py:72 | exactly the questions whose ids are not answered |
| AdaptiveAssessment.NextQuestionAgrees | backend/app/services/adaptive_assessment.py:35-50 | wherever the code as written returns, it returns what the corrected version returns |
| AdaptiveAssessment.NextQuestion | backend/app/services/adaptive_assessment.py:22-105 | without history: a medium question if any, else the first one; with history: never an answered question, none once all are answered, the target tier when available, else the first unanswered question |
| AdaptiveAssessment.QuestionNumber | backend/app/services/adaptive_assessment.py:103 | the question number is one more than the answers so far |
| AdaptiveAssessment.Multiplier | backend/app/services/adaptive_assessment.py:124-140 | the multipliers lie between 1 and 2 |
| AdaptiveAssessment.EarnedAtMostPossible | backend/app/services/adaptive_assessment.py:133-146 | with non-negative points nothing is negative, and no more is earned than is possible |
| AdaptiveAssessment.UnknownAnswersIgnored | backend/app/services/adaptive_assessment.py:137 | an answer to an unknown question changes neither total |
| AdaptiveAssessment.Percentage | backend/app/services/adaptive_assessment.py:148 | earned over possible times 100, 0 when nothing is possible, in [0, 100] |
| AdaptiveAssessment.AdaptiveScore | backend/app/services/adaptive_assessment.py:107-155 | the points are `int()` of the weighted points earned and possible, so 0 <= earned <= possible; the percentage times the possible points is 100 times the earned ones (0 when nothing is possible), in [0, 100]; the breakdown is the tier breakdown of the same answers |
| AdaptiveAssessment.TierPercent | backend/app/services/adaptive_assessment.py:179-183 | 0 for an empty tier, else correct over total times 100, in [0, 100] |
| AdaptiveAssessment.TierBreakdown | backend/app/services/adaptive_assessment.py:163-185 | correct never exceeds total in any tier, and the tier totals count each known question with a named tier once |
| AdaptiveAssessment.CountNamedTier | backend/app/services/adaptive_assessment.py:173-177 | counting one answer touches only its own tier's counters, adding one to the total and one to correct for a correct answer |
| AdaptiveAssessment.TierBreakdownCounts | backend/app/services/adaptive_assessment.py:169-177 | each named tier's total grows by exactly the answers to known questions of that tier, and its correct count by the correct ones among them |
| AdaptiveAssessment.BreakdownAgrees | backend/app/services/adaptive_assessment.py:169-177 | where every answered question has a named tier, the code as written returns the corrected breakdown |
| AdaptiveAssessment.Performance | backend/app/services/adaptive_assessment.py:278-289 | expert iff the score is at least 90, beginner iff it is below 60 |
| AdaptiveAssessment.PerformanceMonotone | backend/app/services/adaptive_assessment.py:278-289 | the level never drops as the score rises, and it is set by 10-point bands from 60 |
| AdaptiveAssessment.Strengths | backend/app/services/adaptive_assessment.py:291-312 | from 70 (with skills) every sampled skill is a strength, consistency from 80, problem solving from 90; the baseline alone iff below 70, or below 80 with no skills |
| AdaptiveAssessment.Improvements | backend/app/services/adaptive_assessment.py:314-334 | below 70 (with skills) every sampled skill needs review, foundations below 60, practice below 80; "keep practising" alone from 80 |
| AdaptiveAssessment.FirstRows | backend/app/services/adaptive_assessment.py:352-357 | the query's `limit(3)`: the first three rows, or all when fewer |
| AdaptiveAssessment.Relevant | backend/app/services/adaptive_assessment.py:360-363 | exactly the rows teaching an assessed skill |
| AdaptiveAssessment.StudyPicks | backend/app/services/adaptive_assessment.py:346-371 | at most two, only below 80, each a fetched row teaching an assessed skill |
| AdaptiveAssessment.ScoreItems | backend/app/services/adaptive_assessment.py:373-395 | practice iff below 70, retake iff below 60, advanced topics iff at least 85, and no study item |
| AdaptiveAssessment.Recommendations | backend/app/services/adaptive_assessment.py:336-397 | the study picks come first and in order, and no study item follows them; practice iff below 70, retake iff below 60, advanced topics iff at least 85; a study item names a fetched course teaching an assessed skill, and only below 80 |
| AdaptiveAssessment.RecommendationsCoherent | backend/app/services/adaptive_assessment.py:336-397 | below 80, with skills and a fetched course teaching one, a course is recommended; advanced topics come alone; a retake always comes with practice |
| AdaptiveAssessment.Compare | backend/app/services/adaptive_assessment.py:399-428 | none without a previous attempt; otherwise improving iff up by more than 5, declining iff down by more than 5, and the attempts are one more than before |
| AdaptiveAssessment.CompareAntisymmetric | backend/app/services/adaptive_assessment.py:411-419 | swapping the two scores swaps improving and declining, and keeps stable |
| AdaptiveAssessment.NextSteps | backend/app/services/adaptive_assessment.py:430-455 | two steps if passed, three if failed, plus a project with the first skill; the passed steps split at 80 |
| LearningAnalytics.CalculateStreak | backend/app/services/learning_analytics.py:162-176 | 0 without dates; otherwise the longest prefix of dates each equal to the expected day or the day before, never more than the number of dates |
| LearningAnalytics.StreakDetermined | backend/app/services/learning_analytics.py:169-174 | the streak is the unique prefix length with that property |
| LearningAnalytics.PerformanceTrend | backend/app/services/learning_analytics.py:217-227 | insufficient data iff either half-average is missing or zero; otherwise improving from +5 and declining from -5 |
| LearningAnalytics.TrendAntisymmetric | backend/app/services/learning_analytics.py:220-227 | swapping the halves swaps improving and declining |
| LearningAnalytics.CompletionRate | backend/app/services/learning_analytics.py:125-128 | completed over total, 0 without lessons, and in [0, 1] |
| LearningAnalytics.AggregateMatches | backend/app/services/learning_analytics.py:352-364 | each skill's list holds exactly its scores times 100, in attempt order |
| LearningAnalytics.Bucket | backend/app/services/learning_analytics.py:374-379 | critical below 40, needs help from 40 to below 50, review otherwise |
| LearningAnalytics.StrugglingTopics | backend/app/services/learning_analytics.py:349-391 | exactly the skills whose mean is below the threshold, sorted by ascending rounded mean; a permutation of the topics in first-scored order, equal means keeping that order |
| LearningAnalytics.SortByAverage | backend/app/services/learning_analytics.py:388 | `list.sort(key=avg_score)`: ascending, a permutation of its input (same multiset), and stable: equal averages keep their input order |
| LearningAnalytics.PermuteKeepsMultiset | backend/app/services/learning_analytics.py:388 | rearranging by a permutation of the positions keeps every topic as often as it occurs |
| LearningAnalytics.PermuteSameMultiset | backend/app/services/learning_analytics.py:388 | two position lists holding the same positions select the same multiset of topics |
| LearningAnalytics.PermuteStable | backend/app/services/learning_analytics.py:388 | rearranging by a stable ascending order keeps equal-average topics in their original order |
| LearningAnalytics.StrugglingTopicListed | backend/app/services/learning_analytics.py:369-386 | a skill is listed iff it has scores whose mean is below the threshold, and it is listed with its own statistics |
| LearningAnalytics.WeeklyAdjustment | backend/app/services/learning_analytics.py:421-464 | adjustments are needed iff some rule fires; each of the four rules fires iff its condition holds |
| LearningAnalytics.AccelerateExcludesRemedies | backend/app/services/learning_analytics.py:425-457 | acceleration never comes with revision or load reduction |
| LearningAnalytics.PaceFor | backend/app/services/learning_analytics.py:501-513 | the ratio is actual over expected hours, or 0 when the expectation is not positive; ahead above 1.2, behind below 0.8 |
| LearningAnalytics.LearningPaceAsWritten | backend/app/services/learning_analytics.py:488-503 | fails exactly when the profile exists with no weekly hours (see Findings) |
| LearningAnalytics.LearningPace | backend/app/services/learning_analytics.py:488-513 | expects the profile's hours, or 10 without them |
| LearningAnalytics.LearningPaceAgrees | backend/app/services/learning_analytics.py:488-503 | the corrected pace equals the code's wherever the code returns |
| LearningAnalytics.Peaks | backend/app/services/learning_analytics.py:287-299 | at most k distinct values, by non-increasing count; no value left out is more frequent than one kept |
| LearningAnalytics.MostFrequent | backend/app/services/learning_analytics.py:266-308 | a value of the list occurring at least as often as any other, and among equally frequent values the one counted first, as `max` keeps the first maximal dict item |
| LearningAnalytics.MostFrequentUnique | backend/app/services/learning_analytics.py:305-308 | those three conditions determine the value: any value meeting them is the one returned |
| LearningAnalytics.FirstMax | backend/app/services/learning_analytics.py:305-308 | the first position holding the largest count: no count is larger and every earlier count is smaller |
| LearningAnalytics.EngagementPatterns | backend/app/services/learning_analytics.py:258-315 | empty defaults without sessions; otherwise the three busiest hours, the two busiest days, and the most frequent content type, which is none iff no session has one; the average session is a whole number of tenths within 0.05 of the mean recorded duration in minutes, and 0 without recorded durations |
| LearningAnalytics.AverageSession | backend/app/services/learning_analytics.py:301-313 | `round(avg_duration, 1)`: a whole number of tenths within 0.05 of the mean duration in minutes, 0 for no durations |
| Gamification.ISqrt | backend/app/models/gamification.py:114 | the integer square root: r² ≤ n < (r+1)² |
| Gamification.CalculateLevel | backend/app/models/gamification.py:111-114 | at least 1, with XP below the next level's threshold; from level 2 on, the level's own threshold is reached |
| Gamification.LevelMonotone | backend/app/models/gamification.py:111-114 | more XP never gives a lower level |
| Gamification.LevelBand | backend/app/models/gamification.py:111-119 | any XP between level² × 100 and (level+1)² × 100 gives that level |
| Gamification.XpForNextLevel | backend/app/models/gamification.py:116-119 | the next threshold is (level+1)² × 100 |
| Gamification.AwardXp | backend/app/services/gamification.py:82-105 | the total grows by the amount, the level is recomputed, a level-up is reported iff the level rose, the next threshold lies above the total, and nothing else changes |
| Gamification.AwardNeverLowersLevel | backend/app/services/gamification.py:83-91 | an award never lowers a current level |
| Gamification.UpdateStreak | backend/app/services/gamification.py:115-149 | same day: unchanged; yesterday: one more day and the streak XP; never or earlier: back to 1; a future date keeps the count; XP and level move only on the yesterday branch; afterwards the longest streak is the larger of the old longest and the new current streak, the last activity is today, and no other field changes |
| Gamification.UpdateStreakIdempotent | backend/app/services/gamification.py:118-123 | a second update on the same day changes nothing |
| Gamification.QuizXp | backend/app/services/gamification.py:192-200 | 150 for exactly 100, 100 from 70, 50 below |
| Gamification.QuizXpMonotone | backend/app/services/gamification.py:192-200 | a better score up to 100 never earns less |
| Gamification.OnQuizCompleted | backend/app/services/gamification.py:178-208 | one more quiz and the tier's XP, other counters unchanged |
| Gamification.OnLessonCompleted | backend/app/services/gamification.py:151-176 | one more lesson, the study minutes added, exactly the lesson XP plus the streak XP when and only when the last activity was yesterday, activity recorded today, course and quiz counts untouched |
| Gamification.OnCourseCompleted | backend/app/services/gamification.py:210-229 | one more course and the course XP |
| Gamification.Counter | backend/app/services/gamification.py:296-307 | a counter exists exactly for the six known requirement types |
| Gamification.CheckAchievements | backend/app/services/gamification.py:265-335 | every unlocked achievement was locked and of a known type, and its requirement is met by the stats the pass ends with; every locked one whose counter meets its value unlocks; the unlock count grows by exactly the number unlocked |
| Gamification.UnlocksOnce | backend/app/models/gamification.py:59-61 | with distinct achievement ids, the pass unlocks each achievement at most once, as the unique constraint on user and achievement requires |
| Gamification.CheckAchievementsAsWritten | backend/app/services/gamification.py:285-330 | the code as written fails exactly when the single pass would unlock two or more achievements; otherwise it returns the pass (see Findings) |
| Gamification.SecondUnlockFails | backend/app/services/gamification.py:285-330 | two different locked achievements already met are both unlocked once by the corrected pass, while the code as written fails |
| Gamification.NewLearnerMeetsTwo | backend/app/services/gamification.py:296-298 | a new learner meets two zero-lesson achievements, so the failure above is reachable |
| Gamification.UnknownTypeNeverUnlocks | backend/app/services/gamification.py:294-309 | an unknown requirement type never unlocks |
| Gamification.SingleRank | backend/app/services/gamification.py:377-382 | the rank lies in 1..n+1; it is 1 iff nobody has more XP, and n+1 iff everybody does |
| Gamification.SingleRankMonotone | backend/app/services/gamification.py:377-382 | more XP never gives a worse rank |
| Gamification.RebuildLeaderboard | backend/app/services/gamification.py:410-432 | ranks 1..n by non-increasing XP, listing every user once |
| Gamification.RebuildRankAtLeastSingleRank | backend/app/services/gamification.py:377-432 | a rebuilt rank is never better than the single-user rank of the same XP |
| Dashboard.StreakPart | backend/app/api/dashboard.py:349-353 | a streak sentence iff the streak is at least 3; it opens with the fire mark from 7, otherwise with "Great" |
| Dashboard.StreakPartReadsBack | backend/app/api/dashboard.py:351-353 | the number in the sentence parses back to the streak |
| Dashboard.TrendPart | backend/app/api/dashboard.py:355-358 | a trend sentence iff the trend is improving or declining |
| Dashboard.FocusPart | backend/app/api/dashboard.py:360-362 | a focus sentence iff some topic is struggling, naming the first one |
| Dashboard.CompletionPart | backend/app/api/dashboard.py:364-365 | a consistency sentence iff the completion rate is above 0.8 |
| Dashboard.MessageParts | backend/app/api/dashboard.py:347-365 | exactly the sentences of the rules that fire, in rule order (streak, trend, focus, completion); no parts iff no rule fires, and no part can be taken for the fallback |
| Dashboard.PresentMembers | backend/app/api/dashboard.py:347-365 | a sentence is among the parts exactly when its rule produced it |
| Dashboard.PresentOfFour | backend/app/api/dashboard.py:347-365 | the four rules append their sentences one after the other |
| Dashboard.PersonalizedMessage | backend/app/api/dashboard.py:367 | the fallback iff no rule fires; otherwise `" ".join(parts)`: every part at its offset, in order, a single space between consecutive parts, and nothing else |
| Text.JoinTiles | backend/app/api/dashboard.py:367 | `sep.join(parts)` is tiled by the parts at increasing offsets with `sep` after all but the last, and its length is the parts' lengths plus the separators |
| Text.JoinPartAt | backend/app/api/dashboard.py:367 | the i-th part sits right after the earlier parts and separators |
| Text.JoinSepAt | backend/app/api/dashboard.py:367 | a separator follows each part but the last |
| Text.JoinLength | backend/app/api/dashboard.py:367 | the joined string is as long as the parts plus one separator fewer than there are parts |
| Dashboard.PredictedCompletion | backend/app/api/dashboard.py:370-375 | an estimate iff there is an active goal |
| Dashboard.AreasForImprovement | backend/app/api/dashboard.py:383 | the first three struggling skills, in order |
| Dashboard.Strengths | backend/app/api/dashboard.py:388-404 | each strength is present iff its own threshold holds, and none is repeated |
| Dashboard.StrengthsMonotone | backend/app/api/dashboard.py:392-402 | better figures never lose a strength |
| Dashboard.Pad2 | backend/app/api/dashboard.py:414 | at least two digits that parse back to the hour, exactly two below 100 |
| Dashboard.StudyRecommendation | backend/app/api/dashboard.py:407-418 | the fixed fallback iff the peak hours or the peak days are missing; otherwise the advice names the days |
| Dashboard.StudyRecommendationReadsHour | backend/app/api/dashboard.py:414-416 | the two digits before ":00" read back as the first peak hour |
| Dashboard.AiInsights | backend/app/api/dashboard.py:331-385 | the pace shown is the trend; the prediction, the message and the advice are exactly `PredictedCompletion`, `PersonalizedMessage` and `StudyRecommendation` above, with their fallbacks iff no rule fires; the strengths are those of the performance; the areas are `AreasForImprovement`, the first min(3, n) struggling skills |
| NextAction.FirstIncomplete | backend/app/api/ai.py:145-147 | the first enrollment below 100% |
| NextAction.NextBestAction | backend/app/api/ai.py:145-213 | continue the first unfinished course if any; else start the top recommendation when there are goals and recommendations; else take the first unattempted diagnostic; else set a goal without goals, or explore with them |
| NextAction.RecentCourseComesFirst | backend/app/api/ai.py:145-155 | an unfinished course at the head of the enrollment list (the most recently accessed) is always the next action |
| NextAction.ContinueProgressBelowHundred | backend/app/api/ai.py:150-155 | the reported progress of a course to continue is a whole percentage in 0..99 |
| NextAction.SettledLearner | backend/app/api/ai.py:203-213 | with everything finished and attempted, no goals give "set a goal", and goals without recommendations give "explore" |
| LiveClass.Start | backend/app/api/live_class.py:195-205 | not found, or already in progress, is rejected; any other status starts, with the meeting URL and start time set |
| LiveClass.Join | backend/app/api/live_class.py:227-261 | only an in-progress class can be joined; a first join creates an open record with no minutes and counts the user; a rejoin reopens the record, keeps its accumulated minutes and counts nobody; other records and every other field of the session stay |
| LiveClass.Close | backend/app/api/live_class.py:292-300 | closing a record stamps the leave time and changes nothing else but the minutes; with a join time it adds the whole minutes since the join, truncated toward zero (`added*60 <= elapsed < (added+1)*60` for a non-negative elapsed time), and never shortens the attended minutes |
| LiveClass.Leave | backend/app/api/live_class.py:287-304 | a non-attendee is rejected; otherwise the record is closed and the count drops only when positive, so it never goes negative; the status, URLs and times stay |
| LiveClass.End | backend/app/api/live_class.py:330-342 | an ended class is rejected; otherwise it is completed with no participants and the end time set; a new non-empty recording URL is stored, otherwise the old one is kept; the meeting URL, start time and records stay |
| LiveClass.Delete | backend/app/api/live_class.py:395-398 | a class in progress cannot be deleted |
| LiveClass.RestartAfterEnd | backend/app/api/live_class.py:197-203 | an ended class can be started again and then joined |
| LiveClass.JoinAgrees | backend/app/api/live_class.py:232-254 | on a first join the corrected join equals the code's |
| LiveClass.LeaveAgrees | backend/app/api/live_class.py:287-304 | leaving an open record with a correct counter is the same in both versions |
| WsRegistry.Members | backend/app/core/websocket_manager.py:14-20 | a `defaultdict(set)` read: the stored set, or the empty one |
| WsRegistry.Connect | backend/app/core/websocket_manager.py:22-26 | the connection joins its user's set and maps to the user; nothing else changes |
| WsRegistry.ConnectGood | backend/app/core/websocket_manager.py:22-26 | connecting keeps the registry consistent unless the connection belonged to someone else |
| WsRegistry.DropFromRooms | backend/app/core/websocket_manager.py:38-43 | every room loses the connection, and exactly the rooms it empties are dropped |
| WsRegistry.Disconnect | backend/app/core/websocket_manager.py:29-43 | an unregistered connection (or one with an empty user id) changes nothing; otherwise the connection leaves its user's set, which keeps its other connections, the map, whose other entries keep their users, and every room, where each room keeps its other members and is dropped only once empty; other users and untouched rooms stay |
| WsRegistry.DisconnectGood | backend/app/core/websocket_manager.py:29-43 | disconnecting keeps the registry consistent, leaving the connection in no user's set |
| WsRegistry.ConnectDisconnect | backend/app/core/websocket_manager.py:22-43 | connecting a fresh connection and disconnecting it restores the registry |
| WsRegistry.JoinRoom | backend/app/core/websocket_manager.py:47-50 | the room gains the connection, created on first use; nothing else changes |
| WsRegistry.LeaveRoom | backend/app/core/websocket_manager.py:52-57 | an unknown room is a no-op; otherwise the connection leaves, and the room is dropped iff it empties |
| WsRegistry.RoomsGood | backend/app/core/websocket_manager.py:47-57 | room moves keep the registry consistent |
| WsRegistry.JoinLeaveRoom | backend/app/core/websocket_manager.py:47-57 | joining a room and leaving it restores the registry |
| WsRegistry.RoomUsers | backend/app/core/websocket_manager.py:105-115 | exactly the users behind the room's registered connections |
| WsRegistry.OnlineIffConnected | backend/app/core/websocket_manager.py:117-119 | under the invariant a user is online iff some connection maps to them |
| WsRegistry.ConnectOnline | backend/app/core/websocket_manager.py:22-26 | a user is online after connecting |
| WsRegistry.LastDisconnectOffline | backend/app/core/websocket_manager.py:33-37 | a user is offline once their last connection is gone |
| WsRegistry.Recipients | backend/app/core/websocket_manager.py:75-89 | the room's connections minus the excluded one; nobody for an unknown room |
| InstructorAnalytics.DraftsAreUnpublished | backend/app/api/instructor.py:72 | total minus published is the number of unpublished courses |
| InstructorAnalytics.CompletionRate | backend/app/api/instructor.py:145-159 | 0 without enrollments, else completed over total times 100, in [0, 100]; 100 iff all completed, 0 iff none |
| InstructorAnalytics.CompletionRateAsWritten | backend/app/api/instructor.py:145-159 | fails exactly when the course has an enrollment (see Findings) |
| InstructorAnalytics.CompletionRateAgrees | backend/app/api/instructor.py:145-159 | wherever the code as written returns, it returns the corrected rate |
| InstructorAnalytics.Bar | backend/app/api/instructor.py:266-272 | a value gets one of the four bars iff it lies in [0, 100], and the last bar holds [75, 100], 100 included |
| InstructorAnalytics.HistogramSnoc | backend/app/api/instructor.py:266-272 | one more value adds one to exactly its own bar, and to none when out of range |
| InstructorAnalytics.CountInSnoc | backend/app/api/instructor.py:266-272 | one more value adds one to a bar's count exactly when it falls in that bar |
| InstructorAnalytics.HistogramCoversRange | backend/app/api/instructor.py:266-272 | the bars add up to the number of in-range values: they are disjoint and cover [0, 100] |
| InstructorAnalytics.Summarize | backend/app/api/instructor.py:279-280 | the enrollment count is the number of values; the average is their mean, or 0 when empty |
| InstructorAnalytics.AverageBetween | backend/app/api/instructor.py:280 | the average stays within any bounds all values keep |
| Upload.AfterLastDot | backend/app/api/upload.py:31 | the suffix after the last dot, with no dot in it; the whole name when there is no dot |
| Upload.AfterLastDotOfName | backend/app/api/upload.py:31 | a name "stem.ext" gives back ext whatever the stem |
| Upload.UploadOne | backend/app/api/upload.py:30-59 | a disallowed extension is rejected with the allowed list; an empty storage URL fails; otherwise the response carries the URL and the name |
| Upload.ExtensionIgnoresCase | backend/app/api/upload.py:31 | the extension is the same for a lower-cased name |
| Upload.BareExtensionAccepted | backend/app/api/upload.py:31-33 | a file named just "mp4", with no dot, passes as a video |
| Upload.BatchType | backend/app/api/upload.py:185-196 | video first, then image, then the batch document list; none otherwise |
| Upload.BatchTypeAgreesWithSingle | backend/app/api/upload.py:185-193 | any file the batch accepts, the single endpoint for its type accepts too |
| Upload.BatchSkipsSlides | backend/app/api/upload.py:125-132 | a slide deck is a valid single document but is skipped in a batch |
| Upload.UploadedIndices | backend/app/api/upload.py:180-202 | the positions of the uploaded files, strictly increasing, each uploaded, and covering every uploaded position |
| Upload.BatchResults | backend/app/api/upload.py:178-207 | one response per uploaded file in file order: the k-th response is that of the k-th uploaded position; so the results are exactly the uploaded files' responses, and empty iff nothing was uploaded |
| Upload.UploadBatch | backend/app/api/upload.py:172-213 | more than 10 files are rejected; otherwise it fails iff nothing was uploaded |
| UserSchema.AnyDigit | backend/app/schemas/user.py:19 | true iff some character is a digit |
| UserSchema.Bounded | backend/app/schemas/user.py:12-13 | accepted iff the length lies within the declared bounds, unchanged |
| UserSchema.PasswordStrength | backend/app/schemas/user.py:16-23 | no digit is rejected first, then no letter; accepted iff both exist, and returned unchanged |
| UserSchema.PasswordAccepted | backend/app/schemas/user.py:12-23 | an accepted password has 8 to 128 characters, a digit and a letter, and is stored as typed |
| UserSchema.NameNotEmpty | backend/app/schemas/user.py:25-29 | rejected iff only whitespace; otherwise stored stripped, non-empty, with no surrounding space |
| UserSchema.NameNotEmptyIdempotent | backend/app/schemas/user.py:25-29 | validating an accepted name again changes nothing |
| UserSchema.UpdateName | backend/app/schemas/user.py:43-47 | an absent or empty name passes through; otherwise the registration rule applies |
| UserSchema.UpdateAgreesWithCreate | backend/app/schemas/user.py:43-47 | for a non-empty name, update and registration accept and store alike |
| UserSchema.UpdateFullName | backend/app/schemas/user.py:40-47 | an absent name passes; a present one is accepted and stored exactly as at registration, and the empty name is too short |
| UserSchema.FullNameAsWritten | backend/app/schemas/user.py:13-29 | the bounds are checked on the raw input and the stored value is the stripped one (see Findings) |
| UserSchema.FullNameBelowMinimum | backend/app/schemas/user.py:13-29 | " a " is accepted and stored as "a", below the declared minimum |
| UserSchema.FullName | backend/app/schemas/user.py:13-29 | accepted iff the stripped name has 2 to 255 characters, and stored stripped |
| UserSchema.FullNameAgrees | backend/app/schemas/user.py:13-29 | on names without surrounding whitespace the two orders agree |
| RuleEngine.DetectStrugglingFailsWithoutEstimate | backend/app/services/recommendation_engine.py:360-383 | a lesson with no estimate and completion below 50 makes the handler fail |
| AdaptiveAssessment.BreakdownFailsOnStoredLevel | backend/app/services/adaptive_assessment.py:174-175 | an answer to a question stored with an integer difficulty makes the breakdown fail |
| LearningAnalytics.PaceFailsWithoutHours | backend/app/services/learning_analytics.py:488-503 | a profile without weekly hours makes the pace analysis fail |
| AdaptiveAssessment.NextQuestionAsWritten | backend/app/services/adaptive_assessment.py:35-50 | fails exactly when the assessment exists (see Findings) |
| AdaptiveAssessment.NextQuestionFailsOnStoredAssessment | backend/app/services/adaptive_assessment.py:44-48 | a stored assessment with questions makes the code as written fail where the corrected version serves a question |
| InstructorAnalytics.CompletionRateFailsWithEnrollments | backend/app/api/instructor.py:145-157 | one completed enrollment makes the code as written fail where the corrected rate is 100 |
| LiveClass.RejoinUndercounts | backend/app/api/live_class.py:232-304 | join, leave and rejoin leave the user in the room with a counter of 0 |
| LiveClass.JoinTracked | backend/app/api/live_class.py:232-261 | the corrected join puts the user in the room and keeps the counter equal to the room, changing only the records and the counter |
| LiveClass.LeaveTracked | backend/app/api/live_class.py:287-304 | the corrected leave takes the user out, keeps the counter right, is a no-op for a record already closed, and changes only the records and the counter |
| LiveClass.EndTracked | backend/app/api/live_class.py:332-342 | the corrected end closes every record, so the room is empty with the counter at 0 |

## Left out

- Database access, sessions and commits: every query result is a parameter. This includes the course query of the rule-based path builder, with its skill-overlap filter and difficulty ordering, which becomes the given course order.
- The clock, `random`, UUIDs, the object-store and media-conversion calls, and the websocket sends, accept and error cleanup are not modelled. Their outcomes are parameters (`now`, `today`, `pick`, sampled skills, the storage URL).
- Float rounding: values are exact reals. `round(x, 2)` on the reported scores, the completion rates and the pace is not modelled. `round(x, 1)` is bounded to within 0.05 of its argument (`Round1`).
- Python's set iteration order (which three matching skills the skills reason names) depends on string hashing; it is the parameter `listed` of `CourseScoring.Reasons`.
- `SkillAssessment.CheckAnswer`: `repr`'s escapes inside a listed answer (backslashes, control characters, a string holding both quote marks) are not modelled, nor are float answers; a list nested in the key's `answers` would make `set()` raise `TypeError`, and here it is compared as a value.
- `Uuid.ParseUuid`: Python's `int(digits, 16)` also accepts, among the 32 characters, a sign, a `0x` or `0X` prefix, surrounding whitespace, underscores between digits, and non-ASCII decimal digits; such strings are rejected here, so `"0x"` followed by 30 hexadecimal digits is a UUID in Python and not in the model. The `TypeError` for a non-string prerequisite is not modelled: prerequisites are strings.
- Text: `str.lower`, `isdigit` and `isalpha` do not handle non-ASCII characters here; `strip` and `split()` do, through Python's full `isspace` set.
- The message texts that embed f-string float formatting (the comparison message, the weekly-adjustment reasons, the revision reason) are not modelled; their kind is kept as a datatype constructor.
- `AdaptiveAssessment.Recommendations`: the published-course query (`is_published`, `limit(3)`, database order) is a parameter, and the item titles and descriptions are not modelled; each item is its constructor.
- The nested achievement re-check that each `award_xp` call triggers is modelled only through its outcome: `CheckAchievementsAsWritten` fails when the single pass unlocks two or more achievements (see Findings). When the pass unlocks exactly one, the nested run may still unlock achievements listed before it that its XP now meets; that case is not modelled.
- XP amounts are natural numbers; the source's `int` would accept negative awards.
- `Gamification.CheckAchievements`: each unlocked achievement's points are paid through `AwardXp`, so later checks in the same pass see the raised XP. The contract does not state the XP total itself; it states the unlock counter, the level staying current, the set unlocked, and that each unlocked requirement holds at the end of the pass.
- `CourseScoring.Rank`, `Sorting.TopK` and `LearningAnalytics.Peaks`: the order among equal scores is not stated, although Python's stable sort keeps input order.
- `Gamification.RebuildLeaderboard`: as above, the order of users with equal XP is not stated.
- `SkillAssessment.SkillFromHistory`: the value is stated only as lying within the range of the weighted scores (plus the worked example), not as the exact weighted mean.
- `SkillAssessment.SkillLevel`: only the cap and monotonicity are stated, not the exact rounded product.
- `AdaptiveAssessment.AdaptiveScore`: the percentage is the exact quotient; `round(percentage, 2)` is not applied.
- `WsRegistry.Disconnect`: on its own it states that the connection leaves its user's set. That it leaves every user's set needs the registry invariant and is stated by `DisconnectGood`.
- `WsRegistry.ConnectGood` requires that the connection is not bound to a different user. Rebinding a live connection to a second user breaks the invariant in the source as well.
- `LiveClass.Close` and `LiveClass.Leave`: times are whole seconds, so the mix of datetime kinds is not modelled. `left_at` is a naive `datetime.utcnow()` (api/live_class.py:291), while `joined_at` is a `DateTime(timezone=True)` column. With a driver that loads such columns as aware datetimes, as asyncpg does, the subtraction raises `TypeError` and the leave is rolled back. The model follows the evident intent. The driver is configuration, not code.
- `InstructorAnalytics`: api/instructor.py imports `Progress` from `app.models.learning`, which defines no such name, so importing the module raises `ImportError`. The router is not mounted by `app.api`, so nothing imports it. The model describes the handlers as if the import were corrected.
- `LiveClass.Start` and `LiveClass.End`: the instructor-ownership check is folded into the `Option` lookup.
- `LiveClass.Delete`: the attendee rows a deletion cascades to are not modelled.
- `get_session_attendees` (`api/live_class.py`) is a listing, so it is not modelled.
- `NextAction.Reason`: the reason strings have no contract of their own.
- `EmailStr` validation of the e-mail fields is not modelled.
- The handlers' HTTP status codes appear only as the error constructors' comments.

## Findings

| source | as written | input that shows it | evidently intended | confidence | as-written member | corrected member |
|---|---|---|---|---|---|---|
| backend/app/services/recommendation_engine.py:360-383 | `expected_time` is assigned only when the lesson has `estimated_minutes`, but the completion rule reads it unconditionally | a progress row with completion 10 on a lesson with no estimate raises `UnboundLocalError` | the time rules are skipped without an estimate | medium, not executed | RuleEngine.DetectStrugglingFailsWithoutEstimate | RuleEngine.StruggleRules |
| backend/app/services/adaptive_assessment.py:174-175 | the breakdown table has only the keys EASY, MEDIUM and HARD, and it is indexed by `difficulty_level`, an integer column | any answer to a stored question with difficulty 5 raises `KeyError` | unknown tiers are skipped, as the score's multiplier table does with `.get` | medium, not executed | AdaptiveAssessment.BreakdownFailsOnStoredLevel | AdaptiveAssessment.TierBreakdown |
| backend/app/services/learning_analytics.py:488-503 | `study_hours_per_week` is nullable, and `None > 0` is compared | a profile whose weekly hours are NULL raises `TypeError` | the default of 10 applies, as it does without a profile | medium, not executed | LearningAnalytics.PaceFailsWithoutHours | LearningAnalytics.LearningPace |
| backend/app/api/live_class.py:232-304 | a rejoin reopens the record without counting, while every leave of a record counts down | join, leave, join: the user is in the room and `current_participants` is 0, provided the leave commits (see `LiveClass.Close` under Left out) | the counter equals the number of open records | low, not executed | LiveClass.RejoinUndercounts | LiveClass.JoinTracked |
| backend/app/services/adaptive_assessment.py:44-48 | the question query orders by `AssessmentQuestion.order`, but the model's ordering column is `sequence_order` (models/assessment.py:63) | any existing assessment id raises `AttributeError` | the questions are ordered by `sequence_order` | high, not executed | AdaptiveAssessment.NextQuestionFailsOnStoredAssessment | AdaptiveAssessment.NextQuestion |
| backend/app/api/instructor.py:149-157 | the completed count filters on `Enrollment.completed`, but the enrollment model has only `status` and `completed_at` (models/learning.py:50-77) | any course with an enrollment raises `AttributeError` | completed enrollments are those whose status is completed | high, not executed | InstructorAnalytics.CompletionRateFailsWithEnrollments | InstructorAnalytics.CompletionRate |
| backend/app/services/gamification.py:285-330 | the unlocked ids are read once, but each unlock calls `award_xp`, which commits and re-runs the check; that nested run unlocks every later achievement already met, and the outer loop, holding the stale ids, adds a second row for it | two active achievements of type `lessons_completed` with value 0 for a new learner: the second `UserAchievement` row breaks `uq_user_achievement` (models/gamification.py:59-61) and the commit raises `IntegrityError` | each achievement is unlocked once, in one pass | medium, not executed | Gamification.SecondUnlockFails | Gamification.CheckAchievements |
| backend/app/services/skill_assessment.py:174-183 | the loaded `skill_levels` dict is updated in place and the same object is assigned back; the column is a plain `JSONB` (models/learner_profile.py:28) with no mutation tracking and no `flag_modified`, so the change is not detected and the levels are not written | a profile stored with python at 3, then an assessment giving python 7: the stored level stays 3 | the stored level becomes the higher one, 7 | medium, not executed | SkillAssessment.StoredLevelsNotRaised | SkillAssessment.MergeProfile |
| backend/app/schemas/user.py:13-29 | `min_length=2` is checked on the raw name, and the validator then stores the stripped name | `" a "` is accepted and stored as `"a"` | a stored name has 2 to 255 characters | low, not executed | UserSchema.FullNameBelowMinimum | UserSchema.FullName |

=== FILE: adaptive_assessment.dfy ===
/** Adaptive assessments (services/adaptive_assessment.py): choosing the next
    question by recent accuracy, the difficulty-weighted score, the per-tier
    breakdown, the threshold feedback and the recommendations. */
module AdaptiveAssessment {
  import opened Wrappers
  import opened Arith

  /** A question's difficulty tier. The stored difficulty is an integer
      column, which never equals one of the three tier names; such a level
      is `Other`. */
  datatype Tier = Easy | Medium | Hard | Other(level: int)

  /** A question: id, tier and points, where 0 stands for both a missing and
      a zero value (the source reads `points or 10`). */
  datatype Question = Question(id: string, tier: Tier, points: int)

  /** One previous answer. */
  datatype Answer = Answer(questionId: string, isCorrect: bool)

  // ----- next question -----

  function AnsweredIds(previous: seq<Answer>): (r: set<string>)
    ensures forall id :: id in r <==> exists i :: 0 <= i < |previous| && previous[i].questionId == id
  {
    set i | 0 <= i < |previous| :: previous[i].questionId
  }

  function CorrectCount(previous: seq<Answer>): (r: nat)
    ensures r <= |previous|
  {
    if previous == [] then 0 else (if previous[0].isCorrect then 1 else 0) + CorrectCount(previous[1..])
  }

  /** Accuracy of 80% or more asks for a hard question, 50% or more for a
      medium one, anything less for an easy one. */
  function TargetTier(correct: nat, total: nat): (t: Tier)
    requires correct <= total && total > 0
    ensures t == Hard <==> correct as real / total as real >= 0.8
    ensures t == Medium <==> 0.5 <= correct as real / total as real < 0.8
    ensures t == Easy <==> correct as real / total as real < 0.5
  {
    var accuracy := correct as real / total as real;
    if accuracy >= 0.8 then Hard else if accuracy >= 0.5 then Medium else Easy
  }

  lemma TargetTierMonotone(c1: nat, c2: nat, total: nat)
    requires c1 <= c2 <= total && total > 0
    ensures TargetTier(c1, total) == Hard ==> TargetTier(c2, total) == Hard
    ensures TargetTier(c2, total) == Easy ==> TargetTier(c1, total) == Easy
  {
    DivMonotone(c1 as real, c2 as real, total as real);
  }

  lemma RatioAtMostOne(a: real, b: real)
    requires 0.0 <= a <= b && b > 0.0
    ensures 0.0 <= a / b <= 1.0
  {
    DivMonotone(a, b, b);
  }

  function Unanswered(qs: seq<Question>, answered: set<string>): (r: seq<Question>)
    ensures forall q :: q in r <==> q in qs && q.id !in answered
  {
    if qs == [] then []
    else (if qs[0].id !in answered then [qs[0]] else []) + Unanswered(qs[1..], answered)
  }

  /** The first unanswered question heads the list of unanswered ones. */
  lemma {:induction false} UnansweredHead(qs: seq<Question>, answered: set<string>)
    requires Unanswered(qs, answered) != []
    ensures exists i :: FirstUnansweredAt(qs, answered, i) && qs[i] == Unanswered(qs, answered)[0]
    decreases |qs|
  {
    if qs[0].id in answered {
      UnansweredHead(qs[1..], answered);
      var i :| FirstUnansweredAt(qs[1..], answered, i) && qs[1..][i] == Unanswered(qs[1..], answered)[0];
      assert FirstUnansweredAt(qs, answered, i + 1);
    } else {
      assert FirstUnansweredAt(qs, answered, 0);
    }
  }

  /** `qs[i]` is the first question nobody has answered yet. */
  predicate FirstUnansweredAt(qs: seq<Question>, answered: set<string>, i: int) {
    0 <= i < |qs| && qs[i].id !in answered && forall j :: 0 <= j < i ==> qs[j].id in answered
  }

  function AtTier(qs: seq<Question>, t: Tier): (r: seq<Question>)
    ensures forall q :: q in r <==> q in qs && q.tier == t
  {
    if qs == [] then []
    else (if qs[0].tier == t then [qs[0]] else []) + AtTier(qs[1..], t)
  }

  /** `get_next_question` with the question query ordered by
      `sequence_order` (the order of `questions`): `found` says whether the
      assessment exists and `pick` stands for the random choice among
      equally suitable questions. */
  function NextQuestion(found: bool, questions: seq<Question>, previous: seq<Answer>, pick: nat): (r: Option<Question>)
    ensures r.Some? ==> found && r.value in questions
    ensures !found || questions == [] ==> r.None?
    // without history: some medium question, else the first question
    ensures found && questions != [] && previous == [] ==>
              r.Some?
              && ((exists q :: q in questions && q.tier == Medium) ==> r.value.tier == Medium)
              && ((forall q :: q in questions ==> q.tier != Medium) ==> r.value == questions[0])
    // with history: never an answered question, None once all are answered
    ensures found && questions != [] && previous != [] ==>
              var answered := AnsweredIds(previous);
              && (r.None? <==> forall q :: q in questions ==> q.id in answered)
              && (r.Some? ==> r.value.id !in answered)
    // the target tier if available, else the first unanswered question
    ensures found && previous != [] && r.Some? ==>
              var answered := AnsweredIds(previous);
              var target := TargetTier(CorrectCount(previous), |previous|);
              && ((exists q :: q in questions && q.id !in answered && q.tier == target) ==> r.value.tier == target)
              && ((forall q :: q in questions && q.id !in answered ==> q.tier != target) ==>
                    exists i :: FirstUnansweredAt(questions, answered, i) && r.value == questions[i])
  {
    if !found || questions == [] then None
    else if previous == [] then
      var mediums := AtTier(questions, Medium);
      if mediums != [] then Some(mediums[pick % |mediums|]) else Some(questions[0])
    else
      var answered := AnsweredIds(previous);
      var open := Unanswered(questions, answered);
      if open == [] then None
      else
        var matching := AtTier(open, TargetTier(CorrectCount(previous), |previous|));
        if matching != [] then Some(matching[pick % |matching|])
        else UnansweredHead(questions, answered); Some(open[0])
  }

  /** `get_next_question` as written: the question query orders by
      `AssessmentQuestion.order`, which the model class does not declare
      (its ordering column is `sequence_order`), so building that query
      raises `AttributeError` once the assessment has been found. The
      `Err` payload names the missing attribute. */
  function NextQuestionAsWritten(found: bool, questions: seq<Question>, previous: seq<Answer>, pick: nat): (r: Result<Option<Question>, string>)
    ensures r.Err? <==> found
    ensures r.Ok? ==> r.value.None?
  {
    if !found then Ok(None) else Err("order")
  }

  /** Every stored assessment makes the code as written fail, even one whose
      first question the corrected version would serve. */
  lemma NextQuestionFailsOnStoredAssessment(questions: seq<Question>, pick: nat)
    requires questions != []
    ensures NextQuestionAsWritten(true, questions, [], pick).Err?
    ensures NextQuestion(true, questions, [], pick).Some?
  {
  }

  /** Wherever the code as written returns, it returns what the corrected
      version returns. */
  lemma NextQuestionAgrees(found: bool, questions: seq<Question>, previous: seq<Answer>, pick: nat)
    ensures NextQuestionAsWritten(found, questions, previous, pick).Ok? ==>
              NextQuestionAsWritten(found, questions, previous, pick).value == NextQuestion(found, questions, previous, pick)
  {
  }

  /** The ordinal of the question being served. */
  function QuestionNumber(previous: seq<Answer>): (n: nat)
    ensures n == |previous| + 1
  {
    if previous != [] then |previous| + 1 else 1
  }

  // ----- weighted score -----

  function Multiplier(t: Tier): (m: real)
    ensures 1.0 <= m <= 2.0
  {
    match t
    case Easy => 1.0
    case Medium => 1.5
    case Hard => 2.0
    case Other(_) => 1.0
  }

  /** `(points or 10) * multiplier`. */
  function Weight(q: Question): (w: real)
    ensures q.points >= 0 ==> w > 0.0
  {
    (if q.points != 0 then q.points else 10) as real * Multiplier(q.tier)
  }

  /** Question catalog keyed by id. */
  type Catalog = map<string, Question>

  predicate NonNegativePoints(catalog: Catalog) {
    forall id :: id in catalog ==> catalog[id].points >= 0
  }

  /** Weighted points over the answers to known questions. */
  function Possible(answers: seq<Answer>, catalog: Catalog): real {
    if answers == [] then 0.0
    else
      var a := answers[0];
      (if a.questionId in catalog then Weight(catalog[a.questionId]) else 0.0) + Possible(answers[1..], catalog)
  }

  function Earned(answers: seq<Answer>, catalog: Catalog): real {
    if answers == [] then 0.0
    else
      var a := answers[0];
      (if a.questionId in catalog && a.isCorrect then Weight(catalog[a.questionId]) else 0.0)
        + Earned(answers[1..], catalog)
  }

  /** With non-negative points nobody earns more than is possible, and
      nothing is negative. */
  lemma {:induction false} EarnedAtMostPossible(answers: seq<Answer>, catalog: Catalog)
    requires NonNegativePoints(catalog)
    ensures 0.0 <= Earned(answers, catalog) <= Possible(answers, catalog)
    decreases |answers|
  {
    if answers != [] {
      EarnedAtMostPossible(answers[1..], catalog);
    }
  }

  /** An answer whose question is not in the catalog changes neither total. */
  lemma {:induction false} UnknownAnswersIgnored(answers: seq<Answer>, a: Answer, catalog: Catalog)
    requires a.questionId !in catalog
    ensures Possible(answers + [a], catalog) == Possible(answers, catalog)
    ensures Earned(answers + [a], catalog) == Earned(answers, catalog)
    decreases |answers|
  {
    if answers == [] {
      assert [a][1..] == [];
    } else {
      assert (answers + [a])[1..] == answers[1..] + [a];
      UnknownAnswersIgnored(answers[1..], a, catalog);
    }
  }

  /** Python's `int()` on a real: truncation toward zero. */
  function Trunc(x: real): (n: int)
    ensures x >= 0.0 ==> n as real <= x < n as real + 1.0
    ensures x < 0.0 ==> n as real - 1.0 < x <= n as real
  {
    if x >= 0.0 then x.Floor else -((-x).Floor)
  }

  datatype TierStats = TierStats(correct: nat, total: nat)

  /** The three named tiers. */
  datatype Breakdown = Breakdown(easy: TierStats, medium: TierStats, hard: TierStats)

  function TierPercent(s: TierStats): (p: real)
    requires s.correct <= s.total
    ensures s.total == 0 ==> p == 0.0
    ensures s.total > 0 ==> p * s.total as real == s.correct as real * 100.0
    ensures 0.0 <= p <= 100.0
  {
    if s.total > 0 then s.correct as real / s.total as real * 100.0 else 0.0
  }

  predicate Consistent(b: Breakdown) {
    b.easy.correct <= b.easy.total && b.medium.correct <= b.medium.total && b.hard.correct <= b.hard.total
  }

  function Count(s: TierStats, correct: bool): (r: TierStats)
    ensures r.total == s.total + 1
    ensures s.correct <= s.total ==> r.correct <= r.total
  {
    TierStats(s.correct + (if correct then 1 else 0), s.total + 1)
  }

  /** One answer counted into its tier; the as-written `Err` carries the
      level of a question whose tier is not one of the three names. */
  function CountAsWritten(b: Breakdown, t: Tier, correct: bool): Result<Breakdown, int> {
    match t
    case Easy => Ok(b.(easy := Count(b.easy, correct)))
    case Medium => Ok(b.(medium := Count(b.medium, correct)))
    case Hard => Ok(b.(hard := Count(b.hard, correct)))
    case Other(level) => Err(level)
  }

  const EmptyBreakdown := Breakdown(TierStats(0, 0), TierStats(0, 0), TierStats(0, 0))

  /** `_analyze_difficulty_performance` as written: indexing the three-key
      table with any other difficulty raises `KeyError`, which ends the
      whole scoring call. */
  function BreakdownAsWritten(answers: seq<Answer>, catalog: Catalog, acc: Breakdown): Result<Breakdown, int>
    decreases |answers|
  {
    if answers == [] then Ok(acc)
    else
      var a := answers[0];
      if a.questionId !in catalog then BreakdownAsWritten(answers[1..], catalog, acc)
      else
        match CountAsWritten(acc, catalog[a.questionId].tier, a.isCorrect)
        case Err(level) => Err(level)
        case Ok(next) => BreakdownAsWritten(answers[1..], catalog, next)
  }

  /** Any answered question with an integer difficulty, which is every
      stored question, makes the as-written breakdown fail. */
  lemma BreakdownFailsOnStoredLevel()
    ensures BreakdownAsWritten([Answer("q1", true)], map["q1" := Question("q1", Other(5), 1)], EmptyBreakdown) == Err(5)
  {
  }

  /** The breakdown as evidently intended: answers are counted into their
      tier and questions outside the three tiers are left out. */
  function TierBreakdown(answers: seq<Answer>, catalog: Catalog, acc: Breakdown): (r: Breakdown)
    requires Consistent(acc)
    ensures Consistent(r)
    ensures r.easy.total + r.medium.total + r.hard.total
            == acc.easy.total + acc.medium.total + acc.hard.total + NamedTierAnswers(answers, catalog)
    decreases |answers|
  {
    if answers == [] then acc
    else
      var a := answers[0];
      if a.questionId !in catalog then TierBreakdown(answers[1..], catalog, acc)
      else
        TierBreakdown(answers[1..], catalog, CountNamed(acc, catalog[a.questionId].tier, a.isCorrect))
  }

  /** One answer counted into its tier when the tier is one of the three
      names; any other level leaves the table as it is. */
  function CountNamed(b: Breakdown, t: Tier, correct: bool): (r: Breakdown)
    requires Consistent(b)
    ensures Consistent(r)
    ensures r.easy == (if t == Easy then Count(b.easy, correct) else b.easy)
    ensures r.medium == (if t == Medium then Count(b.medium, correct) else b.medium)
    ensures r.hard == (if t == Hard then Count(b.hard, correct) else b.hard)
  {
    match CountAsWritten(b, t, correct)
    case Ok(next) => next
    case Err(_) => b
  }

  /** The answers to known questions of tier `t`; with `correctOnly`, only
      the correct ones. */
  function TierCount(answers: seq<Answer>, catalog: Catalog, t: Tier, correctOnly: bool): nat {
    if answers == [] then 0
    else
      var a := answers[0];
      (if a.questionId in catalog && catalog[a.questionId].tier == t && (a.isCorrect || !correctOnly) then 1 else 0)
        + TierCount(answers[1..], catalog, t, correctOnly)
  }

  /** A tier's counters after the answers of that tier are added. */
  function Counted(s: TierStats, answers: seq<Answer>, catalog: Catalog, t: Tier): TierStats {
    TierStats(s.correct + TierCount(answers, catalog, t, true), s.total + TierCount(answers, catalog, t, false))
  }

  /** The counters of a named tier. */
  function TierOf(b: Breakdown, t: Tier): TierStats
    requires !t.Other?
  {
    match t
    case Easy => b.easy
    case Medium => b.medium
    case Hard => b.hard
  }

  /** Counting one answer touches only the counters of its own tier. */
  lemma CountNamedTier(b: Breakdown, u: Tier, correct: bool, t: Tier)
    requires Consistent(b) && !t.Other?
    ensures TierOf(CountNamed(b, u, correct), t) == if u == t then Count(TierOf(b, t), correct) else TierOf(b, t)
  {
  }

  /** Counting a tier's answers starts with the first answer. */
  lemma CountedStep(s: TierStats, answers: seq<Answer>, catalog: Catalog, t: Tier)
    requires answers != []
    ensures var a := answers[0];
            Counted(s, answers, catalog, t)
            == Counted(if a.questionId in catalog && catalog[a.questionId].tier == t then Count(s, a.isCorrect) else s,
                       answers[1..], catalog, t)
  {
  }

  /** A named tier's counters grow by exactly the answers to known
      questions of that tier, and by the correct ones among them. */
  lemma {:induction false} TierBreakdownCounts(answers: seq<Answer>, catalog: Catalog, acc: Breakdown, t: Tier)
    requires Consistent(acc) && !t.Other?
    ensures TierOf(TierBreakdown(answers, catalog, acc), t) == Counted(TierOf(acc, t), answers, catalog, t)
    decreases |answers|
  {
    if answers != [] {
      var a := answers[0];
      CountedStep(TierOf(acc, t), answers, catalog, t);
      if a.questionId in catalog {
        var next := CountNamed(acc, catalog[a.questionId].tier, a.isCorrect);
        CountNamedTier(acc, catalog[a.questionId].tier, a.isCorrect, t);
        TierBreakdownCounts(answers[1..], catalog, next, t);
      } else {
        TierBreakdownCounts(answers[1..], catalog, acc, t);
      }
    }
  }

  /** The answers to known questions of one of the three named tiers. */
  function NamedTierAnswers(answers: seq<Answer>, catalog: Catalog): nat {
    if answers == [] then 0
    else
      var a := answers[0];
      (if a.questionId in catalog && !catalog[a.questionId].tier.Other? then 1 else 0)
        + NamedTierAnswers(answers[1..], catalog)
  }

  predicate NamedTiers(answers: seq<Answer>, catalog: Catalog) {
    forall i :: 0 <= i < |answers| && answers[i].questionId in catalog ==> !catalog[answers[i].questionId].tier.Other?
  }

  /** Where every answered question has a named tier, the two agree. */
  lemma {:induction false} BreakdownAgrees(answers: seq<Answer>, catalog: Catalog, acc: Breakdown)
    requires Consistent(acc) && NamedTiers(answers, catalog)
    ensures BreakdownAsWritten(answers, catalog, acc) == Ok(TierBreakdown(answers, catalog, acc))
    decreases |answers|
  {
    if answers != [] {
      assert forall i :: 0 <= i < |answers[1..]| ==> answers[1..][i] == answers[i + 1];
      var a := answers[0];
      if a.questionId !in catalog {
        BreakdownAgrees(answers[1..], catalog, acc);
      } else {
        var next := CountAsWritten(acc, catalog[a.questionId].tier, a.isCorrect);
        assert next.Ok?;
        BreakdownAgrees(answers[1..], catalog, next.value);
      }
    }
  }

  datatype ScoreReport = ScoreReport(pointsEarned: int, pointsPossible: int, percentage: real, breakdown: Breakdown)

  /** `earned / possible * 100`, or 0 when nothing is possible. */
  function Percentage(earned: real, possible: real): (p: real)
    requires 0.0 <= earned <= possible
    ensures possible == 0.0 ==> p == 0.0
    ensures possible > 0.0 ==> p * possible == earned * 100.0
    ensures 0.0 <= p <= 100.0
  {
    if possible > 0.0 then
      RatioAtMostOne(earned, possible);
      PercentOf(earned, possible);
      earned / possible * 100.0
    else 0.0
  }

  /** A percentage times its base gives back a hundred times the part. */
  lemma PercentOf(part: real, base: real)
    requires base > 0.0
    ensures part / base * 100.0 * base == part * 100.0
  {
  }

  /** `calculate_adaptive_score` with the intended breakdown. */
  function AdaptiveScore(answers: seq<Answer>, catalog: Catalog): (r: ScoreReport)
    requires NonNegativePoints(catalog)
    ensures 0 <= r.pointsEarned <= r.pointsPossible
    ensures r.pointsEarned == Trunc(Earned(answers, catalog))
    ensures r.pointsPossible == Trunc(Possible(answers, catalog))
    ensures 0.0 <= r.percentage <= 100.0
    ensures Possible(answers, catalog) == 0.0 ==> r.percentage == 0.0
    ensures Possible(answers, catalog) > 0.0 ==>
              r.percentage * Possible(answers, catalog) == Earned(answers, catalog) * 100.0
    ensures Consistent(r.breakdown)
    ensures r.breakdown == TierBreakdown(answers, catalog, EmptyBreakdown)
  {
    var earned := Earned(answers, catalog);
    var possible := Possible(answers, catalog);
    EarnedAtMostPossible(answers, catalog);
    ScoreReport(Trunc(earned), Trunc(possible), Percentage(earned, possible), TierBreakdown(answers, catalog, EmptyBreakdown))
  }

  // ----- feedback -----

  datatype PerformanceLevel = Beginner | Developing | Competent | Proficient | Expert

  function LevelRank(l: PerformanceLevel): nat {
    match l
    case Beginner => 0
    case Developing => 1
    case Competent => 2
    case Proficient => 3
    case Expert => 4
  }

  /** Ten-point bands from 60 up. */
  function Performance(score: real): (l: PerformanceLevel)
    ensures l == Expert <==> score >= 90.0
    ensures l == Beginner <==> score < 60.0
  {
    if score >= 90.0 then Expert
    else if score >= 80.0 then Proficient
    else if score >= 70.0 then Competent
    else if score >= 60.0 then Developing
    else Beginner
  }

  /** A higher score never gives a lower level, and each level's band
      starts at 60 + 10 times its rank. */
  lemma PerformanceMonotone(a: real, b: real)
    requires a <= b
    ensures LevelRank(Performance(a)) <= LevelRank(Performance(b))
    ensures Performance(a) != Beginner ==> a >= 50.0 + 10.0 * LevelRank(Performance(a)) as real
    ensures Performance(a) != Expert ==> a < 60.0 + 10.0 * LevelRank(Performance(a)) as real
  {
  }

  datatype Strength = StrongGrasp(skill: string) | ConsistentAccuracy | ExceptionalProblemSolving | Baseline

  function Min(a: int, b: int): int { if a <= b then a else b }

  /** `sampled` stands for `random.sample(skills, min(2, len(skills)))`. */
  predicate IsSample(sampled: seq<string>, skills: seq<string>) {
    |sampled| == Min(2, |skills|) && forall i :: 0 <= i < |sampled| ==> sampled[i] in skills
  }

  function Grasp(sampled: seq<string>): (r: seq<Strength>)
    ensures |r| == |sampled|
    ensures forall i :: 0 <= i < |r| ==> r[i] == StrongGrasp(sampled[i])
    ensures forall s :: StrongGrasp(s) in r <==> s in sampled
  {
    if sampled == [] then [] else [StrongGrasp(sampled[0])] + Grasp(sampled[1..])
  }

  /** `_identify_strengths`. */
  function Strengths(score: real, skills: seq<string>, sampled: seq<string>): (r: seq<Strength>)
    requires IsSample(sampled, skills)
    ensures r == [Baseline] <==> score < 70.0 || (score < 80.0 && skills == [])
    ensures ConsistentAccuracy in r <==> score >= 80.0
    ensures ExceptionalProblemSolving in r <==> score >= 90.0
    ensures forall s :: StrongGrasp(s) in r ==> score >= 70.0 && s in skills
    ensures score >= 70.0 && skills != [] ==> forall s :: s in sampled ==> StrongGrasp(s) in r
  {
    var grasp := if score >= 70.0 && skills != [] then Grasp(sampled) else [];
    var all := grasp + (if score >= 80.0 then [ConsistentAccuracy] else []) + (if score >= 90.0 then [ExceptionalProblemSolving] else []);
    assert all != [] ==> all[0] != Baseline;
    if all != [] then all else [Baseline]
  }

  datatype Improvement = ReviewFoundations(skill: string) | BuildFoundations | PracticeScenarios | KeepPracticing

  function Review(sampled: seq<string>): (r: seq<Improvement>)
    ensures |r| == |sampled|
    ensures forall i :: 0 <= i < |r| ==> r[i] == ReviewFoundations(sampled[i])
    ensures forall s :: ReviewFoundations(s) in r <==> s in sampled
  {
    if sampled == [] then [] else [ReviewFoundations(sampled[0])] + Review(sampled[1..])
  }

  /** `_identify_improvement_areas`. */
  function Improvements(score: real, skills: seq<string>, sampled: seq<string>): (r: seq<Improvement>)
    requires IsSample(sampled, skills)
    ensures r == [KeepPracticing] <==> score >= 80.0
    ensures BuildFoundations in r <==> score < 60.0
    ensures PracticeScenarios in r <==> score < 80.0
    ensures forall s :: ReviewFoundations(s) in r ==> score < 70.0 && s in skills
    ensures score < 70.0 && skills != [] ==> forall s :: s in sampled ==> ReviewFoundations(s) in r
  {
    var review := if score < 70.0 && skills != [] then Review(sampled) else [];
    var all := review + (if score < 60.0 then [BuildFoundations] else []) + (if score < 80.0 then [PracticeScenarios] else []);
    assert all != [] ==> all[0] != KeepPracticing;
    if all != [] then all else [KeepPracticing]
  }

  /** A published course row: its id and `skills_taught`, where a missing
      list is empty. */
  datatype CourseRow = CourseRow(id: string, skillsTaught: seq<string>)

  datatype Recommendation = StudyCourse(courseId: string) | PracticeExercises | RetakeAssessment | AdvancedTopics

  /** The course teaches one of the assessed skills. */
  predicate TeachesAny(c: CourseRow, skills: seq<string>) {
    exists s :: s in skills && s in c.skillsTaught
  }

  /** The rows the query's `limit(3)` keeps. */
  function FirstRows(published: seq<CourseRow>): (r: seq<CourseRow>)
    ensures |r| == Min(3, |published|)
    ensures r == published[..|r|]
  {
    if |published| <= 3 then published else published[..3]
  }

  /** The courses teaching an assessed skill, in their original order. */
  function Relevant(courses: seq<CourseRow>, skills: seq<string>): (r: seq<CourseRow>)
    ensures |r| <= |courses|
    ensures forall c :: c in r <==> c in courses && TeachesAny(c, skills)
  {
    if courses == [] then []
    else (if TeachesAny(courses[0], skills) then [courses[0]] else []) + Relevant(courses[1..], skills)
  }

  function Studies(courses: seq<CourseRow>): (r: seq<Recommendation>)
    ensures |r| == |courses|
    ensures forall i :: 0 <= i < |r| ==> r[i] == StudyCourse(courses[i].id)
  {
    if courses == [] then [] else [StudyCourse(courses[0].id)] + Studies(courses[1..])
  }

  /** The study items `_generate_recommendations` makes: below 80 with
      assessed skills, the first two of the three fetched courses that
      teach one of them. */
  function StudyPicks(score: real, skills: seq<string>, published: seq<CourseRow>): (r: seq<CourseRow>)
    ensures |r| <= 2
    ensures forall c :: c in r ==> score < 80.0 && c in FirstRows(published) && TeachesAny(c, skills)
  {
    if score < 80.0 && skills != [] then
      var relevant := Relevant(FirstRows(published), skills);
      if |relevant| <= 2 then relevant else relevant[..2]
    else []
  }

  /** The items that depend on the score alone: practice below 70, a retake
      below 60, advanced topics from 85. */
  function ScoreItems(score: real): (r: seq<Recommendation>)
    ensures PracticeExercises in r <==> score < 70.0
    ensures RetakeAssessment in r <==> score < 60.0
    ensures AdvancedTopics in r <==> score >= 85.0
    ensures forall i :: 0 <= i < |r| ==> !r[i].StudyCourse?
  {
    (if score < 70.0 then [PracticeExercises] else [])
      + (if score < 60.0 then [RetakeAssessment] else [])
      + (if score >= 85.0 then [AdvancedTopics] else [])
  }

  /** `_generate_recommendations`: `published` stands for the rows of the
      published-course query, in the order the database returns them. The
      study items come first, then the score's own items. */
  function Recommendations(score: real, skills: seq<string>, published: seq<CourseRow>): (r: seq<Recommendation>)
    ensures var picks := StudyPicks(score, skills, published);
            && |picks| <= |r|
            && (forall i :: 0 <= i < |picks| ==> r[i] == StudyCourse(picks[i].id))
            && (forall i :: |picks| <= i < |r| ==> !r[i].StudyCourse?)
    ensures PracticeExercises in r <==> score < 70.0
    ensures RetakeAssessment in r <==> score < 60.0
    ensures AdvancedTopics in r <==> score >= 85.0
    ensures forall id :: StudyCourse(id) in r ==>
              score < 80.0 && exists c :: c in FirstRows(published) && c.id == id && TeachesAny(c, skills)
  {
    var picks := StudyPicks(score, skills, published);
    var studies, extras := Studies(picks), ScoreItems(score);
    forall id | StudyCourse(id) in studies + extras
      ensures score < 80.0 && exists c :: c in FirstRows(published) && c.id == id && TeachesAny(c, skills)
    {
      var k :| 0 <= k < |studies + extras| && (studies + extras)[k] == StudyCourse(id);
      assert picks[k] in picks;
    }
    studies + extras
  }

  /** Below 80, with assessed skills, a fetched course teaching one of them
      always yields a study item; and a score high enough to advance never
      comes with study, practice or retake items. */
  lemma RecommendationsCoherent(score: real, skills: seq<string>, published: seq<CourseRow>)
    ensures score < 80.0 && skills != [] && (exists c :: c in FirstRows(published) && TeachesAny(c, skills)) ==>
              exists id :: StudyCourse(id) in Recommendations(score, skills, published)
    ensures AdvancedTopics in Recommendations(score, skills, published) ==>
              forall x :: x in Recommendations(score, skills, published) ==> x == AdvancedTopics
    ensures RetakeAssessment in Recommendations(score, skills, published) ==>
              PracticeExercises in Recommendations(score, skills, published)
  {
    var r := Recommendations(score, skills, published);
    var picks := StudyPicks(score, skills, published);
    if score < 80.0 && skills != [] && (exists c :: c in FirstRows(published) && TeachesAny(c, skills)) {
      var c :| c in FirstRows(published) && TeachesAny(c, skills);
      assert c in Relevant(FirstRows(published), skills);
      assert |picks| > 0;
      assert r[0] == StudyCourse(picks[0].id);
    }
    if AdvancedTopics in r {
      assert picks == [];
    }
  }

  datatype Trend = Improving | Declining | Stable

  datatype Comparison = Comparison(trend: Trend, scoreChange: real, previousScore: real, currentScore: real, totalAttempts: nat)

  /** `_compare_with_previous`: `previous` holds the earlier scores, most
      recent first. */
  function Compare(current: real, previous: seq<real>): (r: Option<Comparison>)
    ensures r.None? <==> previous == []
    ensures r.Some? ==> (r.value.totalAttempts == |previous| + 1
                         && r.value.scoreChange == current - previous[0]
                         && (r.value.trend == Improving <==> current > previous[0] + 5.0)
                         && (r.value.trend == Declining <==> current < previous[0] - 5.0))
  {
    if previous == [] then None
    else
      var diff := current - previous[0];
      var trend := if diff > 5.0 then Improving else if diff < -5.0 then Declining else Stable;
      Some(Comparison(trend, diff, previous[0], current, |previous| + 1))
  }

  /** Swapping the two scores swaps improving and declining. */
  lemma CompareAntisymmetric(a: real, b: real)
    ensures Compare(a, [b]).value.trend == Improving <==> Compare(b, [a]).value.trend == Declining
    ensures Compare(a, [b]).value.trend == Stable <==> Compare(b, [a]).value.trend == Stable
  {
  }

  datatype NextStep =
    | ApplyInProjects | ShareExpertise
    | ReviewLostPoints | PracticeQuizzes
    | ReviewMaterial | OneConceptAtATime | RetakeWhenReady
    | BuildProject(skill: string)

  /** `_suggest_next_steps`. */
  function NextSteps(score: real, passed: bool, skills: seq<string>): (r: seq<NextStep>)
    ensures |r| == (if passed then 2 else 3) + (if skills != [] then 1 else 0)
    ensures ApplyInProjects in r <==> passed && score >= 80.0
    ensures ReviewLostPoints in r <==> passed && score < 80.0
    ensures RetakeWhenReady in r <==> !passed
    ensures skills != [] ==> r[|r| - 1] == BuildProject(skills[0])
    ensures skills == [] ==> forall s :: BuildProject(s) !in r
  {
    var base := if passed && score >= 80.0 then [ApplyInProjects, ShareExpertise]
                else if passed then [ReviewLostPoints, PracticeQuizzes]
                else [ReviewMaterial, OneConceptAtATime, RetakeWhenReady];
    base + (if skills != [] then [BuildProject(skills[0])] else [])
  }
}

=== FILE: arith.dfy ===
/** Facts about products and quotients that the solver does not find on
    its own, shared by the scoring modules. */
module Arith {

  lemma MulMonotone(a: real, b: real, c: real)
    requires a <= b && c >= 0.0
    ensures a * c <= b * c
  {
  }

  lemma DivMonotone(a: real, b: real, t: real)
    requires a <= b && t > 0.0
    ensures a / t <= b / t
  {
  }

  /** Multiplying by a positive number keeps the sign and the comparison
      with 1. */
  lemma ScaleBounds(q: real, y: real)
    requires y > 0.0
    ensures q < 0.0 ==> q * y < 0.0
    ensures q > 0.0 ==> q * y > 0.0
    ensures q == 0.0 ==> q * y == 0.0
    ensures q > 1.0 ==> q * y > y
    ensures q < 1.0 ==> q * y < y
  {
    assert q * y - y == (q - 1.0) * y;
  }

  /** For a positive factor, integer products compare as the numbers do. */
  lemma ScaleOrder(a: int, b: int, w: int)
    requires w > 0
    ensures a <= b <==> a * w <= b * w
  {
    assert b * w - a * w == (b - a) * w;
  }

  /** The same for real products. */
  lemma ScaleOrderReal(a: real, b: real, w: real)
    requires w > 0.0
    ensures a <= b <==> a * w <= b * w
  {
    assert b * w - a * w == (b - a) * w;
  }

  /** A total between `lo` and `hi` times a positive weight averages to a
      value between `lo` and `hi`. */
  lemma MeanBounds(sum: real, weight: real, lo: real, hi: real)
    requires weight > 0.0 && lo * weight <= sum <= hi * weight
    ensures lo <= sum / weight <= hi
  {
    ScaleOrderReal(lo, sum / weight, weight);
    ScaleOrderReal(sum / weight, hi, weight);
  }
}

=== FILE: course_scoring.dfy ===
/** The five-factor course recommendation score, the reasons shown with a
    recommendation, and the ranking of candidate courses
    (services/ai_recommendations.py, `RecommendationEngine`). */
module CourseScoring {
  import opened Wrappers
  import opened Arith
  import opened Text
  import Sorting

  /** A published course. A missing duration is 0, which every use of the
      field treats the same way as `None`; the same holds for enrollments. */
  datatype Course = Course(
    title: string,
    description: Option<string>,
    difficulty: string,
    durationHours: int,
    skills: set<string>,
    prereqs: set<string>,
    enrollments: int)

  /** An active learning goal. An empty target role is falsy, like `None`. */
  datatype Goal = Goal(description: string, targetRole: string, targetSkills: set<string>)

  /** What the engine knows about the learner: the learner profile's skill
      levels and the active goals. A learner without a profile gets the empty
      context, which behaves exactly like `Context(map[], [])`. */
  datatype Context = Context(currentSkills: map<string, real>, goals: seq<Goal>)

  datatype Scores = Scores(
    skillMatch: real,
    difficultyMatch: real,
    goalAlignment: real,
    popularity: real,
    prerequisiteReady: real)
  {
    function Total(): real {
      skillMatch + difficultyMatch + goalAlignment + popularity + prerequisiteReady
    }
  }

  /** The union of the target skills of all goals. */
  function TargetSkills(goals: seq<Goal>): (r: set<string>)
    ensures forall s :: s in r <==> exists g :: 0 <= g < |goals| && s in goals[g].targetSkills
  {
    if goals == [] then {}
    else
      var rest := TargetSkills(goals[1..]);
      assert forall s :: s in rest <==> exists g :: 1 <= g < |goals| && s in goals[g].targetSkills by {
        forall s | s in rest ensures exists g :: 1 <= g < |goals| && s in goals[g].targetSkills {
          var g :| 0 <= g < |goals[1..]| && s in goals[1..][g].targetSkills;
          assert s in goals[g + 1].targetSkills;
        }
        forall s | exists g :: 1 <= g < |goals| && s in goals[g].targetSkills ensures s in rest {
          var g :| 1 <= g < |goals| && s in goals[g].targetSkills;
          assert goals[1..][g - 1] == goals[g];
        }
      }
      goals[0].targetSkills + rest
  }

  function Ratio(a: nat, b: nat): real
    requires b > 0
  {
    a as real / b as real
  }

  lemma RatioFacts(a: nat, b: nat)
    requires 0 < b && a <= b
    ensures 0.0 <= Ratio(a, b) <= 1.0
    ensures Ratio(a, b) == 1.0 <==> a == b
    ensures Ratio(a, b) > 0.0 <==> a > 0
  {
    var q := Ratio(a, b);
    var x, y := a as real, b as real;
    assert q * y == x;
    ScaleBounds(q, y);
    if a == b {
      assert q == 1.0;
    }
  }

  /** Skill match, up to 40 points: the Jaccard similarity of the course's
      skills and the learner's target skills, or 0 when either is empty. */
  function SkillMatch(courseSkills: set<string>, targets: set<string>): (r: real)
    ensures 0.0 <= r <= 40.0
    ensures r > 0.0 <==> courseSkills * targets != {}
    ensures r == 40.0 <==> courseSkills == targets && targets != {}
  {
    if targets == {} || courseSkills == {} then 0.0
    else
      var inter := courseSkills * targets;
      var union := courseSkills + targets;
      assert union != {} by { var x :| x in targets; assert x in union; }
      JaccardFacts(courseSkills, targets);
      RatioFacts(|inter|, |union|);
      Ratio(|inter|, |union|) * 40.0
  }

  lemma JaccardFacts(a: set<string>, b: set<string>)
    ensures |a * b| <= |a + b|
    ensures |a * b| == |a + b| <==> a == b
  {
    SubsetSize(a * b, a + b);
    if a == b {
      assert a * b == a + b;
    }
    if |a * b| == |a + b| {
      SubsetSameSize(a * b, a + b);
      assert a == b by {
        forall x | x in a ensures x in b { assert x in a + b; }
        forall x | x in b ensures x in a { assert x in a + b; }
      }
    }
  }

  lemma SubsetSameSize<T>(small: set<T>, big: set<T>)
    requires small <= big && |small| == |big|
    ensures small == big
  {
    if small != big {
      var x :| x in big && x !in small;
      assert small <= big - {x};
      assert |big - {x}| == |big| - 1;
      SubsetSize(small, big - {x});
    }
  }

  lemma {:induction false} SubsetSize<T>(small: set<T>, big: set<T>)
    requires small <= big
    ensures |small| <= |big|
    decreases big
  {
    if small != {} {
      var x :| x in small;
      SubsetSize(small - {x}, big - {x});
    }
  }

  /** The difficulty table. Its keys are upper case, and a name it does not
      know counts as intermediate. */
  function DifficultyRank(name: string): (r: int)
    ensures 1 <= r <= 4
    ensures name !in {"BEGINNER", "INTERMEDIATE", "ADVANCED", "EXPERT"} ==> r == 2
  {
    if name == "BEGINNER" then 1
    else if name == "INTERMEDIATE" then 2
    else if name == "ADVANCED" then 3
    else if name == "EXPERT" then 4
    else 2
  }

  /** The learner's preferred difficulty is always intermediate. */
  const PreferredDifficulty: string := "INTERMEDIATE"

  /** Difficulty match, up to 20 points: full marks for the preferred level,
      15 for one level harder, 10 for one level easier, then 5 points off per
      level of distance. */
  function DifficultyMatch(courseLevel: int, preferredLevel: int): (r: real)
    ensures 0.0 <= r <= 20.0
    ensures r == 20.0 <==> courseLevel == preferredLevel
    ensures r >= 15.0 <==> courseLevel == preferredLevel || courseLevel == preferredLevel + 1
  {
    var diff := if courseLevel >= preferredLevel then courseLevel - preferredLevel else preferredLevel - courseLevel;
    if diff == 0 then 20.0
    else if diff == 1 && courseLevel > preferredLevel then 15.0
    else if diff == 1 then 10.0
    else if 20 - diff * 5 > 0 then (20 - diff * 5) as real
    else 0.0
  }

  /** The further a course's level is from the preferred one, the fewer
      points it gets. */
  lemma DifficultyMatchAntitone(c1: int, c2: int, p: int)
    requires p <= c1 <= c2 || c2 <= c1 <= p
    ensures DifficultyMatch(c1, p) >= DifficultyMatch(c2, p)
  {
  }

  /** Course rows store their level in lower case (beginner, intermediate,
      advanced), which the upper-case table does not know: every stored
      course therefore gets full difficulty marks. */
  lemma StoredLevelsScoreFull(name: string)
    requires name in {"beginner", "intermediate", "advanced"}
    ensures DifficultyMatch(DifficultyRank(name), DifficultyRank(PreferredDifficulty)) == 20.0
  {
  }

  /** The text a target role is searched in: `f"{title} {description}"`
      lower-cased, where a missing description renders as `None`. */
  function CourseText(c: Course): string {
    Lower(c.title + " " + c.description.GetOr("None"))
  }

  /** Some word of the goal's target role occurs in the course text. */
  predicate RoleMentioned(g: Goal, c: Course) {
    var words := Words(Lower(g.targetRole));
    exists k :: 0 <= k < |words| && Contains(CourseText(c), words[k])
  }

  /** One goal's contribution: 15 for a shared skill, 10 for a mention of
      the target role. */
  function GoalPoints(g: Goal, c: Course): (r: real)
    ensures r in {0.0, 10.0, 15.0, 25.0}
    ensures r >= 15.0 <==> g.targetSkills * c.skills != {}
    ensures (r == 10.0 || r == 25.0) <==> g.targetRole != "" && RoleMentioned(g, c)
  {
    (if g.targetSkills * c.skills != {} then 15.0 else 0.0)
    + (if g.targetRole != "" && RoleMentioned(g, c) then 10.0 else 0.0)
  }

  function SumGoalPoints(goals: seq<Goal>, c: Course): (r: real)
    ensures goals == [] ==> r == 0.0
    ensures |goals| == 1 ==> r == GoalPoints(goals[0], c)
    ensures r >= 0.0
    ensures r == 0.0 <==> forall g :: 0 <= g < |goals| ==> GoalPoints(goals[g], c) == 0.0
    ensures forall g :: 0 <= g < |goals| ==> GoalPoints(goals[g], c) <= r
  {
    if goals == [] then 0.0
    else
      var rest := SumGoalPoints(goals[1..], c);
      assert forall g :: 1 <= g < |goals| ==> goals[1..][g - 1] == goals[g];
      GoalPoints(goals[0], c) + rest
  }

  /** The goals' points add up: the sum over two lists of goals is the sum
      of the two sums. */
  lemma {:induction false} SumGoalPointsAppend(g1: seq<Goal>, g2: seq<Goal>, c: Course)
    ensures SumGoalPoints(g1 + g2, c) == SumGoalPoints(g1, c) + SumGoalPoints(g2, c)
    decreases |g1|
  {
    if g1 == [] {
      assert g1 + g2 == g2;
    } else {
      assert (g1 + g2)[1..] == g1[1..] + g2;
      SumGoalPointsAppend(g1[1..], g2, c);
    }
  }

  /** Goal alignment: the goals' summed points, capped at 25. */
  function GoalAlignment(goals: seq<Goal>, c: Course): (r: real)
    ensures r == (if SumGoalPoints(goals, c) < 25.0 then SumGoalPoints(goals, c) else 25.0)
    ensures 0.0 <= r <= 25.0
    ensures r == 0.0 <==> forall g :: 0 <= g < |goals| ==> GoalPoints(goals[g], c) == 0.0
    ensures (exists g :: 0 <= g < |goals| && GoalPoints(goals[g], c) == 25.0) ==> r == 25.0
    ensures |goals| == 1 ==> r == GoalPoints(goals[0], c)
  {
    var total := SumGoalPoints(goals, c);
    if total < 25.0 then total else 25.0
  }

  /** One more goal adds its own points to the alignment, up to the cap:
      goals worth 15 and 10 together give 25, not the larger of the two. */
  lemma {:induction false} GoalAlignmentAddsGoal(goals: seq<Goal>, g: Goal, c: Course)
    ensures GoalAlignment(goals + [g], c)
         == (if SumGoalPoints(goals, c) + GoalPoints(g, c) < 25.0
             then SumGoalPoints(goals, c) + GoalPoints(g, c) else 25.0)
  {
    SumGoalPointsAppend(goals, [g], c);
  }

  /** Popularity, up to 10 points: one point per ten enrollments. */
  function Popularity(enrollments: int): (r: real)
    ensures r <= 10.0
    ensures enrollments >= 0 ==> r >= 0.0
    ensures r == 10.0 <==> enrollments >= 100
    ensures r > 5.0 <==> enrollments > 50
  {
    var p := enrollments as real / 100.0 * 10.0;
    if p < 10.0 then p else 10.0
  }

  /** Prerequisite readiness, up to 5 points: the share of prerequisites the
      learner already has a level for, or full marks with none. */
  function PrerequisiteReady(prereqs: set<string>, known: set<string>): (r: real)
    ensures 0.0 <= r <= 5.0
    ensures r == 5.0 <==> prereqs <= known
  {
    if prereqs == {} then 5.0
    else
      var met := prereqs * known;
      MetFacts(prereqs, known);
      RatioFacts(|met|, |prereqs|);
      Ratio(|met|, |prereqs|) * 5.0
  }

  lemma MetFacts(prereqs: set<string>, known: set<string>)
    ensures |prereqs * known| <= |prereqs|
    ensures |prereqs * known| == |prereqs| <==> prereqs <= known
  {
    SubsetSize(prereqs * known, prereqs);
    if prereqs <= known {
      assert prereqs * known == prereqs;
    }
    if |prereqs * known| == |prereqs| {
      SubsetSameSize(prereqs * known, prereqs);
    }
  }

  function Score(c: Course, ctx: Context): (s: Scores)
    ensures s.skillMatch == SkillMatch(c.skills, TargetSkills(ctx.goals))
    ensures s.difficultyMatch == DifficultyMatch(DifficultyRank(c.difficulty), DifficultyRank(PreferredDifficulty))
    ensures s.goalAlignment == GoalAlignment(ctx.goals, c)
    ensures s.popularity == Popularity(c.enrollments)
    ensures s.prerequisiteReady == PrerequisiteReady(c.prereqs, ctx.currentSkills.Keys)
  {
    Scores(
      SkillMatch(c.skills, TargetSkills(ctx.goals)),
      DifficultyMatch(DifficultyRank(c.difficulty), DifficultyRank(PreferredDifficulty)),
      GoalAlignment(ctx.goals, c),
      Popularity(c.enrollments),
      PrerequisiteReady(c.prereqs, ctx.currentSkills.Keys))
  }

  /** The weights add up to 100: with a non-negative enrollment count the
      total lies between 0 and 100. */
  lemma TotalBounded(c: Course, ctx: Context)
    requires c.enrollments >= 0
    ensures 0.0 <= Score(c, ctx).Total() <= 100.0
  {
  }

  /** The reasons a recommendation can show. */
  datatype Reason =
    | Teaches(skills: seq<string>)
    | PerfectDifficulty
    | AlignsWithGoal(goalDescription: string)
    | Popular(enrollments: int)
    | QuickWin
    | BeginnerFoundation

  /** The first goal whose lower-cased target role occurs in the lower-cased
      title. */
  function FirstTitleGoal(goals: seq<Goal>, title: string): (r: Option<nat>)
    ensures r.Some? ==> (r.value < |goals| && goals[r.value].targetRole != ""
              && Contains(Lower(title), Lower(goals[r.value].targetRole)))
    ensures r.Some? ==> forall g :: 0 <= g < r.value ==>
              !(goals[g].targetRole != "" && Contains(Lower(title), Lower(goals[g].targetRole)))
    ensures r.None? ==> forall g :: 0 <= g < |goals| ==>
              !(goals[g].targetRole != "" && Contains(Lower(title), Lower(goals[g].targetRole)))
  {
    if goals == [] then None
    else if goals[0].targetRole != "" && Contains(Lower(title), Lower(goals[0].targetRole)) then Some(0)
    else
      match FirstTitleGoal(goals[1..], title)
      case None => None
      case Some(i) => Some(i + 1)
  }

  /** `listed` lists the set `s` once over: the order in which Python's
      `list()` happens to enumerate a set, which depends on string hashing
      and is therefore a parameter here. */
  ghost predicate Lists(listed: seq<string>, s: set<string>) {
    (forall x :: x in listed <==> x in s)
    && forall i, j :: 0 <= i < j < |listed| ==> listed[i] != listed[j]
  }

  /** A listing of a set has exactly as many entries as the set. */
  lemma {:induction false} ListsSize(listed: seq<string>, s: set<string>)
    requires Lists(listed, s)
    ensures |listed| == |s|
    decreases |listed|
  {
    if listed != [] {
      var rest := listed[1..];
      assert Lists(rest, s - {listed[0]}) by {
        forall x ensures x in rest <==> x in s - {listed[0]} {
          if x in rest {
            var k :| 0 <= k < |rest| && rest[k] == x;
            assert listed[k + 1] == x;
          }
          if x in s - {listed[0]} {
            var k :| 0 <= k < |listed| && listed[k] == x;
            assert k != 0 && rest[k - 1] == x;
          }
        }
      }
      ListsSize(rest, s - {listed[0]});
    }
  }

  /** The skills reason: up to three of the listed targeted skills. */
  function TeachesPart(s: Scores, listed: seq<string>): seq<Reason> {
    if s.skillMatch > 20.0 && listed != [] then [Teaches(if |listed| <= 3 then listed else listed[..3])] else []
  }

  /** The reasons after the skills reason, in the order they are checked. */
  function OtherReasons(c: Course, ctx: Context, s: Scores): (r: seq<Reason>)
    ensures forall k :: 0 <= k < |r| ==> !r[k].Teaches?
  {
    var goal := if s.goalAlignment > 15.0 then FirstTitleGoal(ctx.goals, c.title) else None;
    (if s.difficultyMatch >= 15.0 then [PerfectDifficulty] else [])
    + (if goal.Some? then [AlignsWithGoal(ctx.goals[goal.value].description)] else [])
    + (if s.popularity > 5.0 then [Popular(c.enrollments)] else [])
    + (if c.durationHours != 0 && c.durationHours <= 10 then [QuickWin] else [])
    + (if c.difficulty == "BEGINNER" && 0 < |ctx.currentSkills| < 3 then [BeginnerFoundation] else [])
  }

  /** Every reason whose condition holds, in the order they are checked;
      `listed` is the listing of the course's targeted skills. */
  function CandidateReasons(c: Course, ctx: Context, s: Scores, listed: seq<string>): seq<Reason> {
    TeachesPart(s, listed) + OtherReasons(c, ctx, s)
  }

  /** At most four reasons, kept in the order they were found. */
  function Reasons(c: Course, ctx: Context, listed: seq<string>): (r: seq<Reason>)
    requires Lists(listed, c.skills * TargetSkills(ctx.goals))
    ensures |r| <= 4
    ensures r <= CandidateReasons(c, ctx, Score(c, ctx), listed)
    ensures |CandidateReasons(c, ctx, Score(c, ctx), listed)| <= 4 ==> r == CandidateReasons(c, ctx, Score(c, ctx), listed)
  {
    var all := CandidateReasons(c, ctx, Score(c, ctx), listed);
    if |all| <= 4 then all else all[..4]
  }

  /** The skills reason comes first when the skill score is above 20 and
      the course teaches a targeted skill; it names three of those skills,
      or all of them when there are fewer, each once. */
  lemma TeachesReason(c: Course, ctx: Context, s: Scores, listed: seq<string>)
    requires Lists(listed, c.skills * TargetSkills(ctx.goals))
    ensures var all := CandidateReasons(c, ctx, s, listed);
            (all != [] && all[0].Teaches?) <==> s.skillMatch > 20.0 && c.skills * TargetSkills(ctx.goals) != {}
    ensures var all := CandidateReasons(c, ctx, s, listed);
            var matching := c.skills * TargetSkills(ctx.goals);
            all != [] && all[0].Teaches? ==>
              && (forall x :: x in all[0].skills ==> x in matching)
              && |all[0].skills| == (if |matching| <= 3 then |matching| else 3)
              && (forall i, j :: 0 <= i < j < |all[0].skills| ==> all[0].skills[i] != all[0].skills[j])
  {
    ListsSize(listed, c.skills * TargetSkills(ctx.goals));
    var head, other := TeachesPart(s, listed), OtherReasons(c, ctx, s);
    assert CandidateReasons(c, ctx, s, listed) == head + other;
    if head == [] && other != [] {
      assert (head + other)[0] == other[0];
    }
    if listed == [] {
      assert c.skills * TargetSkills(ctx.goals) == {};
    } else {
      assert listed[0] in c.skills * TargetSkills(ctx.goals);
    }
  }

  /** A course is called perfectly difficult exactly when its level is the
      preferred one or one above it. */
  lemma PerfectDifficultyReason(c: Course, ctx: Context, listed: seq<string>)
    ensures PerfectDifficulty in CandidateReasons(c, ctx, Score(c, ctx), listed) <==>
              DifficultyRank(c.difficulty) in {2, 3}
  {
    var s := Score(c, ctx);
    ReasonMembership(c, ctx, s, listed, PerfectDifficulty);
  }

  /** A course is called a quick win exactly when it has a duration of at
      most ten hours. */
  lemma QuickWinReason(c: Course, ctx: Context, listed: seq<string>)
    ensures QuickWin in CandidateReasons(c, ctx, Score(c, ctx), listed) <==>
              c.durationHours != 0 && c.durationHours <= 10
  {
    ReasonMembership(c, ctx, Score(c, ctx), listed, QuickWin);
  }

  /** A course is called popular exactly when more than fifty learners
      enrolled. */
  lemma PopularReason(c: Course, ctx: Context, listed: seq<string>)
    ensures Popular(c.enrollments) in CandidateReasons(c, ctx, Score(c, ctx), listed) <==> c.enrollments > 50
  {
    ReasonMembership(c, ctx, Score(c, ctx), listed, Popular(c.enrollments));
  }

  /** Which condition puts each kind of reason among the candidates. */
  lemma ReasonMembership(c: Course, ctx: Context, s: Scores, listed: seq<string>, x: Reason)
    ensures x == PerfectDifficulty ==> (x in CandidateReasons(c, ctx, s, listed) <==> s.difficultyMatch >= 15.0)
    ensures x == QuickWin ==> (x in CandidateReasons(c, ctx, s, listed) <==> c.durationHours != 0 && c.durationHours <= 10)
    ensures x.Popular? ==> (x in CandidateReasons(c, ctx, s, listed) <==> s.popularity > 5.0 && x.enrollments == c.enrollments)
  {
    var head, other := TeachesPart(s, listed), OtherReasons(c, ctx, s);
    assert x in CandidateReasons(c, ctx, s, listed) <==> x in head || x in other;
  }

  /** Every course's total score, in listing order. */
  function Totals(courses: seq<Course>, ctx: Context): (t: seq<real>)
    ensures |t| == |courses|
    ensures forall i :: 0 <= i < |courses| ==> t[i] == Score(courses[i], ctx).Total()
  {
    seq(|courses|, i requires 0 <= i < |courses| => Score(courses[i], ctx).Total())
  }

  /** The `limit` best courses by total score, best first; equal totals keep
      the order the courses were listed in, and no course left out scores
      more than one that was kept. */
  function Rank(courses: seq<Course>, ctx: Context, limit: nat): (r: seq<nat>)
    ensures |r| == if limit < |courses| then limit else |courses|
    ensures forall a :: 0 <= a < |r| ==> r[a] < |courses|
    ensures forall a, b :: 0 <= a < b < |r| ==> r[a] != r[b]
    ensures var t := Totals(courses, ctx);
            forall a, b :: 0 <= a < b < |r| ==> t[r[a]] >= t[r[b]]
    ensures var t := Totals(courses, ctx);
            forall j :: 0 <= j < |courses| && j !in r ==> forall a :: 0 <= a < |r| ==> t[r[a]] >= t[j]
  {
    Sorting.TopK(Totals(courses, ctx), limit)
  }
}

=== FILE: dashboard.dfy ===
/** The insight panel of the learner dashboard: the personalised message
    assembled from a few rules, the strengths list, the improvement areas
    and the study-time advice. The performance figures, engagement
    patterns and struggling topics arrive already computed. */
module Dashboard {
  import opened Wrappers
  import opened Text
  import LearningAnalytics

  type Trend = LearningAnalytics.Trend

  datatype Performance = Performance(
    currentStreak: int,
    performanceTrend: Trend,
    completionRate: real,     // a fraction, 0 to 1
    avgQuizScore: real,       // a percentage
    totalStudyHours: real)

  const Fire: char := '\U{1F525}'
  const Fallback: string := "Keep up the good work!"
  const ImprovingNote: string := "Your performance is improving - " + "you're mastering the material!"
  const DecliningNote: string := "Consider reviewing recent topics " + "to strengthen your foundation."
  const ConsistentNote: string := "Excellent completion rate! " + "You're very consistent."

  /** The streak sentence: none below three days, "Great" from three,
      "Amazing" from seven. */
  function StreakPart(streak: int): (r: Option<string>)
    ensures r.Some? <==> streak >= 3
    ensures r.Some? ==> r.value != [] && r.value[0] == (if streak >= 7 then Fire else 'G')
  {
    if streak >= 7 then Some([Fire] + " Amazing " + IntToString(streak) + "-day streak!")
    else if streak >= 3 then Some("Great " + IntToString(streak) + "-day streak! Keep it up!")
    else None
  }

  /** The number in the streak sentence reads back as the streak. */
  lemma StreakPartReadsBack(streak: int)
    requires streak >= 3
    ensures var s := StreakPart(streak).value;
            var lo := if streak >= 7 then 10 else 6;
            var n := |IntToString(streak)|;
            lo + n <= |s| && AllDigits(s[lo..lo + n]) && ParseNat(s[lo..lo + n]) == streak
  {
    var d := IntToString(streak);
    ParseNatToString(streak);
    if streak >= 7 {
      var s := [Fire] + " Amazing " + d + "-day streak!";
      assert s[10..10 + |d|] == d;
    } else {
      var s := "Great " + d + "-day streak! Keep it up!";
      assert s[6..6 + |d|] == d;
    }
  }

  function TrendPart(t: Trend): (r: Option<string>)
    ensures r.Some? <==> t == LearningAnalytics.Improving || t == LearningAnalytics.Declining
    ensures r.Some? ==> r.value != [] && r.value[0] in "YC"
  {
    assert ImprovingNote[0] == 'Y' && DecliningNote[0] == 'C';
    match t
    case Improving => Some(ImprovingNote)
    case Declining => Some(DecliningNote)
    case _ => None
  }

  /** Advice about the weakest topic, when there is one. */
  function FocusPart(struggling: seq<string>): (r: Option<string>)
    ensures r.Some? <==> struggling != []
    ensures r.Some? ==> Contains(r.value, struggling[0])
    ensures r.Some? ==> r.value != [] && r.value[0] == 'F'
  {
    if struggling == [] then None
    else
      var s := "Focus on " + struggling[0] + " - we've prepared revision content for you.";
      assert MatchAt(s, struggling[0], 9);
      ContainsIffMatch(s, struggling[0]);
      Some(s)
  }

  function CompletionPart(rate: real): (r: Option<string>)
    ensures r.Some? <==> rate > 0.8
    ensures r.Some? ==> r.value != [] && r.value[0] == 'E'
  {
    assert ConsistentNote[0] == 'E';
    if rate > 0.8 then Some(ConsistentNote) else None
  }

  function Opt(o: Option<string>): (r: seq<string>)
    ensures o.None? ==> r == []
    ensures o.Some? ==> r == [o.value]
  {
    if o.Some? then [o.value] else []
  }

  /** The values of the options that are set, in order. */
  function Present(os: seq<Option<string>>): (r: seq<string>)
    ensures |r| <= |os|
  {
    if os == [] then [] else Opt(os[0]) + Present(os[1..])
  }

  /** A value is among the present ones exactly when some option holds it. */
  lemma {:induction false} PresentMembers(os: seq<Option<string>>, x: string)
    ensures x in Present(os) <==> Some(x) in os
  {
    if os != [] {
      PresentMembers(os[1..], x);
      assert os == [os[0]] + os[1..];
    }
  }

  lemma PresentCons(o: Option<string>, os: seq<Option<string>>)
    ensures Present([o] + os) == Opt(o) + Present(os)
  {
    assert ([o] + os)[1..] == os;
  }

  lemma PresentOfFour(o1: Option<string>, o2: Option<string>, o3: Option<string>, o4: Option<string>)
    ensures Present([o1, o2, o3, o4]) == Opt(o1) + Opt(o2) + Opt(o3) + Opt(o4)
  {
    var a, b, c, d := Opt(o1), Opt(o2), Opt(o3), Opt(o4);
    assert Present([o4]) == d by {
      PresentCons(o4, []);
      assert [o4] + [] == [o4] && d + [] == d;
    }
    assert Present([o3, o4]) == c + d by {
      PresentCons(o3, [o4]);
      assert [o3] + [o4] == [o3, o4];
    }
    assert Present([o2, o3, o4]) == b + (c + d) by {
      PresentCons(o2, [o3, o4]);
      assert [o2] + [o3, o4] == [o2, o3, o4];
    }
    assert Present([o1, o2, o3, o4]) == a + (b + (c + d)) by {
      PresentCons(o1, [o2, o3, o4]);
      assert [o1] + [o2, o3, o4] == [o1, o2, o3, o4];
    }
    assert a + (b + (c + d)) == a + b + c + d;
  }

  /** Every part is non-empty and cannot be mistaken for the fallback. */
  predicate Distinguishable(parts: seq<string>) {
    forall i :: 0 <= i < |parts| ==> parts[i] != [] && parts[i][0] != 'K'
  }

  lemma DistinguishableConcat(a: seq<string>, b: seq<string>)
    requires Distinguishable(a) && Distinguishable(b)
    ensures Distinguishable(a + b)
  {
    forall i | 0 <= i < |a + b|
      ensures (a + b)[i] != [] && (a + b)[i][0] != 'K'
    {
      if i < |a| { assert (a + b)[i] == a[i]; } else { assert (a + b)[i] == b[i - |a|]; }
    }
  }

  /** The message parts, in the order the rules fire. */
  function MessageParts(p: Performance, struggling: seq<string>): (r: seq<string>)
    ensures r == [] <==>
              p.currentStreak < 3
              && p.performanceTrend != LearningAnalytics.Improving
              && p.performanceTrend != LearningAnalytics.Declining
              && struggling == [] && p.completionRate <= 0.8
    ensures Distinguishable(r)
    ensures r == Present([StreakPart(p.currentStreak), TrendPart(p.performanceTrend),
                          FocusPart(struggling), CompletionPart(p.completionRate)])
  {
    var a := Opt(StreakPart(p.currentStreak));
    var b := Opt(TrendPart(p.performanceTrend));
    var c := Opt(FocusPart(struggling));
    var d := Opt(CompletionPart(p.completionRate));
    DistinguishableConcat(a, b);
    DistinguishableConcat(a + b, c);
    DistinguishableConcat(a + b + c, d);
    PresentOfFour(StreakPart(p.currentStreak), TrendPart(p.performanceTrend),
                  FocusPart(struggling), CompletionPart(p.completionRate));
    a + b + c + d
  }

  /** `personalized_message`: the parts joined by spaces, or the fixed
      encouragement when no rule fires. */
  function PersonalizedMessage(p: Performance, struggling: seq<string>): (r: string)
    ensures r == Fallback <==> MessageParts(p, struggling) == []
    ensures MessageParts(p, struggling) != [] ==> MessageParts(p, struggling)[0] <= r
    ensures var parts := MessageParts(p, struggling);
            parts != [] ==>
              |r| + 1 == JoinOffset(" ", parts, |parts|)
              && (forall i :: 0 <= i < |parts| ==> MatchAt(r, parts[i], JoinOffset(" ", parts, i)))
              && (forall i :: 0 <= i < |parts| - 1 ==> MatchAt(r, " ", SepOffset(" ", parts, i)))
  {
    var parts := MessageParts(p, struggling);
    if parts == [] then Fallback
    else
      assert Join(" ", parts)[0] == parts[0][0];
      JoinTiles(" ", parts);
      Join(" ", parts)
  }

  /** `predicted_completion`: a fixed estimate whenever a goal is active. */
  function PredictedCompletion<G>(activeGoals: seq<G>): (r: Option<string>)
    ensures r.None? <==> activeGoals == []
  {
    if activeGoals == [] then None
    else Some("Based on your pace, estimated completion in 8-12 weeks")
  }

  /** `areas_for_improvement`: the first three struggling skills, in order. */
  function AreasForImprovement(struggling: seq<string>): (r: seq<string>)
    ensures |r| == if |struggling| < 3 then |struggling| else 3
    ensures r <= struggling
  {
    if |struggling| <= 3 then struggling else struggling[..3]
  }

  const QuizStrength := "Strong quiz performance"
  const CompletionStrength := "Consistent lesson completion"
  const StreakStrength := "Excellent study discipline"
  const HoursStrength := "High engagement"

  /** `_identify_strengths`: four independent thresholds, listed in a
      fixed order. */
  function Strengths(p: Performance): (r: seq<string>)
    ensures QuizStrength in r <==> p.avgQuizScore >= 85.0
    ensures CompletionStrength in r <==> p.completionRate >= 0.75
    ensures StreakStrength in r <==> p.currentStreak >= 5
    ensures HoursStrength in r <==> p.totalStudyHours >= 15.0
    ensures forall i :: 0 <= i < |r| ==>
              r[i] in [QuizStrength, CompletionStrength, StreakStrength, HoursStrength]
    ensures forall i, j :: 0 <= i < j < |r| ==> r[i] != r[j]
  {
    (if p.avgQuizScore >= 85.0 then [QuizStrength] else [])
      + (if p.completionRate >= 0.75 then [CompletionStrength] else [])
      + (if p.currentStreak >= 5 then [StreakStrength] else [])
      + (if p.totalStudyHours >= 15.0 then [HoursStrength] else [])
  }

  /** Doing better on any figure never loses a strength. */
  lemma StrengthsMonotone(p: Performance, q: Performance)
    requires p.avgQuizScore <= q.avgQuizScore && p.completionRate <= q.completionRate
    requires p.currentStreak <= q.currentStreak && p.totalStudyHours <= q.totalStudyHours
    ensures forall s :: s in Strengths(p) ==> s in Strengths(q)
  {
  }

  /** `f"{h:02d}"`: at least two characters, zero-padded on the left. */
  function Pad2(h: int): (r: string)
    ensures |r| >= 2
    ensures h >= 0 ==> AllDigits(r) && ParseNat(r) == h
    ensures 0 <= h < 100 ==> |r| == 2
  {
    if 0 <= h < 10 then
      assert ParseNat([DigitChar(h)]) == h by {
        assert [DigitChar(h)][..0] == [];
      }
      var r := ['0', DigitChar(h)];
      assert r[..1] == ['0'] && ParseNat(r[..1]) == 0 by {
        assert ['0'][..0] == [];
      }
      r
    else
      ParseNatToString(if h < 0 then -h else h);
      IntToString(h)
  }

  const AdviceTail := ":00. Schedule important lessons then!"
  const AdviceFallback := "Try to maintain a consistent study schedule for best results."

  /** The advice sentence for the given days and hour. */
  function Advice(days: string, hour: string): (r: string)
    ensures Contains(r, days) && |r| > 0 && r[0] == 'Y'
  {
    var r := "You learn best on " + days + " around " + hour + AdviceTail;
    assert MatchAt(r, days, 18);
    ContainsIffMatch(r, days);
    assert r[0] == "You learn best on "[0];
    r
  }

  /** `_generate_study_recommendation`: both the peak days and the peak
      hours are needed; otherwise the generic advice. */
  function StudyRecommendation(e: LearningAnalytics.Engagement): (r: string)
    ensures r == AdviceFallback <==> e.peakHours == [] || e.peakDays == []
    ensures e.peakHours != [] && e.peakDays != [] ==> Contains(r, Join(", ", e.peakDays))
  {
    if e.peakHours != [] && e.peakDays != [] then
      Advice(Join(", ", e.peakDays), Pad2(e.peakHours[0]))
    else AdviceFallback
  }

  /** The hour in the advice reads back as the learner's first peak hour. */
  lemma StudyRecommendationReadsHour(e: LearningAnalytics.Engagement)
    requires e.peakHours != [] && e.peakDays != []
    requires 0 <= e.peakHours[0] < 100
    ensures var r := StudyRecommendation(e);
            var k := |r| - |AdviceTail|;
            2 <= k && r[k..] == AdviceTail
            && AllDigits(r[k - 2..k]) && ParseNat(r[k - 2..k]) == e.peakHours[0]
  {
    var r := StudyRecommendation(e);
    var hour := Pad2(e.peakHours[0]);
    var pre := "You learn best on " + Join(", ", e.peakDays) + " around ";
    assert r == pre + hour + AdviceTail;
    var k := |r| - |AdviceTail|;
    assert r[k - 2..k] == hour;
    assert r[k..] == AdviceTail;
  }

  datatype Insights = Insights(
    learningPace: Trend,
    predictedCompletion: Option<string>,
    performanceTrend: Trend,
    personalizedMessage: string,
    strengths: seq<string>,
    areasForImprovement: seq<string>,
    studyRecommendation: string)

  /** `_generate_ai_insights`. The pace reported is the performance trend
      itself. */
  function AiInsights<G>(p: Performance, e: LearningAnalytics.Engagement,
                         struggling: seq<string>, activeGoals: seq<G>): (r: Insights)
    ensures r.learningPace == r.performanceTrend == p.performanceTrend
    ensures r.predictedCompletion.None? <==> activeGoals == []
    ensures r.personalizedMessage == Fallback <==> MessageParts(p, struggling) == []
    ensures r.areasForImprovement <= struggling
    ensures |r.areasForImprovement| == if |struggling| < 3 then |struggling| else 3
    ensures r.strengths == Strengths(p)
    ensures r.studyRecommendation == AdviceFallback <==> e.peakHours == [] || e.peakDays == []
    ensures r.personalizedMessage == PersonalizedMessage(p, struggling)
    ensures r.studyRecommendation == StudyRecommendation(e)
    ensures r.areasForImprovement == AreasForImprovement(struggling)
    ensures r.predictedCompletion == PredictedCompletion(activeGoals)
  {
    Insights(
      p.performanceTrend,
      PredictedCompletion(activeGoals),
      p.performanceTrend,
      PersonalizedMessage(p, struggling),
      Strengths(p),
      AreasForImprovement(struggling),
      StudyRecommendation(e))
  }
}

=== FILE: gamification.dfy ===
/** Gamification (services/gamification.py and the `UserStats` methods of
    models/gamification.py): XP awards, the level curve, the daily streak,
    achievement unlocking and leaderboard ranks. Database reads and writes
    become values passed in and returned. */
module Gamification {
  import opened Wrappers
  import opened Sorting

  /** `XP_VALUES`. */
  const LessonCompletedXp: nat := 50
  const QuizPassedXp: nat := 100
  const QuizPerfectXp: nat := 150
  const CourseCompletedXp: nat := 500
  const DailyStreakXp: nat := 20
  const AchievementUnlockedXp: nat := 200
  const FirstReviewXp: nat := 50
  const DiscussionPostXp: nat := 30

  // ----- level curve -----

  /** The integer square root. */
  function ISqrt(n: nat): (r: nat)
    ensures r * r <= n < (r + 1) * (r + 1)
  {
    if n == 0 then 0
    else
      var s := ISqrt(n / 4);
      ISqrtStep(n, s);
      if (2 * s + 1) * (2 * s + 1) <= n then 2 * s + 1 else 2 * s
  }

  lemma ISqrtStep(n: nat, s: nat)
    requires s * s <= n / 4 < (s + 1) * (s + 1)
    ensures (2 * s) * (2 * s) <= n < (2 * s + 2) * (2 * s + 2)
  {
    assert (2 * s) * (2 * s) == 4 * (s * s);
    assert (2 * s + 2) * (2 * s + 2) == 4 * ((s + 1) * (s + 1));
    assert n / 4 + 1 <= (s + 1) * (s + 1);
  }

  /** The root is the unique `r` with `r² <= n < (r+1)²`. */
  lemma ISqrtUnique(n: nat, r: nat)
    requires r * r <= n < (r + 1) * (r + 1)
    ensures ISqrt(n) == r
  {
    RootUnique(n, ISqrt(n), r);
  }

  /** Two integer roots of the same number coincide. */
  lemma RootUnique(n: nat, q: nat, r: nat)
    requires q * q <= n < (q + 1) * (q + 1)
    requires r * r <= n < (r + 1) * (r + 1)
    ensures q == r
  {
    assert r <= q by { SquareOrder(q + 1, r); }
    assert q <= r by { SquareOrder(r + 1, q); }
  }

  /** Squaring keeps the order of naturals, stated without a precondition so
      that it can rule a case out. */
  lemma SquareOrder(a: nat, b: nat)
    ensures a <= b ==> a * a <= b * b
  {
    if a <= b {
      SquareMonotone(a, b);
    }
  }

  lemma SquareMonotone(a: nat, b: nat)
    requires a <= b
    ensures a * a <= b * b
  {
    assert a * a <= a * b <= b * b;
  }

  lemma ISqrtMonotone(m: nat, n: nat)
    requires m <= n
    ensures ISqrt(m) <= ISqrt(n)
  {
    SquareOrder(ISqrt(n) + 1, ISqrt(m));
  }

  /** `calculate_level`: `max(1, int(sqrt(total_xp / 100)))`. The square
      root of a negative total raises `ValueError`. For a non-negative total
      the floor of the real root equals the integer root of `xp / 100`
      rounded down. */
  function CalculateLevel(xp: int): (r: Result<nat, string>)
    ensures r.Err? <==> xp < 0
    ensures r.Ok? ==> r.value >= 1
    ensures r.Ok? ==> xp < XpForNextLevel(r.value)
    ensures r.Ok? && r.value >= 2 ==> r.value * r.value * 100 <= xp
  {
    if xp < 0 then Err("ValueError")
    else
      var root := ISqrt(xp / 100);
      var level := if root >= 1 then root else 1;
      SquareMonotone(root + 1, level + 1);
      Ok(level)
  }

  /** `xp_for_next_level`: the total at which the next level starts. */
  function XpForNextLevel(level: int): (r: int)
    ensures r == (level + 1) * (level + 1) * 100
  {
    var next := level + 1;
    next * next * 100
  }

  /** More XP never means a lower level. */
  lemma LevelMonotone(a: nat, b: nat)
    requires a <= b
    ensures CalculateLevel(a).value <= CalculateLevel(b).value
  {
    ISqrtMonotone(a / 100, b / 100);
  }

  /** The level is exactly the one whose band holds the total. */
  lemma LevelBand(xp: nat, level: nat)
    requires level >= 2 && level * level * 100 <= xp < (level + 1) * (level + 1) * 100
    ensures CalculateLevel(xp) == Ok(level)
  {
    assert level * level <= xp / 100 < (level + 1) * (level + 1);
    ISqrtUnique(xp / 100, level);
  }

  // ----- stats and XP -----

  datatype UserStats = UserStats(
    totalXp: nat, level: nat,
    coursesCompleted: nat, lessonsCompleted: nat, quizzesCompleted: nat,
    currentStreak: nat, longestStreak: nat, lastActivity: Option<int>,
    studyMinutes: int, achievementsUnlocked: nat)

  /** A fresh row as the column defaults make it. */
  const NewStats := UserStats(0, 1, 0, 0, 0, 0, 0, None, 0, 0)

  datatype Award = Award(stats: UserStats, levelUp: bool, nextLevelXp: int)

  /** `award_xp`: add the amount, recompute the level and report whether
      it rose. */
  function AwardXp(stats: UserStats, amount: nat): (r: Award)
    ensures r.stats.totalXp == stats.totalXp + amount
    ensures r.stats.level == CalculateLevel(stats.totalXp + amount).value
    ensures r.levelUp <==> r.stats.level > stats.level
    ensures r.nextLevelXp > r.stats.totalXp
    ensures r.stats == stats.(totalXp := r.stats.totalXp, level := r.stats.level)
  {
    var xp := stats.totalXp + amount;
    var level := CalculateLevel(xp).value;
    Award(stats.(totalXp := xp, level := level), level > stats.level, XpForNextLevel(level))
  }

  /** When the stored level is the computed one, an award never lowers it. */
  lemma AwardNeverLowersLevel(stats: UserStats, amount: nat)
    requires stats.level == CalculateLevel(stats.totalXp).value
    ensures AwardXp(stats, amount).stats.level >= stats.level
  {
    var award := AwardXp(stats, amount);
    assert award.stats.level == CalculateLevel(stats.totalXp + amount).value;
    LevelMonotone(stats.totalXp, stats.totalXp + amount);
  }

  // ----- streak -----

  /** `update_streak` on day number `today`: the same day changes nothing;
      activity yesterday extends the streak and earns the daily-streak XP; no
      activity or older activity restarts it at 1; a future date leaves the
      count. The longest streak follows and the date becomes today. */
  function UpdateStreak(stats: UserStats, today: int): (r: Award)
    ensures stats.lastActivity == Some(today) ==> r.stats == stats && !r.levelUp
    ensures stats.lastActivity != Some(today) ==>
              && r.stats.lastActivity == Some(today)
              && r.stats.longestStreak >= r.stats.currentStreak
              && r.stats.longestStreak >= stats.longestStreak
              && (r.stats.longestStreak == stats.longestStreak || r.stats.longestStreak == r.stats.currentStreak)
              && (stats.lastActivity == Some(today - 1) ==>
                    r.stats.currentStreak == stats.currentStreak + 1 && r.stats.totalXp == stats.totalXp + DailyStreakXp)
              && (stats.lastActivity.None? || stats.lastActivity.value < today - 1 ==>
                    r.stats.currentStreak == 1 && r.stats.totalXp == stats.totalXp)
              && (stats.lastActivity.Some? && stats.lastActivity.value > today ==>
                    r.stats.currentStreak == stats.currentStreak && r.stats.totalXp == stats.totalXp)
    ensures stats.lastActivity != Some(today - 1) ==> r.stats.totalXp == stats.totalXp && r.stats.level == stats.level
    ensures r.stats == stats.(totalXp := r.stats.totalXp, level := r.stats.level, currentStreak := r.stats.currentStreak,
                              longestStreak := r.stats.longestStreak, lastActivity := r.stats.lastActivity)
  {
    if stats.lastActivity == Some(today) then Award(stats, false, XpForNextLevel(stats.level))
    else
      var award :=
        if stats.lastActivity == Some(today - 1) then AwardXp(stats.(currentStreak := stats.currentStreak + 1), DailyStreakXp)
        else if stats.lastActivity.None? || stats.lastActivity.value < today - 1 then
          Award(stats.(currentStreak := 1), false, XpForNextLevel(stats.level))
        else Award(stats, false, XpForNextLevel(stats.level));
      var s := award.stats;
      var longest := if s.currentStreak > s.longestStreak then s.currentStreak else s.longestStreak;
      award.(stats := s.(longestStreak := longest, lastActivity := Some(today)))
  }

  /** A second update on the same day changes nothing. */
  lemma UpdateStreakIdempotent(stats: UserStats, today: int)
    ensures UpdateStreak(UpdateStreak(stats, today).stats, today).stats == UpdateStreak(stats, today).stats
  {
  }

  // ----- events -----

  /** XP for a quiz: a perfect score, a pass at 70, or half the pass XP. */
  function QuizXp(score: real): (xp: nat)
    ensures xp == QuizPerfectXp <==> score == 100.0
    ensures xp == QuizPassedXp <==> score != 100.0 && score >= 70.0
    ensures xp == QuizPassedXp / 2 <==> score < 70.0
  {
    if score == 100.0 then QuizPerfectXp else if score >= 70.0 then QuizPassedXp else QuizPassedXp / 2
  }

  /** A better score never earns less XP. */
  lemma QuizXpMonotone(a: real, b: real)
    requires a <= b <= 100.0
    ensures QuizXp(a) <= QuizXp(b)
  {
  }

  /** `on_quiz_completed`: count the quiz and award its XP. */
  function OnQuizCompleted(stats: UserStats, score: real): (r: Award)
    ensures r.stats.quizzesCompleted == stats.quizzesCompleted + 1
    ensures r.stats.totalXp == stats.totalXp + QuizXp(score)
    ensures r.stats.lessonsCompleted == stats.lessonsCompleted && r.stats.coursesCompleted == stats.coursesCompleted
  {
    AwardXp(stats.(quizzesCompleted := stats.quizzesCompleted + 1), QuizXp(score))
  }

  /** `on_lesson_completed`: count the lesson and its minutes, award the
      lesson XP, then update the streak. */
  function OnLessonCompleted(stats: UserStats, minutes: int, today: int): (r: UserStats)
    ensures r.lessonsCompleted == stats.lessonsCompleted + 1
    ensures r.studyMinutes == stats.studyMinutes + minutes
    ensures stats.lastActivity == Some(today - 1) ==> r.totalXp == stats.totalXp + LessonCompletedXp + DailyStreakXp
    ensures stats.lastActivity != Some(today - 1) ==> r.totalXp == stats.totalXp + LessonCompletedXp
    ensures r.lastActivity == Some(today)
    ensures r.coursesCompleted == stats.coursesCompleted && r.quizzesCompleted == stats.quizzesCompleted
  {
    var counted := stats.(lessonsCompleted := stats.lessonsCompleted + 1, studyMinutes := stats.studyMinutes + minutes);
    var awarded := AwardXp(counted, LessonCompletedXp).stats;
    UpdateStreak(awarded, today).stats
  }

  /** `on_course_completed`: count the course and award its XP. */
  function OnCourseCompleted(stats: UserStats): (r: Award)
    ensures r.stats.coursesCompleted == stats.coursesCompleted + 1
    ensures r.stats.totalXp == stats.totalXp + CourseCompletedXp
  {
    AwardXp(stats.(coursesCompleted := stats.coursesCompleted + 1), CourseCompletedXp)
  }

  // ----- achievements -----

  datatype Achievement = Achievement(id: string, requirementType: string, requirementValue: int, points: nat)

  const KnownRequirements: set<string> :=
    {"courses_completed", "lessons_completed", "streak_days", "total_xp", "level", "quizzes_completed"}

  /** The counter a requirement type reads; unknown types read nothing. */
  function Counter(stats: UserStats, requirementType: string): (r: Option<int>)
    ensures r.Some? <==> requirementType in KnownRequirements
  {
    if requirementType == "courses_completed" then Some(stats.coursesCompleted)
    else if requirementType == "lessons_completed" then Some(stats.lessonsCompleted)
    else if requirementType == "streak_days" then Some(stats.currentStreak)
    else if requirementType == "total_xp" then Some(stats.totalXp)
    else if requirementType == "level" then Some(stats.level)
    else if requirementType == "quizzes_completed" then Some(stats.quizzesCompleted)
    else None
  }

  predicate Met(stats: UserStats, a: Achievement) {
    Counter(stats, a.requirementType).Some? && Counter(stats, a.requirementType).value >= a.requirementValue
  }

  /** `t` has every counter at least as high as `s`. */
  predicate Dominates(t: UserStats, s: UserStats) {
    t.coursesCompleted >= s.coursesCompleted && t.lessonsCompleted >= s.lessonsCompleted
    && t.currentStreak >= s.currentStreak && t.totalXp >= s.totalXp && t.level >= s.level
    && t.quizzesCompleted >= s.quizzesCompleted
  }

  predicate LevelCurrent(stats: UserStats) {
    stats.level == CalculateLevel(stats.totalXp).value
  }

  /** `check_and_unlock_achievements` as evidently intended, in one pass
      over the active achievements: each one not unlocked before whose
      requirement the running stats meet is unlocked, counted and paid out
      in XP, and later checks see the raised XP. The code as written
      re-enters itself through `award_xp`; see `CheckAchievementsAsWritten`. */
  function CheckAchievements(stats: UserStats, achievements: seq<Achievement>, unlocked: set<string>)
    : (r: (UserStats, seq<Achievement>))
    requires LevelCurrent(stats)
    ensures LevelCurrent(r.0) && Dominates(r.0, stats)
    ensures r.0.achievementsUnlocked == stats.achievementsUnlocked + |r.1|
    ensures forall a :: a in r.1 ==> a in achievements && a.id !in unlocked && Counter(stats, a.requirementType).Some?
    ensures forall a :: a in achievements && a.id !in unlocked && Met(stats, a) ==> a in r.1
    ensures forall a :: a in r.1 ==> Met(r.0, a)
    decreases |achievements|
  {
    if achievements == [] then (stats, [])
    else
      var a, tail := achievements[0], achievements[1..];
      if a.id !in unlocked && Met(stats, a) then
        var paid := Pay(stats, a.points);
        var rest := CheckAchievements(paid, tail, unlocked);
        UnlockStep(stats, paid, a, tail, unlocked, rest);
        UnlockKeepsMet(stats, rest.0, a, rest.1);
        (rest.0, [a] + rest.1)
      else
        var rest := CheckAchievements(stats, tail, unlocked);
        SkipStep(stats, a, tail, unlocked, rest);
        rest
  }

  /** Unlocking counts the achievement and pays its points as XP. */
  function Pay(stats: UserStats, points: nat): (paid: UserStats)
    requires LevelCurrent(stats)
    ensures LevelCurrent(paid) && Dominates(paid, stats)
    ensures paid.achievementsUnlocked == stats.achievementsUnlocked + 1
  {
    var bumped := stats.(achievementsUnlocked := stats.achievementsUnlocked + 1);
    AwardNeverLowersLevel(bumped, points);
    AwardXp(bumped, points).stats
  }

  /** The pass's contract, carried over an unlocked head. */
  lemma UnlockStep(stats: UserStats, paid: UserStats, a: Achievement, tail: seq<Achievement>,
                   unlocked: set<string>, rest: (UserStats, seq<Achievement>))
    requires a.id !in unlocked && Met(stats, a) && Dominates(paid, stats)
    requires paid.achievementsUnlocked == stats.achievementsUnlocked + 1
    requires LevelCurrent(rest.0) && Dominates(rest.0, paid)
    requires rest.0.achievementsUnlocked == paid.achievementsUnlocked + |rest.1|
    requires forall x :: x in rest.1 ==> x in tail && x.id !in unlocked && Counter(paid, x.requirementType).Some?
    requires forall x :: x in tail && x.id !in unlocked && Met(paid, x) ==> x in rest.1
    ensures Dominates(rest.0, stats)
    ensures rest.0.achievementsUnlocked == stats.achievementsUnlocked + |[a] + rest.1|
    ensures forall x :: x in [a] + rest.1 ==> x in [a] + tail && x.id !in unlocked && Counter(stats, x.requirementType).Some?
    ensures forall x :: x in [a] + tail && x.id !in unlocked && Met(stats, x) ==> x in [a] + rest.1
  {
    MetPreserved(stats, paid, tail);
    forall x | x in rest.1
      ensures Counter(stats, x.requirementType).Some?
    {
      assert Counter(paid, x.requirementType).Some?;
    }
  }

  /** The pass's contract, carried over a head that stays locked. */
  lemma SkipStep(stats: UserStats, a: Achievement, tail: seq<Achievement>,
                 unlocked: set<string>, rest: (UserStats, seq<Achievement>))
    requires !(a.id !in unlocked && Met(stats, a))
    requires forall x :: x in rest.1 ==> x in tail && x.id !in unlocked && Counter(stats, x.requirementType).Some?
    requires forall x :: x in tail && x.id !in unlocked && Met(stats, x) ==> x in rest.1
    ensures forall x :: x in rest.1 ==> x in [a] + tail
    ensures forall x :: x in [a] + tail && x.id !in unlocked && Met(stats, x) ==> x in rest.1
  {
  }

  /** Counters only grow, so a requirement once met stays met. */
  lemma MetPreserved(s: UserStats, t: UserStats, achievements: seq<Achievement>)
    requires Dominates(t, s)
    ensures forall a :: a in achievements && Met(s, a) ==> Met(t, a)
  {
  }

  /** The head unlocked from `stats` is still met by the final stats,
      which dominate `stats`, alongside the rest. */
  lemma UnlockKeepsMet(stats: UserStats, final: UserStats, a: Achievement, rest: seq<Achievement>)
    requires Dominates(final, stats) && Met(stats, a)
    requires forall y :: y in rest ==> Met(final, y)
    ensures forall y :: y in [a] + rest ==> Met(final, y)
  {
    MetPreserved(stats, final, [a]);
  }

  /** An unknown requirement type never unlocks. */
  lemma UnknownTypeNeverUnlocks(stats: UserStats, a: Achievement, unlocked: set<string>)
    requires LevelCurrent(stats)
    requires a.requirementType !in KnownRequirements
    ensures a !in CheckAchievements(stats, [a], unlocked).1
  {
  }

  /** Achievement ids are primary keys: no two rows share one. */
  predicate DistinctIds(achievements: seq<Achievement>) {
    forall i, j :: 0 <= i < j < |achievements| ==> achievements[i].id != achievements[j].id
  }

  /** The single pass unlocks each achievement at most once, so it adds at
      most one row per achievement, as the unique constraint on
      (`user_id`, `achievement_id`) demands. */
  lemma {:induction false} UnlocksOnce(stats: UserStats, achievements: seq<Achievement>, unlocked: set<string>)
    requires LevelCurrent(stats) && DistinctIds(achievements)
    ensures DistinctIds(CheckAchievements(stats, achievements, unlocked).1)
    decreases |achievements|
  {
    if achievements != [] {
      var a, tail := achievements[0], achievements[1..];
      DistinctIdsTail(achievements);
      if a.id !in unlocked && Met(stats, a) {
        var paid := Pay(stats, a.points);
        UnlocksOnce(paid, tail, unlocked);
        DistinctIdsCons(a, CheckAchievements(paid, tail, unlocked).1, tail);
      } else {
        UnlocksOnce(stats, tail, unlocked);
      }
    }
  }

  lemma DistinctIdsTail(achievements: seq<Achievement>)
    requires achievements != [] && DistinctIds(achievements)
    ensures DistinctIds(achievements[1..])
    ensures forall x :: x in achievements[1..] ==> x.id != achievements[0].id
  {
    var tail := achievements[1..];
    forall i, j | 0 <= i < j < |tail| ensures tail[i].id != tail[j].id {
      assert tail[i] == achievements[i + 1] && tail[j] == achievements[j + 1];
    }
    forall x | x in tail ensures x.id != achievements[0].id {
      var k :| 0 <= k < |tail| && tail[k] == x;
      assert achievements[k + 1] == x;
    }
  }

  lemma DistinctIdsCons(a: Achievement, xs: seq<Achievement>, tail: seq<Achievement>)
    requires DistinctIds(xs)
    requires forall x :: x in xs ==> x in tail
    requires forall x :: x in tail ==> x.id != a.id
    ensures DistinctIds([a] + xs)
  {
    var r := [a] + xs;
    forall i, j | 0 <= i < j < |r| ensures r[i].id != r[j].id {
      if i == 0 {
        assert r[j] == xs[j - 1] && r[j] in xs;
      } else {
        assert r[i] == xs[i - 1] && r[j] == xs[j - 1];
      }
    }
  }

  /** Two different members make a sequence at least two long. */
  lemma TwoMembers<T>(s: seq<T>, x: T, y: T)
    requires x in s && y in s && x != y
    ensures |s| >= 2
  {
  }

  /** `check_and_unlock_achievements` as written. Each unlock calls
      `award_xp`, which commits and runs the check again; that nested run
      reads the unlocked ids afresh and unlocks every later achievement
      already met. The outer loop still holds the ids it read first, so when
      it reaches such an achievement it adds a second row for it, and the
      next commit breaks the unique constraint with an `IntegrityError`.
      The call therefore fails whenever the single pass would unlock two or
      more achievements. */
  function CheckAchievementsAsWritten(stats: UserStats, achievements: seq<Achievement>, unlocked: set<string>)
    : (r: Result<(UserStats, seq<Achievement>), string>)
    requires LevelCurrent(stats)
    ensures r.Err? <==> |CheckAchievements(stats, achievements, unlocked).1| >= 2
    ensures r.Ok? ==> r.value == CheckAchievements(stats, achievements, unlocked)
  {
    var pass := CheckAchievements(stats, achievements, unlocked);
    if |pass.1| >= 2 then Err("IntegrityError") else Ok(pass)
  }

  /** Two different locked achievements that the stats already meet: the
      corrected pass unlocks both, once each, and the code as written fails.
      A new learner with two zero-lesson achievements is such a case. */
  lemma SecondUnlockFails(stats: UserStats, a: Achievement, b: Achievement, unlocked: set<string>)
    requires LevelCurrent(stats) && a.id != b.id
    requires a.id !in unlocked && b.id !in unlocked && Met(stats, a) && Met(stats, b)
    ensures var pass := CheckAchievements(stats, [a, b], unlocked);
            a in pass.1 && b in pass.1 && DistinctIds(pass.1)
    ensures CheckAchievementsAsWritten(stats, [a, b], unlocked).Err?
  {
    var pass := CheckAchievements(stats, [a, b], unlocked);
    assert a in [a, b] && b in [a, b];
    UnlocksOnce(stats, [a, b], unlocked);
    TwoMembers(pass.1, a, b);
  }

  /** The new learner's case meets the conditions above. */
  lemma NewLearnerMeetsTwo()
    ensures LevelCurrent(NewStats)
    ensures Met(NewStats, Achievement("first", "lessons_completed", 0, 10))
    ensures Met(NewStats, Achievement("second", "lessons_completed", 0, 10))
  {
  }

  // ----- leaderboard -----

  function CountGreater(xps: seq<nat>, xp: nat): (n: nat)
    ensures n <= |xps|
    ensures n == 0 <==> forall i :: 0 <= i < |xps| ==> xps[i] <= xp
    ensures n == |xps| <==> forall i :: 0 <= i < |xps| ==> xps[i] > xp
  {
    if xps == [] then 0
    else
      assert forall i :: 0 < i < |xps| ==> xps[i] == xps[1..][i - 1];
      (if xps[0] > xp then 1 else 0) + CountGreater(xps[1..], xp)
  }

  /** The single-user update: one more than the number of users with
      strictly more XP, so tied users share a rank. */
  function SingleRank(xps: seq<nat>, xp: nat): (r: nat)
    ensures 1 <= r <= |xps| + 1
    ensures r == 1 <==> forall i :: 0 <= i < |xps| ==> xps[i] <= xp
    ensures r == |xps| + 1 <==> forall i :: 0 <= i < |xps| ==> xps[i] > xp
  {
    CountGreater(xps, xp) + 1
  }

  /** More XP never gives a worse (larger) rank. */
  lemma {:induction false} SingleRankMonotone(xps: seq<nat>, a: nat, b: nat)
    requires a <= b
    ensures SingleRank(xps, b) <= SingleRank(xps, a)
    decreases |xps|
  {
    if xps != [] {
      SingleRankMonotone(xps[1..], a, b);
    }
  }

  datatype Entry = Entry(userId: string, rank: nat, totalXp: nat)

  /** Some entry carries the user with this total. */
  predicate Listed(board: seq<Entry>, user: (string, nat)) {
    exists p :: 0 <= p < |board| && board[p].userId == user.0 && board[p].totalXp == user.1
  }

  /** The full rebuild: users in descending XP order numbered from 1. The
      database's order among equal totals is not specified; this model keeps
      input order. */
  function RebuildLeaderboard(users: seq<(string, nat)>): (r: seq<Entry>)
    ensures |r| == |users|
    ensures forall p :: 0 <= p < |r| ==> r[p].rank == p + 1
    ensures forall p, q :: 0 <= p < q < |r| ==> r[p].totalXp >= r[q].totalXp
    ensures forall p :: 0 <= p < |r| ==> (r[p].userId, r[p].totalXp) in users
    ensures forall i :: 0 <= i < |users| ==> Listed(r, users[i])
  {
    var keys := XpKeys(users);
    var order := SortIndicesDesc(keys);
    PermutationFacts(order, |users|);
    var r := Ranked(users, order);
    RankedListsAll(users, order, r);
    r
  }

  function XpKeys(users: seq<(string, nat)>): (keys: seq<real>)
    ensures |keys| == |users| && forall i :: 0 <= i < |users| ==> keys[i] == users[i].1 as real
  {
    seq(|users|, i requires 0 <= i < |users| => users[i].1 as real)
  }

  function Ranked(users: seq<(string, nat)>, order: seq<nat>): (r: seq<Entry>)
    requires forall p :: 0 <= p < |order| ==> order[p] < |users|
    ensures |r| == |order|
    ensures forall p :: 0 <= p < |order| ==> r[p] == Entry(users[order[p]].0, p + 1, users[order[p]].1)
  {
    seq(|order|, p requires 0 <= p < |order| => Entry(users[order[p]].0, p + 1, users[order[p]].1))
  }

  lemma RankedListsAll(users: seq<(string, nat)>, order: seq<nat>, r: seq<Entry>)
    requires forall p :: 0 <= p < |order| ==> order[p] < |users|
    requires forall i :: 0 <= i < |users| ==> i in order
    requires r == Ranked(users, order)
    ensures forall i :: 0 <= i < |users| ==> Listed(r, users[i])
  {
    forall i | 0 <= i < |users| ensures Listed(r, users[i]) {
      assert i in order;
      var p :| 0 <= p < |order| && order[p] == i;
      assert r[p] == Entry(users[i].0, p + 1, users[i].1);
    }
  }

  function XpsOf(board: seq<Entry>): (r: seq<nat>)
    ensures |r| == |board| && forall p :: 0 <= p < |board| ==> r[p] == board[p].totalXp
  {
    seq(|board|, p requires 0 <= p < |board| => board[p].totalXp)
  }

  /** On a rebuilt board every rank is at least the single-user rank over
      the same totals: everyone with more XP is listed earlier. */
  lemma RebuildRankAtLeastSingleRank(users: seq<(string, nat)>, p: nat)
    requires p < |users|
    ensures var board := RebuildLeaderboard(users);
            board[p].rank >= SingleRank(XpsOf(board), board[p].totalXp)
  {
    var board := RebuildLeaderboard(users);
    var xps := XpsOf(board);
    GreaterOnlyBefore(xps, p);
  }

  /** In a non-increasing list, at most `p` entries exceed the `p`-th. */
  lemma GreaterOnlyBefore(xps: seq<nat>, p: nat)
    requires p < |xps|
    requires forall a, b :: 0 <= a < b < |xps| ==> xps[a] >= xps[b]
    ensures CountGreater(xps, xps[p]) <= p
  {
    var x, front, back := xps[p], xps[..p], xps[p..];
    assert CountGreater(back, x) == 0 by {
      forall i | 0 <= i < |back| ensures back[i] <= x {
        assert back[i] == xps[p + i];
      }
    }
    assert CountGreater(xps, x) == CountGreater(front, x) + CountGreater(back, x) by {
      SplitAt(xps, p);
      CountGreaterSplit(front, back, x);
    }
    assert CountGreater(front, x) <= |front| == p;
  }

  lemma SplitAt(xps: seq<nat>, p: nat)
    requires p <= |xps|
    ensures xps[..p] + xps[p..] == xps
  {
  }

  lemma {:induction false} CountGreaterSplit(a: seq<nat>, b: seq<nat>, x: nat)
    ensures CountGreater(a + b, x) == CountGreater(a, x) + CountGreater(b, x)
    decreases |a|
  {
    if a == [] {
      assert a + b == b;
    } else {
      assert (a + b)[1..] == a[1..] + b;
      CountGreaterSplit(a[1..], b, x);
    }
  }
}

=== FILE: greedy_path.dfy ===
/** The greedy learning-path generator (services/ai_recommendations.py,
    `LearningPathGenerator`): repeatedly pick the eligible course that
    teaches the most missing skills, preferring short courses, until the
    goal's skills are covered, nothing helps, or twenty courses are chosen. */
module GreedyPath {
  import opened Wrappers
  import opened Arith
  import opened CourseScoring

  /** The most courses a path may hold. */
  const MaxIterations: nat := 20

  /** One course of the path: which course, the missing skills it was chosen
      for, and its 1-based position. */
  datatype PathStep = PathStep(course: nat, skillsToLearn: set<string>, sequence: nat)

  datatype Timeline = Timeline(totalHours: int, estimatedWeeks: int, studyHoursPerWeek: int)

  datatype LearningPath = LearningPath(
    skillsToLearn: set<string>,
    steps: seq<PathStep>,
    timeline: Timeline,
    completionPercentage: int)

  datatype PathError = UserNotFound | NoActiveGoal

  /** How attractive a course is: one and a half points per missing skill it
      teaches, plus twice its inverse duration when it has one. */
  function Gain(c: Course, gaps: set<string>): real {
    1.5 * |c.skills * gaps| as real
    + (if c.durationHours != 0 then 2.0 / c.durationHours as real else 0.0)
  }

  /** A course may be chosen when it is not on the path yet and its
      prerequisites are all learned. */
  predicate Candidate(courses: seq<Course>, i: nat, chosen: set<nat>, learned: set<string>)
    requires i < |courses|
  {
    i !in chosen && courses[i].prereqs <= learned
  }

  /** No candidate has a positive gain. */
  predicate Stuck(courses: seq<Course>, chosen: set<nat>, learned: set<string>, gaps: set<string>) {
    forall j :: 0 <= j < |courses| && Candidate(courses, j, chosen, learned) ==> Gain(courses[j], gaps) <= 0.0
  }

  /** Course `i` is the greedy choice: a candidate with positive gain that
      no candidate beats, and that every earlier candidate falls short of,
      so the first course of greatest gain wins a tie. */
  predicate GreedyPick(courses: seq<Course>, chosen: set<nat>, learned: set<string>, gaps: set<string>, i: nat) {
    && i < |courses|
    && Candidate(courses, i, chosen, learned)
    && Gain(courses[i], gaps) > 0.0
    && (forall j :: 0 <= j < |courses| && Candidate(courses, j, chosen, learned) ==>
          Gain(courses[j], gaps) <= Gain(courses[i], gaps))
    && (forall j :: 0 <= j < i && Candidate(courses, j, chosen, learned) ==>
          Gain(courses[j], gaps) < Gain(courses[i], gaps))
  }

  /** One scan over the catalogue: the first candidate of greatest gain,
      provided that gain is positive. */
  method PickBest(courses: seq<Course>, chosen: set<nat>, learned: set<string>, gaps: set<string>)
    returns (best: Option<nat>)
    ensures best.Some? ==> GreedyPick(courses, chosen, learned, gaps, best.value)
    ensures best.None? <==> Stuck(courses, chosen, learned, gaps)
  {
    best := None;
    var bestScore := 0.0;
    var i := 0;
    while i < |courses|
      invariant 0 <= i <= |courses|
      invariant best.Some? ==> best.value < i && Candidate(courses, best.value, chosen, learned)
      invariant best.Some? ==> bestScore == Gain(courses[best.value], gaps) > 0.0
      invariant best.None? ==> bestScore == 0.0
      invariant forall j :: 0 <= j < i && Candidate(courses, j, chosen, learned) ==> Gain(courses[j], gaps) <= bestScore
      invariant best.Some? ==> forall j :: 0 <= j < best.value && Candidate(courses, j, chosen, learned) ==>
                  Gain(courses[j], gaps) < bestScore
    {
      if Candidate(courses, i, chosen, learned) {
        var score := Gain(courses[i], gaps);
        if score > bestScore {
          best := Some(i);
          bestScore := score;
        }
      }
      i := i + 1;
    }
  }

  /** The courses already on the path. */
  function Chosen(steps: seq<PathStep>): (r: set<nat>)
    ensures forall k :: 0 <= k < |steps| ==> steps[k].course in r
    ensures forall x :: x in r ==> exists k :: 0 <= k < |steps| && steps[k].course == x
  {
    if steps == [] then {} else Chosen(steps[..|steps| - 1]) + {steps[|steps| - 1].course}
  }

  /** What the learner knows after following `steps`: the starting skills
      plus everything the chosen courses teach. */
  function LearnedAfter(courses: seq<Course>, start: set<string>, steps: seq<PathStep>): (r: set<string>)
    requires forall k :: 0 <= k < |steps| ==> steps[k].course < |courses|
    ensures start <= r
  {
    if steps == [] then start
    else LearnedAfter(courses, start, steps[..|steps| - 1]) + courses[steps[|steps| - 1].course].skills
  }

  /** Each step names a course of the catalogue and the steps are numbered
      from 1. */
  predicate StepsNumbered(courses: seq<Course>, steps: seq<PathStep>) {
    forall k :: 0 <= k < |steps| ==> steps[k].course < |courses| && steps[k].sequence == k + 1
  }

  /** No course occurs twice. */
  predicate StepsDistinct(steps: seq<PathStep>) {
    forall a, b :: 0 <= a < b < |steps| ==> steps[a].course != steps[b].course
  }

  /** Each course's prerequisites were learned before it, and it was chosen
      for the goal skills it teaches that were still missing. */
  predicate StepsJustified(courses: seq<Course>, current: set<string>, targets: set<string>, steps: seq<PathStep>)
    requires StepsNumbered(courses, steps)
  {
    forall k :: 0 <= k < |steps| ==>
      var before := LearnedAfter(courses, current, steps[..k]);
      courses[steps[k].course].prereqs <= before
      && steps[k].skillsToLearn == courses[steps[k].course].skills * (targets - before)
  }

  /** Course `c` is the greedy choice after the steps `prefix`. */
  predicate GreedyAfter(courses: seq<Course>, current: set<string>, targets: set<string>, prefix: seq<PathStep>, c: nat)
    requires forall k :: 0 <= k < |prefix| ==> prefix[k].course < |courses|
  {
    var learned := LearnedAfter(courses, current, prefix);
    GreedyPick(courses, Chosen(prefix), learned, targets - learned, c)
  }

  /** Every step is the greedy choice given the steps before it. */
  predicate StepsGreedy(courses: seq<Course>, current: set<string>, targets: set<string>, steps: seq<PathStep>) {
    StepsNumbered(courses, steps)
    && forall k :: 0 <= k < |steps| ==> GreedyAfter(courses, current, targets, steps[..k], steps[k].course)
  }

  /** Appending the greedy choice for the path so far keeps every step
      greedy. */
  lemma ExtendGreedy(courses: seq<Course>, current: set<string>, targets: set<string>, steps: seq<PathStep>, next: seq<PathStep>)
    requires StepsGreedy(courses, current, targets, steps)
    requires StepsNumbered(courses, next) && |next| == |steps| + 1 && next[..|steps|] == steps
    requires GreedyAfter(courses, current, targets, steps, next[|steps|].course)
    ensures StepsGreedy(courses, current, targets, next)
  {
    forall k | 0 <= k < |next|
      ensures GreedyAfter(courses, current, targets, next[..k], next[k].course)
    {
      if k < |steps| {
        GreedyKept(courses, current, targets, steps, next, k);
      } else {
        assert next[..k] == steps;
      }
    }
  }

  /** An earlier step is judged against the same prefix once the path
      grows. */
  lemma GreedyKept(courses: seq<Course>, current: set<string>, targets: set<string>, steps: seq<PathStep>, next: seq<PathStep>, k: nat)
    requires StepsNumbered(courses, next) && k < |steps| < |next| && next[..|steps|] == steps
    requires GreedyAfter(courses, current, targets, steps[..k], steps[k].course)
    ensures GreedyAfter(courses, current, targets, next[..k], next[k].course)
  {
    assert next[..k] == steps[..k];
    assert next[k] == steps[k];
  }

  /** What every path the generator builds satisfies. */
  predicate WellFormedPath(courses: seq<Course>, current: set<string>, targets: set<string>, steps: seq<PathStep>) {
    StepsNumbered(courses, steps) && StepsDistinct(steps) && StepsJustified(courses, current, targets, steps)
  }

  /** Appending a candidate chosen for the current gaps keeps a path well
      formed and adds the course's skills to what is learned. */
  lemma ExtendPath(courses: seq<Course>, current: set<string>, targets: set<string>, steps: seq<PathStep>, i: nat)
    requires WellFormedPath(courses, current, targets, steps)
    requires i < |courses| && Candidate(courses, i, Chosen(steps), LearnedAfter(courses, current, steps))
    ensures var learned := LearnedAfter(courses, current, steps);
            var next := steps + [PathStep(i, courses[i].skills * (targets - learned), |steps| + 1)];
            WellFormedPath(courses, current, targets, next)
            && LearnedAfter(courses, current, next) == learned + courses[i].skills
  {
    var learned := LearnedAfter(courses, current, steps);
    var next := steps + [PathStep(i, courses[i].skills * (targets - learned), |steps| + 1)];
    assert next[..|steps|] == steps;
    assert StepsNumbered(courses, next);
    ExtendDistinct(steps, i);
    ExtendJustified(courses, current, targets, steps, next);
  }

  /** The loop's step: appending the greedy choice keeps the path well
      formed and greedy. */
  lemma ExtendGreedyPath(courses: seq<Course>, current: set<string>, targets: set<string>, steps: seq<PathStep>, i: nat)
    requires WellFormedPath(courses, current, targets, steps) && StepsGreedy(courses, current, targets, steps)
    requires GreedyAfter(courses, current, targets, steps, i)
    ensures var learned := LearnedAfter(courses, current, steps);
            var next := steps + [PathStep(i, courses[i].skills * (targets - learned), |steps| + 1)];
            WellFormedPath(courses, current, targets, next)
            && StepsGreedy(courses, current, targets, next)
            && LearnedAfter(courses, current, next) == learned + courses[i].skills
  {
    ExtendPath(courses, current, targets, steps, i);
    var learned := LearnedAfter(courses, current, steps);
    var next := steps + [PathStep(i, courses[i].skills * (targets - learned), |steps| + 1)];
    assert next[..|steps|] == steps;
    ExtendGreedy(courses, current, targets, steps, next);
  }

  lemma ExtendDistinct(steps: seq<PathStep>, i: nat)
    requires StepsDistinct(steps) && i !in Chosen(steps)
    ensures forall s: set<string>, q: nat :: StepsDistinct(steps + [PathStep(i, s, q)])
  {
    forall s: set<string>, q: nat ensures StepsDistinct(steps + [PathStep(i, s, q)]) {
      var next := steps + [PathStep(i, s, q)];
      forall a, b | 0 <= a < b < |next|
        ensures next[a].course != next[b].course
      {
        if b == |steps| {
          assert steps[a].course in Chosen(steps);
        }
      }
    }
  }

  lemma ExtendJustified(courses: seq<Course>, current: set<string>, targets: set<string>, steps: seq<PathStep>, next: seq<PathStep>)
    requires StepsNumbered(courses, steps) && StepsJustified(courses, current, targets, steps)
    requires StepsNumbered(courses, next) && |next| == |steps| + 1 && next[..|steps|] == steps
    requires var before := LearnedAfter(courses, current, steps);
             courses[next[|steps|].course].prereqs <= before
             && next[|steps|].skillsToLearn == courses[next[|steps|].course].skills * (targets - before)
    ensures StepsJustified(courses, current, targets, next)
  {
    forall k | 0 <= k < |next|
      ensures var before := LearnedAfter(courses, current, next[..k]);
              courses[next[k].course].prereqs <= before
              && next[k].skillsToLearn == courses[next[k].course].skills * (targets - before)
    {
      if k < |steps| {
        assert next[..k] == steps[..k];
        assert next[k] == steps[k];
      }
    }
  }

  /** The greedy loop. The path it returns is well formed and holds at most
      twenty courses, and the loop ends with the goal covered, twenty
      courses, or no candidate left that helps. */
  method BuildPath(courses: seq<Course>, current: set<string>, targets: set<string>)
    returns (steps: seq<PathStep>, learned: set<string>)
    ensures |steps| <= MaxIterations
    ensures WellFormedPath(courses, current, targets, steps)
    ensures StepsGreedy(courses, current, targets, steps)
    ensures learned == LearnedAfter(courses, current, steps)
    ensures targets <= learned || |steps| == MaxIterations || Stuck(courses, Chosen(steps), learned, targets - learned)
  {
    steps := [];
    learned := current;
    var gaps := targets - learned;
    var iteration := 0;
    while gaps != {} && iteration < MaxIterations
      invariant iteration == |steps| <= MaxIterations
      invariant WellFormedPath(courses, current, targets, steps)
      invariant StepsGreedy(courses, current, targets, steps)
      invariant learned == LearnedAfter(courses, current, steps)
      invariant gaps == targets - learned
    {
      iteration := iteration + 1;
      var best := PickBest(courses, Chosen(steps), learned, gaps);
      if best.None? {
        return;
      }
      var c := courses[best.value];
      assert GreedyAfter(courses, current, targets, steps, best.value);
      ExtendGreedyPath(courses, current, targets, steps, best.value);
      steps := steps + [PathStep(best.value, c.skills * gaps, |steps| + 1)];
      learned := learned + c.skills;
      gaps := targets - learned;
    }
    assert targets <= learned || |steps| == MaxIterations by {
      if iteration < MaxIterations {
        forall x | x in targets ensures x in learned {
          assert x !in gaps;
        }
      }
    }
  }

  /** Python's `math.ceil(a / b)` for a positive divisor. */
  function CeilDiv(a: int, b: int): (r: int)
    requires b > 0
    ensures (r - 1) * b < a <= r * b
  {
    -((-a) / b)
  }

  /** The total hours of the chosen courses (a missing duration counts as
      zero) and the weeks they take at the learner's weekly study hours,
      five when the profile does not say. */
  function PathTimeline(courses: seq<Course>, steps: seq<PathStep>, studyHours: int): (t: Timeline)
    requires forall k :: 0 <= k < |steps| ==> steps[k].course < |courses|
    ensures t.studyHoursPerWeek == if studyHours == 0 then 5 else studyHours
    ensures t.studyHoursPerWeek > 0 ==>
              (t.estimatedWeeks - 1) * t.studyHoursPerWeek < t.totalHours <= t.estimatedWeeks * t.studyHoursPerWeek
    ensures t.studyHoursPerWeek <= 0 ==> t.estimatedWeeks == 0
  {
    var total := TotalHours(courses, steps);
    var perWeek := if studyHours == 0 then 5 else studyHours;
    Timeline(total, if perWeek > 0 then CeilDiv(total, perWeek) else 0, perWeek)
  }

  function TotalHours(courses: seq<Course>, steps: seq<PathStep>): (r: int)
    requires forall k :: 0 <= k < |steps| ==> steps[k].course < |courses|
    ensures (forall k :: 0 <= k < |steps| ==> courses[steps[k].course].durationHours >= 0) ==> r >= 0
  {
    if steps == [] then 0
    else courses[steps[0].course].durationHours + TotalHours(courses, steps[1..])
  }

  /** `int(part / whole * 100)` for a non-empty whole: the percentage rounded
      down. */
  function Percent(part: nat, whole: nat): (r: nat)
    requires part <= whole && whole > 0
    ensures r <= 100
    ensures r * whole <= 100 * part < (r + 1) * whole
    ensures r == 100 <==> part == whole
  {
    FloorPercent(part, whole);
    100 * part / whole
  }

  lemma FloorPercent(part: nat, whole: nat)
    requires part <= whole && whole > 0
    ensures var r := 100 * part / whole;
            && r <= 100
            && r * whole <= 100 * part < (r + 1) * whole
            && (r == 100 <==> part == whole)
  {
    var n := 100 * part;
    var r, m := n / whole, n % whole;
    assert n == r * whole + m && 0 <= m < whole;
    assert (r + 1) * whole == r * whole + whole;
    ScaleOrder(r, 100, whole);
    ScaleOrder(100, r, whole);
    ScaleOrder(r + 1, 100, whole);
  }

  /** The share of the goal's skills the learner knows at the end of the
      path, or 0 for a goal without skills. */
  function Completion(learned: set<string>, targets: set<string>): (r: nat)
    ensures r <= 100
    ensures targets != {} ==> (r == 100 <==> targets <= learned)
    ensures targets == {} ==> r == 0
  {
    if targets == {} then 0
    else
      MetFacts(targets, learned);
      Percent(|targets * learned|, |targets|)
  }

  /** The whole endpoint: the learner must have a profile and an active
      goal; the path then starts from the skills the profile rates. */
  method GenerateLearningPath(
    courses: seq<Course>, profileSkills: Option<set<string>>, studyHours: int, goal: Option<Goal>)
    returns (r: Result<LearningPath, PathError>)
    ensures profileSkills.None? ==> r == Err(UserNotFound)
    ensures profileSkills.Some? && goal.None? ==> r == Err(NoActiveGoal)
    ensures r.Ok? <==> profileSkills.Some? && goal.Some?
    ensures r.Ok? ==> r.value.skillsToLearn == goal.value.targetSkills - profileSkills.value
    ensures r.Ok? ==> |r.value.steps| <= MaxIterations
    ensures r.Ok? ==> WellFormedPath(courses, profileSkills.value, goal.value.targetSkills, r.value.steps)
    ensures r.Ok? ==> StepsGreedy(courses, profileSkills.value, goal.value.targetSkills, r.value.steps)
    ensures r.Ok? ==>
              var learned := LearnedAfter(courses, profileSkills.value, r.value.steps);
              && r.value.completionPercentage == Completion(learned, goal.value.targetSkills)
              && r.value.timeline == PathTimeline(courses, r.value.steps, studyHours)
              && (goal.value.targetSkills <= learned || |r.value.steps| == MaxIterations
                  || Stuck(courses, Chosen(r.value.steps), learned, goal.value.targetSkills - learned))
  {
    if profileSkills.None? {
      return Err(UserNotFound);
    }
    if goal.None? {
      return Err(NoActiveGoal);
    }
    var current := profileSkills.value;
    var targets := goal.value.targetSkills;
    var steps, learned := BuildPath(courses, current, targets);
    r := Ok(LearningPath(
      targets - current,
      steps,
      PathTimeline(courses, steps, studyHours),
      Completion(learned, targets)));
  }
}

=== FILE: instructor_analytics.dfy ===
/** The arithmetic of the instructor dashboard: draft courses, per-course
    completion rate and the progress histogram of one course. The counts
    the handlers query are taken here from snapshots of the rows. */
module InstructorAnalytics {
  import opened Wrappers
  import opened Arith

  /** The number of `true` entries. */
  function CountTrue(flags: seq<bool>): (n: nat)
    ensures n <= |flags|
    ensures n == 0 <==> forall i :: 0 <= i < |flags| ==> !flags[i]
    ensures n == |flags| <==> forall i :: 0 <= i < |flags| ==> flags[i]
    decreases |flags|
  {
    if flags == [] then 0
    else
      var k := |flags| - 1;
      assert forall i :: 0 <= i < k ==> flags[..k][i] == flags[i];
      CountTrue(flags[..k]) + (if flags[k] then 1 else 0)
  }

  function Negate(flags: seq<bool>): (r: seq<bool>)
    ensures |r| == |flags| && forall i :: 0 <= i < |flags| ==> r[i] == !flags[i]
  {
    seq(|flags|, i requires 0 <= i < |flags| => !flags[i])
  }

  /** `draft_courses = total_courses - published_courses`. */
  function DraftCourses(total: int, published: int): (d: int)
    ensures d + published == total
  {
    total - published
  }

  /** Counting an instructor's courses by their `is_published` flag, the
      draft figure is exactly the number of unpublished courses. */
  lemma {:induction false} DraftsAreUnpublished(published: seq<bool>)
    ensures DraftCourses(|published|, CountTrue(published)) == CountTrue(Negate(published))
    decreases |published|
  {
    if published != [] {
      var k := |published| - 1;
      var init := published[..k];
      DraftsAreUnpublished(init);
      CountTrueSnoc(published);
      CountTrueSnoc(Negate(published));
      NegateSnoc(published);
    }
  }

  lemma CountTrueSnoc(flags: seq<bool>)
    requires flags != []
    ensures var k := |flags| - 1;
            CountTrue(flags) == CountTrue(flags[..k]) + (if flags[k] then 1 else 0)
  {
  }

  lemma NegateSnoc(flags: seq<bool>)
    requires flags != []
    ensures var k := |flags| - 1;
            Negate(flags)[..k] == Negate(flags[..k]) && Negate(flags)[k] == !flags[k]
  {
    var k := |flags| - 1;
    assert Negate(flags)[..k] == Negate(flags[..k]);
  }

  /** `part / whole * 100` for a share of a non-empty whole. */
  function Percent(part: nat, whole: nat): (r: real)
    requires 0 < part <= whole
    ensures r * whole as real == part as real * 100.0
    ensures 0.0 < r <= 100.0
    ensures r == 100.0 <==> part == whole
  {
    var c := part as real;
    var t := whole as real;
    var q := c / t;
    assert q * t == c;
    ScaleBounds(q, t);
    assert q == 1.0 ==> c == t;
    q * 100.0
  }

  /** A course's completion rate in percent: 0 without enrollments, else
      the completed share times 100. `completed` holds, per enrollment,
      whether it is completed (`status == "completed"`; the enrollment row
      has no `completed` column). */
  function CompletionRate(completed: seq<bool>): (r: real)
    ensures 0.0 <= r <= 100.0
    ensures completed == [] ==> r == 0.0
    ensures completed != [] ==>
              r * |completed| as real == CountTrue(completed) as real * 100.0
    ensures r == 100.0 <==> completed != [] && forall i :: 0 <= i < |completed| ==> completed[i]
    ensures r == 0.0 <==> forall i :: 0 <= i < |completed| ==> !completed[i]
  {
    if |completed| > 0 && CountTrue(completed) > 0 then Percent(CountTrue(completed), |completed|)
    else 0.0
  }

  /** The completion rate as written: the count query filters on
      `Enrollment.completed`, which the enrollment model does not declare,
      so building it raises `AttributeError` whenever the course has an
      enrollment. The `Err` payload names the missing attribute. */
  function CompletionRateAsWritten(completed: seq<bool>): (r: Result<real, string>)
    ensures r.Err? <==> completed != []
    ensures r.Ok? ==> r.value == 0.0
  {
    if completed != [] then Err("completed") else Ok(0.0)
  }

  /** Any enrolled course makes the code as written fail, even one whose
      every enrollment is completed. */
  lemma CompletionRateFailsWithEnrollments()
    ensures CompletionRateAsWritten([true]).Err?
    ensures CompletionRate([true]) == 100.0
  {
  }

  /** Wherever the code as written returns, it returns the corrected rate. */
  lemma CompletionRateAgrees(completed: seq<bool>)
    ensures CompletionRateAsWritten(completed).Ok? ==> CompletionRateAsWritten(completed).value == CompletionRate(completed)
  {
  }

  /** The four histogram bars, in the handler's key order
      "0-25", "25-50", "50-75", "75-100". */
  datatype Distribution = Distribution(low: nat, lowMid: nat, highMid: nat, high: nat) {
    function Total(): nat { low + lowMid + highMid + high }
  }

  /** The bar a progress value belongs to, 0 to 3; -1 outside [0, 100]. */
  function Bar(p: real): (b: int)
    ensures -1 <= b <= 3
    ensures b == -1 <==> p < 0.0 || p > 100.0
    ensures b == 3 <==> 75.0 <= p <= 100.0
  {
    if 0.0 <= p < 25.0 then 0
    else if 25.0 <= p < 50.0 then 1
    else if 50.0 <= p < 75.0 then 2
    else if 75.0 <= p <= 100.0 then 3
    else -1
  }

  /** `len([p for p in values if lo <= p < hi])`, or `<= hi` when `closed`. */
  function CountIn(values: seq<real>, lo: real, hi: real, closed: bool): (n: nat)
    ensures n <= |values|
    decreases |values|
  {
    if values == [] then 0
    else
      var k := |values| - 1;
      var p := values[k];
      CountIn(values[..k], lo, hi, closed)
        + (if lo <= p && (p < hi || (closed && p == hi)) then 1 else 0)
  }

  /** The `progress_distribution` dictionary. */
  function Histogram(values: seq<real>): Distribution {
    Distribution(
      CountIn(values, 0.0, 25.0, false),
      CountIn(values, 25.0, 50.0, false),
      CountIn(values, 50.0, 75.0, false),
      CountIn(values, 75.0, 100.0, true))
  }

  function Bump(d: Distribution, b: int): (r: Distribution)
    ensures r.Total() == d.Total() + (if 0 <= b <= 3 then 1 else 0)
  {
    if b == 0 then d.(low := d.low + 1)
    else if b == 1 then d.(lowMid := d.lowMid + 1)
    else if b == 2 then d.(highMid := d.highMid + 1)
    else if b == 3 then d.(high := d.high + 1)
    else d
  }

  /** One more value lands in exactly one bar, the one `Bar` names, and a
      value outside [0, 100] lands in none: the bars are disjoint and 100
      is counted in the last. */
  lemma HistogramSnoc(values: seq<real>, p: real)
    ensures Histogram(values + [p]) == Bump(Histogram(values), Bar(p))
  {
    var h, h' := Histogram(values), Histogram(values + [p]);
    CountInSnoc(values, p, 0.0, 25.0, false);
    CountInSnoc(values, p, 25.0, 50.0, false);
    CountInSnoc(values, p, 50.0, 75.0, false);
    CountInSnoc(values, p, 75.0, 100.0, true);
    if 0.0 <= p < 25.0 {
      assert h' == h.(low := h.low + 1);
    } else if 25.0 <= p < 50.0 {
      assert h' == h.(lowMid := h.lowMid + 1);
    } else if 50.0 <= p < 75.0 {
      assert h' == h.(highMid := h.highMid + 1);
    } else if 75.0 <= p <= 100.0 {
      assert h' == h.(high := h.high + 1);
    } else {
      assert h' == h;
    }
  }

  /** One more value adds one to a bar's count exactly when it falls in
      the bar. */
  lemma CountInSnoc(values: seq<real>, p: real, lo: real, hi: real, closed: bool)
    ensures CountIn(values + [p], lo, hi, closed)
            == CountIn(values, lo, hi, closed) + (if lo <= p && (p < hi || (closed && p == hi)) then 1 else 0)
  {
    assert (values + [p])[..|values|] == values;
  }

  /** The number of values within [0, 100]. */
  function InRange(values: seq<real>): (n: nat)
    ensures n <= |values|
    decreases |values|
  {
    if values == [] then 0
    else
      var k := |values| - 1;
      InRange(values[..k]) + (if 0.0 <= values[k] <= 100.0 then 1 else 0)
  }

  /** The bars add up to the number of in-range values, so they cover all
      of [0, 100] and count nothing twice. */
  lemma {:induction false} HistogramCoversRange(values: seq<real>)
    ensures Histogram(values).Total() == InRange(values)
    decreases |values|
  {
    if values != [] {
      var k := |values| - 1;
      var init, p := values[..k], values[k];
      assert values == init + [p];
      calc {
        Histogram(values).Total();
        { HistogramSnoc(init, p); }
        Bump(Histogram(init), Bar(p)).Total();
        { BumpTotal(Histogram(init), Bar(p)); }
        Histogram(init).Total() + (if 0 <= Bar(p) <= 3 then 1 else 0);
        { HistogramCoversRange(init); }
        InRange(init) + (if 0.0 <= p <= 100.0 then 1 else 0);
      }
    }
  }

  lemma BumpTotal(d: Distribution, b: int)
    ensures Bump(d, b).Total() == d.Total() + (if 0 <= b <= 3 then 1 else 0)
  {
  }

  function Sum(values: seq<real>): real
    decreases |values|
  {
    if values == [] then 0.0 else Sum(values[..|values| - 1]) + values[|values| - 1]
  }

  lemma {:induction false} SumBetween(values: seq<real>, lo: real, hi: real)
    requires forall i :: 0 <= i < |values| ==> lo <= values[i] <= hi
    ensures lo * |values| as real <= Sum(values) <= hi * |values| as real
    decreases |values|
  {
    if values != [] {
      var k := |values| - 1;
      var init, last := values[..k], values[k];
      forall i | 0 <= i < k ensures lo <= init[i] <= hi {
        assert init[i] == values[i];
      }
      SumBetween(init, lo, hi);
      assert Sum(values) == Sum(init) + last;
      assert k as real + 1.0 == |values| as real;
      assert lo * |values| as real == lo * k as real + lo;
      assert hi * |values| as real == hi * k as real + hi;
    }
  }

  /** `total_enrollments` and `average_progress` of the course report. */
  datatype Summary = Summary(totalEnrollments: nat, averageProgress: real)

  /** The mean of the progress values, 0 when there are none; it stays
      within whatever bounds every value keeps. */
  function Summarize(values: seq<real>): (s: Summary)
    ensures s.totalEnrollments == |values|
    ensures values == [] ==> s.averageProgress == 0.0
    ensures values != [] ==> s.averageProgress * |values| as real == Sum(values)
  {
    if values == [] then Summary(0, 0.0)
    else Summary(|values|, Sum(values) / |values| as real)
  }

  /** Progress percentages average to a percentage. */
  lemma AverageBetween(values: seq<real>, lo: real, hi: real)
    requires values != []
    requires forall i :: 0 <= i < |values| ==> lo <= values[i] <= hi
    ensures lo <= Summarize(values).averageProgress <= hi
  {
    var n := |values| as real;
    assert lo * n <= Sum(values) <= hi * n by { SumBetween(values, lo, hi); }
    assert Summarize(values).averageProgress == Sum(values) / n;
    MeanBounds(Sum(values), n, lo, hi);
  }
}

=== FILE: learning_analytics.dfy ===
/** Learning analytics (services/learning_analytics.py): the activity streak,
    the score trend, completion rate, struggling topics, weekly
    path-adjustment rules, learning pace and engagement peaks. Database
    aggregates arrive as parameters. */
module LearningAnalytics {
  import opened Wrappers
  import opened SkillLevels
  import opened Sorting
  import SkillAssessment

  // ----- streak -----

  /** The day the `i`-th activity date must match (or precede by one) to
      continue the streak: today for the first, the day before the previous
      accepted date afterwards. */
  function ExpectedAt(today: int, dates: seq<int>, i: nat): int
    requires i <= |dates|
  {
    if i == 0 then today else dates[i - 1] - 1
  }

  predicate Accepted(today: int, dates: seq<int>, i: nat)
    requires i < |dates|
  {
    dates[i] == ExpectedAt(today, dates, i) || dates[i] == ExpectedAt(today, dates, i) - 1
  }

  /** `_calculate_streak`: days are numbered, `dates` are the distinct
      activity days, most recent first. The streak is the longest prefix of
      accepted dates, so one missed day in between is tolerated. */
  method CalculateStreak(today: int, dates: seq<int>) returns (streak: nat)
    ensures streak <= |dates|
    ensures dates == [] ==> streak == 0
    ensures forall i :: 0 <= i < streak ==> Accepted(today, dates, i)
    ensures streak < |dates| ==> !Accepted(today, dates, streak)
  {
    if dates == [] {
      return 0;
    }
    streak := 0;
    var expected := today;
    while streak < |dates| && (dates[streak] == expected || dates[streak] == expected - 1)
      invariant streak <= |dates|
      invariant expected == ExpectedAt(today, dates, streak)
      invariant forall i :: 0 <= i < streak ==> Accepted(today, dates, i)
    {
      expected := dates[streak] - 1;
      streak := streak + 1;
    }
  }

  /** The streak's contract pins down a single value. */
  lemma StreakDetermined(today: int, dates: seq<int>, a: nat, b: nat)
    requires a <= |dates| && b <= |dates|
    requires forall i :: 0 <= i < a ==> Accepted(today, dates, i)
    requires a < |dates| ==> !Accepted(today, dates, a)
    requires forall i :: 0 <= i < b ==> Accepted(today, dates, i)
    requires b < |dates| ==> !Accepted(today, dates, b)
    ensures a == b
  {
  }

  // ----- trend and rates -----

  datatype Trend = Improving | Declining | Stable | InsufficientData

  /** `_calculate_performance_trend`: a missing or zero half-average gives
      no verdict; otherwise five points either way decide. */
  function PerformanceTrend(recent: Option<real>, older: Option<real>): (t: Trend)
    ensures t == InsufficientData <==> recent.None? || older.None? || recent.value == 0.0 || older.value == 0.0
    ensures t == Improving <==> t != InsufficientData && recent.value - older.value >= 5.0
    ensures t == Declining <==> t != InsufficientData && recent.value - older.value <= -5.0
  {
    if recent.None? || older.None? || recent.value == 0.0 || older.value == 0.0 then InsufficientData
    else
      var difference := recent.value - older.value;
      if difference >= 5.0 then Improving else if difference <= -5.0 then Declining else Stable
  }

  /** Swapping the halves swaps improving and declining. */
  lemma TrendAntisymmetric(a: real, b: real)
    requires a != 0.0 && b != 0.0
    ensures PerformanceTrend(Some(a), Some(b)) == Improving <==> PerformanceTrend(Some(b), Some(a)) == Declining
    ensures PerformanceTrend(Some(a), Some(b)) == Stable <==> PerformanceTrend(Some(b), Some(a)) == Stable
  {
  }

  /** Completed over started lessons, 0 when none were started. */
  function CompletionRate(completed: nat, total: nat): (r: real)
    ensures total == 0 ==> r == 0.0
    ensures total > 0 ==> r * total as real == completed as real
    ensures completed <= total ==> 0.0 <= r <= 1.0
  {
    if total > 0 then completed as real / total as real else 0.0
  }

  // ----- struggling topics -----

  /** Per-skill lists of scores times 100, one entry per skill in
      first-seen order. */
  function Aggregate(entries: seq<(string, real)>): (r: Dict<seq<real>>)
    ensures DistinctKeys(r)
  {
    if entries == [] then []
    else
      var prev := Aggregate(entries[..|entries| - 1]);
      var e := entries[|entries| - 1];
      Put(prev, e.0, Get(prev, e.0, []) + [e.1 * 100.0])
  }

  /** Reference: the scores recorded for one skill, in order. */
  function ScoresOf(entries: seq<(string, real)>, s: string): seq<real> {
    if entries == [] then []
    else
      var e := entries[|entries| - 1];
      ScoresOf(entries[..|entries| - 1], s) + (if e.0 == s then [e.1 * 100.0] else [])
  }

  lemma {:induction false} AggregateMatches(entries: seq<(string, real)>, s: string)
    ensures Get(Aggregate(entries), s, []) == ScoresOf(entries, s)
    ensures HasKey(Aggregate(entries), s) <==> ScoresOf(entries, s) != []
    decreases |entries|
  {
    if entries != [] {
      var init := entries[..|entries| - 1];
      var e := entries[|entries| - 1];
      var prev := Aggregate(init);
      AggregateMatches(init, s);
      var v := Get(prev, e.0, []) + [e.1 * 100.0];
      if e.0 == s {
        assert Get(Put(prev, s, v), s, []) == v;
      } else {
        assert Get(Put(prev, e.0, v), s, []) == Get(prev, s, []);
      }
    }
  }

  function Sum(xs: seq<real>): real {
    if xs == [] then 0.0 else xs[0] + Sum(xs[1..])
  }

  function Mean(xs: seq<real>): real
    requires xs != []
  {
    Sum(xs) / |xs| as real
  }

  datatype Difficulty = Critical | NeedsHelp | ReviewRecommended

  /** Under 40 is critical, under 50 needs help, the rest asks for review. */
  function Bucket(avg: real): (d: Difficulty)
    ensures d == Critical <==> avg < 40.0
    ensures d == NeedsHelp <==> 40.0 <= avg < 50.0
  {
    if avg < 40.0 then Critical else if avg < 50.0 then NeedsHelp else ReviewRecommended
  }

  datatype Topic = Topic(skill: string, avgScore: real, attempts: nat, difficulty: Difficulty)

  function TopicOf(skill: string, scores: seq<real>): Topic
    requires scores != []
  {
    Topic(skill, SkillAssessment.Round1(Mean(scores)), |scores|, Bucket(Mean(scores)))
  }

  predicate NonEmptyLists(agg: Dict<seq<real>>) {
    forall i :: 0 <= i < |agg| ==> agg[i].1 != []
  }

  function Candidates(agg: Dict<seq<real>>, threshold: real): (r: seq<Topic>)
    requires NonEmptyLists(agg)
    ensures forall t :: t in r <==>
              exists i :: 0 <= i < |agg| && agg[i].1 != [] && Mean(agg[i].1) < threshold && t == TopicOf(agg[i].0, agg[i].1)
  {
    if agg == [] then []
    else
      var rest := Candidates(agg[1..], threshold);
      assert forall i :: 1 <= i < |agg| ==> agg[1..][i - 1] == agg[i];
      (if Mean(agg[0].1) < threshold then [TopicOf(agg[0].0, agg[0].1)] else []) + rest
  }

  lemma AggregateNonEmpty(entries: seq<(string, real)>)
    ensures NonEmptyLists(Aggregate(entries))
  {
    var agg := Aggregate(entries);
    forall i | 0 <= i < |agg| ensures agg[i].1 != [] {
      AggregateMatches(entries, agg[i].0);
      assert HasKey(agg, agg[i].0);
    }
  }

  function Permute(ts: seq<Topic>, order: seq<nat>): (r: seq<Topic>)
    requires forall x :: x in order ==> x < |ts|
    ensures |r| == |order|
    ensures forall k :: 0 <= k < |r| ==> order[k] in order && r[k] == ts[order[k]]
  {
    seq(|order|, k requires 0 <= k < |order| => assert order[k] in order; ts[order[k]])
  }

  /** Rearranging by positions in ascending key order sorts by the key. */
  lemma PermuteSorted(ts: seq<Topic>, keys: seq<real>, order: seq<nat>)
    requires |keys| == |ts| && forall i :: 0 <= i < |ts| ==> keys[i] == ts[i].avgScore
    requires Ordered(keys, order)
    ensures var r := Permute(ts, order);
            forall a, b :: 0 <= a < b < |r| ==> r[a].avgScore <= r[b].avgScore
  {
    var r := Permute(ts, order);
    forall a, b | 0 <= a < b < |r| ensures r[a].avgScore <= r[b].avgScore {
      assert Before(keys, order[a], order[b]);
    }
  }

  /** Rearranging by two lists of positions one after the other. */
  lemma PermuteConcat(ts: seq<Topic>, o1: seq<nat>, o2: seq<nat>)
    requires forall x :: x in o1 ==> x < |ts|
    requires forall x :: x in o2 ==> x < |ts|
    ensures Permute(ts, o1 + o2) == Permute(ts, o1) + Permute(ts, o2)
  {
    var l, r := Permute(ts, o1 + o2), Permute(ts, o1) + Permute(ts, o2);
    forall k | 0 <= k < |l| ensures l[k] == r[k] {
      if k < |o1| { assert (o1 + o2)[k] == o1[k]; } else { assert (o1 + o2)[k] == o2[k - |o1|]; }
    }
  }

  /** Taking one position out of a list of positions takes its topic out
      of the rearrangement. */
  lemma PermuteWithout(ts: seq<Topic>, front: seq<nat>, x: nat, back: seq<nat>)
    requires x < |ts|
    requires forall y :: y in front ==> y < |ts|
    requires forall y :: y in back ==> y < |ts|
    ensures multiset(Permute(ts, front + [x] + back)) == multiset(Permute(ts, front + back)) + multiset{ts[x]}
  {
    PermuteConcat(ts, front + [x], back);
    PermuteConcat(ts, front, [x]);
    PermuteConcat(ts, front, back);
  }

  /** Two lists holding the same positions still do so without one copy
      of the first one's head. */
  lemma WithoutHead(o1: seq<nat>, o2: seq<nat>, k: nat)
    requires o1 != [] && multiset(o1) == multiset(o2)
    requires k < |o2| && o2[k] == o1[0]
    ensures multiset(o1[1..]) == multiset(o2[..k] + o2[k + 1..])
  {
    assert o1 == [o1[0]] + o1[1..];
    assert o2 == o2[..k] + [o2[k]] + o2[k + 1..];
    assert multiset(o1[1..]) == multiset(o1) - multiset{o1[0]};
    assert multiset(o2[..k] + o2[k + 1..]) == multiset(o2) - multiset{o1[0]};
  }

  /** Rearranging by two lists of positions holding the same positions
      gives the same topics. */
  lemma {:induction false} PermuteSameMultiset(ts: seq<Topic>, o1: seq<nat>, o2: seq<nat>)
    requires forall x :: x in o1 ==> x < |ts|
    requires forall x :: x in o2 ==> x < |ts|
    requires multiset(o1) == multiset(o2)
    ensures multiset(Permute(ts, o1)) == multiset(Permute(ts, o2))
    decreases |o1|
  {
    if o1 == [] {
      assert |o2| == |multiset(o2)| == 0;
    } else {
      assert o1[0] in multiset(o2);
      var k :| 0 <= k < |o2| && o2[k] == o1[0];
      var x, front, back := o1[0], o2[..k], o2[k + 1..];
      assert o2 == front + [x] + back;
      assert o1 == [] + [x] + o1[1..];
      assert x in o1;
      assert forall y :: y in front ==> y in o2;
      assert forall y :: y in back ==> y in o2;
      assert forall y :: y in o1[1..] ==> y in o1;
      var head := multiset{ts[x]};
      assert multiset(Permute(ts, o1[1..])) == multiset(Permute(ts, front + back)) by {
        WithoutHead(o1, o2, k);
        PermuteSameMultiset(ts, o1[1..], front + back);
      }
      assert multiset(Permute(ts, o2)) == multiset(Permute(ts, front + back)) + head by {
        PermuteWithout(ts, front, x, back);
      }
      assert multiset(Permute(ts, o1)) == multiset(Permute(ts, o1[1..])) + head by {
        PermuteWithout(ts, [], x, o1[1..]);
        assert [] + o1[1..] == o1[1..];
      }
    }
  }

  /** Rearranging by a permutation of the positions keeps every topic as
      often as it occurs. */
  lemma PermuteKeepsMultiset(ts: seq<Topic>, order: seq<nat>)
    requires multiset(order) == multiset(Range(0, |ts|))
    requires forall x :: x in order ==> x < |ts|
    ensures multiset(Permute(ts, order)) == multiset(ts)
  {
    PermuteSameMultiset(ts, order, Range(0, |ts|));
    PermuteRange(ts);
  }

  lemma PermuteRange(ts: seq<Topic>)
    ensures Permute(ts, Range(0, |ts|)) == ts
  {
    var all := Range(0, |ts|);
    forall y | y in all ensures y < |ts| {
      var k :| 0 <= k < |all| && all[k] == y;
    }
    var p := Permute(ts, all);
    forall k | 0 <= k < |p| ensures p[k] == ts[k] {
      assert all[k] == k;
    }
  }

  /** `x` occurs in `ts` before an occurrence of `y`. */
  predicate Precedes(ts: seq<Topic>, x: Topic, y: Topic) {
    exists i, j :: 0 <= i < j < |ts| && ts[i] == x && ts[j] == y
  }

  /** Topics of `r` with equal averages appear in `r` in the order they
      have in `ts`. */
  predicate TiesInOrder(ts: seq<Topic>, r: seq<Topic>) {
    forall a, b :: 0 <= a < b < |r| && r[a].avgScore == r[b].avgScore ==> Precedes(ts, r[a], r[b])
  }

  /** Rearranging by positions in stable ascending key order keeps topics
      with equal keys in their original order. */
  lemma PermuteStable(ts: seq<Topic>, keys: seq<real>, order: seq<nat>)
    requires |keys| == |ts| && forall i :: 0 <= i < |ts| ==> keys[i] == ts[i].avgScore
    requires Ordered(keys, order)
    ensures TiesInOrder(ts, Permute(ts, order))
  {
    var r := Permute(ts, order);
    forall a, b | 0 <= a < b < |r| && r[a].avgScore == r[b].avgScore ensures Precedes(ts, r[a], r[b]) {
      assert Before(keys, order[a], order[b]);
      assert order[a] < order[b];
    }
  }

  /** `sorted(..., key=avg_score)`: stable ascending sort of topics by
      rounded average. */
  function SortByAverage(cands: seq<Topic>): (r: seq<Topic>)
    ensures forall a, b :: 0 <= a < b < |r| ==> r[a].avgScore <= r[b].avgScore
    ensures multiset(r) == multiset(cands)
    ensures TiesInOrder(cands, r)
  {
    var keys := seq(|cands|, i requires 0 <= i < |cands| => cands[i].avgScore);
    var order := SortIndices(keys);
    PermutationFacts(order, |keys|);
    var r := Permute(cands, order);
    PermuteKeepsMultiset(cands, order);
    PermuteSorted(cands, keys, order);
    PermuteStable(cands, keys, order);
    r
  }

  /** The struggling topics in the order their skills were first scored. */
  function Unsorted(attempts: seq<Dict<real>>, threshold: real): (r: seq<Topic>)
    ensures var agg := Aggregate(Flatten(attempts));
            forall t :: t in r <==>
              exists i :: 0 <= i < |agg| && agg[i].1 != [] && Mean(agg[i].1) < threshold && t == TopicOf(agg[i].0, agg[i].1)
  {
    AggregateNonEmpty(Flatten(attempts));
    Candidates(Aggregate(Flatten(attempts)), threshold)
  }

  /** `identify_struggling_topics`: `attempts` are the attempts' skill
      scores (a missing map is empty). The result is the struggling topics
      in ascending order of their rounded average, ties in first-seen
      order. */
  function StrugglingTopics(attempts: seq<Dict<real>>, threshold: real): (r: seq<Topic>)
    ensures forall a, b :: 0 <= a < b < |r| ==> r[a].avgScore <= r[b].avgScore
    ensures multiset(r) == multiset(Unsorted(attempts, threshold))
    ensures TiesInOrder(Unsorted(attempts, threshold), r)
    ensures var agg := Aggregate(Flatten(attempts));
            forall t :: t in r <==>
              exists i :: 0 <= i < |agg| && agg[i].1 != [] && Mean(agg[i].1) < threshold && t == TopicOf(agg[i].0, agg[i].1)
  {
    var cands := Unsorted(attempts, threshold);
    var r := SortByAverage(cands);
    forall t | t in r ensures t in cands {
      assert t in multiset(r);
    }
    forall t | t in cands ensures t in r {
      assert t in multiset(cands);
    }
    r
  }

  /** A skill is listed exactly when it was scored and its mean score is
      under the threshold, and its entry carries that mean's bucket and the
      number of its scores. */
  lemma StrugglingTopicListed(attempts: seq<Dict<real>>, threshold: real, s: string)
    ensures var scores := ScoresOf(Flatten(attempts), s);
            (exists t :: t in StrugglingTopics(attempts, threshold) && t.skill == s)
            <==> scores != [] && Mean(scores) < threshold
    ensures var scores := ScoresOf(Flatten(attempts), s);
            forall t :: t in StrugglingTopics(attempts, threshold) && t.skill == s ==>
              scores != [] && t == TopicOf(s, scores)
  {
    var entries := Flatten(attempts);
    var agg := Aggregate(entries);
    var r := StrugglingTopics(attempts, threshold);
    var scores := ScoresOf(entries, s);
    AggregateMatches(entries, s);
    forall t | t in r && t.skill == s ensures scores != [] && t == TopicOf(s, scores) {
      var i :| 0 <= i < |agg| && agg[i].1 != [] && Mean(agg[i].1) < threshold && t == TopicOf(agg[i].0, agg[i].1);
      assert agg[i].0 == s;
      assert HasKey(agg, s);
      assert Get(agg, s, []) == agg[i].1;
    }
    if scores != [] && Mean(scores) < threshold {
      var i := IndexOf(agg, s);
      assert Get(agg, s, []) == agg[i].1;
      assert TopicOf(agg[i].0, agg[i].1) in r;
    }
  }

  // ----- weekly adjustment -----

  datatype Summary = Summary(lessonsCompleted: nat, avgQuizScore: real, completionRate: real, activeDays: nat)

  datatype Adjustment = AddRevision | ReduceLoad | EngagementBoost | Accelerate

  /** `weekly_path_adjustment`: the four independent rules in order, and
      whether any of them fired. */
  function WeeklyAdjustment(p: Summary): (r: (bool, seq<Adjustment>))
    ensures r.0 <==> r.1 != []
    ensures AddRevision in r.1 <==> p.avgQuizScore < 60.0
    ensures ReduceLoad in r.1 <==> p.completionRate < 0.5
    ensures EngagementBoost in r.1 <==> p.activeDays < 3
    ensures Accelerate in r.1 <==> p.avgQuizScore > 85.0 && p.completionRate > 0.8 && p.lessonsCompleted > 5
    ensures |r.1| <= 4
  {
    var recs := (if p.avgQuizScore < 60.0 then [AddRevision] else [])
              + (if p.completionRate < 0.5 then [ReduceLoad] else [])
              + (if p.activeDays < 3 then [EngagementBoost] else [])
              + (if p.avgQuizScore > 85.0 && p.completionRate > 0.8 && p.lessonsCompleted > 5 then [Accelerate] else []);
    (recs != [], recs)
  }

  /** Acceleration never comes together with revision or load reduction. */
  lemma AccelerateExcludesRemedies(p: Summary)
    ensures Accelerate in WeeklyAdjustment(p).1 ==>
              AddRevision !in WeeklyAdjustment(p).1 && ReduceLoad !in WeeklyAdjustment(p).1
  {
  }

  // ----- pace -----

  /** The learner profile's weekly study hours: no profile, a profile with
      the value unset, or a set value. */
  datatype ProfileHours = NoProfile | Unset | Hours(hours: int)

  datatype PaceStatus = Ahead | Behind | OnTrack

  datatype Pace = Pace(ratio: real, expectedHours: int, actualHours: real, status: PaceStatus)

  /** The pace report once the expected weekly hours are known. */
  function PaceFor(expected: int, actualSeconds: int): (r: Pace)
    ensures r.expectedHours == expected
    ensures expected <= 0 ==> r.ratio == 0.0
    ensures expected > 0 ==> r.ratio * expected as real == r.actualHours
    ensures r.status == Ahead <==> r.ratio > 1.2
    ensures r.status == Behind <==> r.ratio < 0.8
  {
    var actualHours := actualSeconds as real / 3600.0;
    var ratio := if expected > 0 then actualHours / expected as real else 0.0;
    Pace(ratio, expected, actualHours, if ratio > 1.2 then Ahead else if ratio < 0.8 then Behind else OnTrack)
  }

  /** `_analyze_learning_pace` as written: 10 hours without a profile, but a
      profile whose hours are unset reaches `None > 0`, a `TypeError`. */
  function LearningPaceAsWritten(profile: ProfileHours, actualSeconds: int): (r: Result<Pace, string>)
    ensures r.Err? <==> profile.Unset?
    ensures profile.NoProfile? ==> r == Ok(PaceFor(10, actualSeconds))
  {
    match profile
    case NoProfile => Ok(PaceFor(10, actualSeconds))
    case Unset => Err("TypeError")
    case Hours(h) => Ok(PaceFor(h, actualSeconds))
  }

  /** A profile that exists without study hours makes the as-written pace
      fail. */
  lemma PaceFailsWithoutHours()
    ensures LearningPaceAsWritten(Unset, 7200).Err?
  {
  }

  /** The pace as evidently intended: unset hours fall back to 10 like a
      missing profile. */
  function LearningPace(profile: ProfileHours, actualSeconds: int): (r: Pace)
    ensures profile.Hours? ==> r.expectedHours == profile.hours
    ensures !profile.Hours? ==> r.expectedHours == 10
  {
    PaceFor(if profile.Hours? then profile.hours else 10, actualSeconds)
  }

  /** The intended pace always has a result, and it is the as-written
      result wherever that one exists. */
  lemma LearningPaceAgrees(profile: ProfileHours, actualSeconds: int)
    ensures !profile.Unset? ==> LearningPaceAsWritten(profile, actualSeconds) == Ok(LearningPace(profile, actualSeconds))
    ensures profile.Unset? ==> LearningPace(profile, actualSeconds) == LearningPace(NoProfile, actualSeconds)
  {
  }

  // ----- engagement -----

  function Occurrences<T(==)>(xs: seq<T>, x: T): (n: nat)
    ensures n > 0 <==> x in xs
  {
    if xs == [] then 0 else (if xs[0] == x then 1 else 0) + Occurrences(xs[1..], x)
  }

  /** The distinct values of `xs` in first-seen order, as the keys of a
      counting dict. */
  function Distinct<T(==,!new)>(xs: seq<T>): (r: seq<T>)
    ensures forall x :: x in r <==> x in xs
    ensures forall a, b :: 0 <= a < b < |r| ==> r[a] != r[b]
  {
    if xs == [] then []
    else
      var prev := Distinct(xs[..|xs| - 1]);
      var x := xs[|xs| - 1];
      assert xs == xs[..|xs| - 1] + [x];
      if x in prev then prev else prev + [x]
  }

  function Counts<T(==)>(xs: seq<T>, d: seq<T>): (r: seq<real>)
    ensures |r| == |d|
    ensures forall i :: 0 <= i < |d| ==> r[i] == Occurrences(xs, d[i]) as real
  {
    seq(|d|, i requires 0 <= i < |d| => Occurrences(xs, d[i]) as real)
  }

  function Pick<T>(d: seq<T>, idx: seq<nat>): (r: seq<T>)
    requires forall a :: 0 <= a < |idx| ==> idx[a] < |d|
    ensures |r| == |idx|
    ensures forall a :: 0 <= a < |idx| ==> r[a] == d[idx[a]]
  {
    seq(|idx|, a requires 0 <= a < |idx| => d[idx[a]])
  }

  /** The up to `k` most frequent values, most frequent first. */
  function Peaks<T(==,!new)>(xs: seq<T>, k: nat): (r: seq<T>)
    ensures |r| == if k < |Distinct(xs)| then k else |Distinct(xs)|
    ensures forall a :: 0 <= a < |r| ==> r[a] in xs
    ensures forall a, b :: 0 <= a < b < |r| ==> r[a] != r[b]
    ensures forall a, b :: 0 <= a < b < |r| ==> Occurrences(xs, r[a]) >= Occurrences(xs, r[b])
    ensures forall x :: x in xs && x !in r ==> forall a :: 0 <= a < |r| ==> Occurrences(xs, r[a]) >= Occurrences(xs, x)
  {
    var d := Distinct(xs);
    var counts := Counts(xs, d);
    var idx := TopK(counts, k);
    var r := Pick(d, idx);
    PeaksListed(xs, d, counts, idx, r);
    PeaksExcluded(xs, d, counts, idx, r);
    r
  }

  /** Picking distinct positions of distinct values in descending count
      order gives distinct values of `xs` in descending frequency. */
  lemma PeaksListed<T(!new)>(xs: seq<T>, d: seq<T>, counts: seq<real>, idx: seq<nat>, r: seq<T>)
    requires forall x :: x in d <==> x in xs
    requires forall a, b :: 0 <= a < b < |d| ==> d[a] != d[b]
    requires |counts| == |d| && forall i :: 0 <= i < |d| ==> counts[i] == Occurrences(xs, d[i]) as real
    requires forall a :: 0 <= a < |idx| ==> idx[a] < |d|
    requires forall a, b :: 0 <= a < b < |idx| ==> idx[a] != idx[b]
    requires forall a, b :: 0 <= a < b < |idx| ==> counts[idx[a]] >= counts[idx[b]]
    requires |r| == |idx| && forall a :: 0 <= a < |idx| ==> r[a] == d[idx[a]]
    ensures forall a :: 0 <= a < |r| ==> r[a] in xs
    ensures forall a, b :: 0 <= a < b < |r| ==> r[a] != r[b]
    ensures forall a, b :: 0 <= a < b < |r| ==> Occurrences(xs, r[a]) >= Occurrences(xs, r[b])
  {
    forall a | 0 <= a < |r| ensures r[a] in xs {
      assert r[a] in d;
    }
    forall a, b | 0 <= a < b < |r|
      ensures r[a] != r[b] && Occurrences(xs, r[a]) >= Occurrences(xs, r[b])
    {
      var i, j := idx[a], idx[b];
      assert i != j;
      if i < j { assert d[i] != d[j]; } else { assert d[j] != d[i]; }
      assert counts[i] >= counts[j];
    }
  }

  lemma PeaksExcluded<T(!new)>(xs: seq<T>, d: seq<T>, counts: seq<real>, idx: seq<nat>, r: seq<T>)
    requires forall x :: x in d <==> x in xs
    requires |counts| == |d| && forall i :: 0 <= i < |d| ==> counts[i] == Occurrences(xs, d[i]) as real
    requires forall a :: 0 <= a < |idx| ==> idx[a] < |d|
    requires forall j :: 0 <= j < |counts| && j !in idx ==> forall a :: 0 <= a < |idx| ==> counts[idx[a]] >= counts[j]
    requires |r| == |idx| && forall a :: 0 <= a < |idx| ==> r[a] == d[idx[a]]
    ensures forall x :: x in xs && x !in r ==> forall a :: 0 <= a < |r| ==> Occurrences(xs, r[a]) >= Occurrences(xs, x)
  {
    forall x, a | x in xs && x !in r && 0 <= a < |r| ensures Occurrences(xs, r[a]) >= Occurrences(xs, x) {
      var j :| 0 <= j < |d| && d[j] == x;
      assert counts[idx[a]] >= counts[j];
    }
  }

  /** Every other value of `d` as frequent in `xs` as `m` comes after `m`
      in `d`. */
  predicate FirstOfItsCount<T(==)>(xs: seq<T>, d: seq<T>, m: T) {
    forall j :: 0 <= j < |d| && d[j] != m && Occurrences(xs, d[j]) == Occurrences(xs, m) ==> m in d[..j]
  }

  /** The first position holding the largest key. */
  function FirstMax(keys: seq<real>): (i: nat)
    requires keys != []
    ensures i < |keys|
    ensures forall j :: 0 <= j < |keys| ==> keys[j] <= keys[i]
    ensures forall j :: 0 <= j < i ==> keys[j] < keys[i]
    decreases |keys|
  {
    if |keys| == 1 then 0
    else
      var i := FirstMax(keys[..|keys| - 1]);
      if keys[|keys| - 1] > keys[i] then |keys| - 1 else i
  }

  /** `max(counts.items(), key=count)[0]`: the most frequent value, and
      among equally frequent values the one counted first, since `max`
      keeps the first maximal item in the dict's insertion order. */
  function MostFrequent<T(==,!new)>(xs: seq<T>): (m: T)
    requires xs != []
    ensures m in xs
    ensures forall t :: t in xs ==> Occurrences(xs, m) >= Occurrences(xs, t)
    ensures FirstOfItsCount(xs, Distinct(xs), m)
  {
    var d := Distinct(xs);
    assert xs[0] in d;
    var counts := Counts(xs, d);
    var i := FirstMax(counts);
    forall t | t in xs ensures Occurrences(xs, d[i]) >= Occurrences(xs, t) {
      var j :| 0 <= j < |d| && d[j] == t;
      assert counts[j] <= counts[i];
    }
    forall j | 0 <= j < |d| && d[j] != d[i] && Occurrences(xs, d[j]) == Occurrences(xs, d[i])
      ensures d[i] in d[..j]
    {
      assert counts[j] == counts[i];
      assert !(j < i);
      assert d[..j][i] == d[i];
    }
    d[i]
  }

  /** The three conditions on `MostFrequent` single out one value. */
  lemma MostFrequentUnique<T(!new)>(xs: seq<T>, m: T)
    requires m in xs
    requires forall t :: t in xs ==> Occurrences(xs, m) >= Occurrences(xs, t)
    requires FirstOfItsCount(xs, Distinct(xs), m)
    ensures m == MostFrequent(xs)
  {
    var f := MostFrequent(xs);
    assert Occurrences(xs, f) == Occurrences(xs, m);
    FirstAmongEqual(xs, Distinct(xs), m, f);
  }

  /** Two values that each come first among the values as frequent as
      themselves, and are equally frequent, are the same value. */
  lemma FirstAmongEqual<T(!new)>(xs: seq<T>, d: seq<T>, m: T, f: T)
    requires forall x, y :: 0 <= x < y < |d| ==> d[x] != d[y]
    requires m in d && f in d && Occurrences(xs, f) == Occurrences(xs, m)
    requires FirstOfItsCount(xs, d, m) && FirstOfItsCount(xs, d, f)
    ensures m == f
  {
  }

  /** In a list without repeats a value has one position. */
  lemma FirstPositionUnique<T>(d: seq<T>, a: nat, b: nat)
    requires forall x, y :: 0 <= x < y < |d| ==> d[x] != d[y]
    requires a < |d| && b < |d| && d[a] == d[b]
    ensures a == b
  {
  }

  /** One lesson-progress row: the hour and weekday of the last access if
      any, the seconds spent (0 when unset) and the content type. */
  datatype Session = Session(accessed: Option<(int, string)>, timeSpentSeconds: int, contentType: Option<string>)

  datatype Engagement = Engagement(peakHours: seq<int>, peakDays: seq<string>, avgSessionMinutes: real, preferredContent: Option<string>)

  function Hours(sessions: seq<Session>): seq<int> {
    if sessions == [] then []
    else (if sessions[0].accessed.Some? then [sessions[0].accessed.value.0] else []) + Hours(sessions[1..])
  }

  function Days(sessions: seq<Session>): seq<string> {
    if sessions == [] then []
    else (if sessions[0].accessed.Some? then [sessions[0].accessed.value.1] else []) + Days(sessions[1..])
  }

  function Durations(sessions: seq<Session>): seq<int> {
    if sessions == [] then []
    else (if sessions[0].timeSpentSeconds != 0 then [sessions[0].timeSpentSeconds] else []) + Durations(sessions[1..])
  }

  function ContentTypes(sessions: seq<Session>): seq<string> {
    if sessions == [] then []
    else (if sessions[0].contentType.Some? then [sessions[0].contentType.value] else []) + ContentTypes(sessions[1..])
  }

  function IntSum(xs: seq<int>): int {
    if xs == [] then 0 else xs[0] + IntSum(xs[1..])
  }

  /** The mean of the recorded durations in minutes, 0 without any. */
  function MeanMinutes(d: seq<int>): real {
    if d == [] then 0.0 else IntSum(d) as real / |d| as real / 60.0
  }

  /** `round(avg_duration, 1)`: the mean to the nearest tenth of a minute. */
  function AverageSession(d: seq<int>): (r: real)
    ensures d == [] ==> r == 0.0
    ensures -0.05 <= r - MeanMinutes(d) <= 0.05
    ensures SkillAssessment.WholeTenths(r)
  {
    SkillAssessment.Round1(MeanMinutes(d))
  }

  /** `get_engagement_patterns`: the three busiest hours, the two busiest
      weekdays, the mean recorded session in minutes and the most frequent
      content type. */
  function EngagementPatterns(sessions: seq<Session>): (r: Engagement)
    ensures sessions == [] ==> r == Engagement([], [], 0.0, None)
    ensures sessions != [] ==> r.peakHours == Peaks(Hours(sessions), 3) && r.peakDays == Peaks(Days(sessions), 2)
    ensures r.preferredContent.None? <==> ContentTypes(sessions) == []
    ensures ContentTypes(sessions) != [] ==> r.preferredContent == Some(MostFrequent(ContentTypes(sessions)))
    ensures Durations(sessions) == [] ==> r.avgSessionMinutes == 0.0
    ensures -0.05 <= r.avgSessionMinutes - MeanMinutes(Durations(sessions)) <= 0.05
    ensures SkillAssessment.WholeTenths(r.avgSessionMinutes)
  {
    var avg := AverageSession(Durations(sessions));
    if sessions == [] then Engagement([], [], avg, None)
    else
      var types := ContentTypes(sessions);
      Engagement(Peaks(Hours(sessions), 3), Peaks(Days(sessions), 2), avg, if types != [] then Some(MostFrequent(types)) else None)
  }
}

=== FILE: live_class.dfy ===
/** The live-class session lifecycle: start, join, leave, end and delete.
    A session carries its attendance records keyed by user; the clock is
    a parameter (`now`, in seconds). Each handler's lookup of the session
    arrives as an `Option` (for the instructor-only handlers it is already
    restricted to the caller's own sessions). */
module LiveClass {
  import opened Wrappers

  type UserId = string

  /** The stored status strings; the column also admits others. */
  datatype Status = Scheduled | InProgress | Completed | Other(name: string)

  datatype Attendee = Attendee(joinedAt: Option<int>, leftAt: Option<int>, durationMinutes: int)

  datatype Session = Session(
    status: Status,
    meetingUrl: Option<string>,
    actualStart: Option<int>,
    actualEnd: Option<int>,
    recordingUrl: Option<string>,
    currentParticipants: int,
    attendees: map<UserId, Attendee>)

  datatype LiveError =
    | NotFound            // 404 "Live class not found"
    | AlreadyStarted      // 400 "Session already started"
    | NotInProgress       // 400 "Session is not currently in progress"
    | NotAttending        // 404 "Not attending this session"
    | AlreadyEnded        // 400 "Session already ended"
    | DeleteInProgress    // 400 "Cannot delete session in progress"

  /** `int(x)` of a quotient: division truncating toward zero. */
  function TruncDiv(a: int, b: nat): (q: int)
    requires b > 0
    ensures a >= 0 ==> q * b <= a < (q + 1) * b
    ensures a < 0 ==> (q - 1) * b < a <= q * b
  {
    if a >= 0 then a / b else -((-a) / b)
  }

  /** `start_live_class`: any status but in-progress may be started, so an
      ended class can be started again. */
  function Start(found: Option<Session>, meetingUrl: string, now: int): (r: Result<Session, LiveError>)
    ensures found.None? ==> r == Err(NotFound)
    ensures found.Some? && found.value.status == InProgress ==> r == Err(AlreadyStarted)
    ensures r.Ok? <==> found.Some? && found.value.status != InProgress
    ensures r.Ok? ==> r.value == found.value.(status := InProgress, meetingUrl := Some(meetingUrl),
                                              actualStart := Some(now))
  {
    match found
    case None => Err(NotFound)
    case Some(s) =>
      if s.status == InProgress then Err(AlreadyStarted)
      else Ok(s.(status := InProgress, meetingUrl := Some(meetingUrl), actualStart := Some(now)))
  }

  /** `join_live_class` as written: only an in-progress class can be joined;
      a first join creates the record and counts the user, a later join
      reopens the record and counts nobody. */
  function Join(found: Option<Session>, user: UserId, now: int): (r: Result<Session, LiveError>)
    ensures found.None? ==> r == Err(NotFound)
    ensures r.Ok? <==> found.Some? && found.value.status == InProgress
    ensures r.Ok? ==> r.value.status == InProgress && user in r.value.attendees
    ensures r.Ok? ==> r.value.attendees[user].leftAt.None? && r.value.attendees[user].joinedAt == Some(now)
    ensures r.Ok? ==> r.value.currentParticipants
                      == found.value.currentParticipants + (if user in found.value.attendees then 0 else 1)
    ensures r.Ok? ==> forall u :: u != user ==>
              (u in r.value.attendees <==> u in found.value.attendees)
              && (u in found.value.attendees ==> r.value.attendees[u] == found.value.attendees[u])
    ensures r.Ok? ==> r.value.attendees[user].durationMinutes
                      == if user in found.value.attendees then found.value.attendees[user].durationMinutes else 0
    ensures r.Ok? ==> r.value == found.value.(attendees := r.value.attendees,
                                              currentParticipants := r.value.currentParticipants)
  {
    match found
    case None => Err(NotFound)
    case Some(s) =>
      if s.status != InProgress then Err(NotInProgress)
      else if user !in s.attendees then
        Ok(s.(attendees := s.attendees[user := Attendee(Some(now), None, 0)],
              currentParticipants := s.currentParticipants + 1))
      else
        var a := s.attendees[user];
        Ok(s.(attendees := s.attendees[user := a.(joinedAt := Some(now), leftAt := None)]))
  }

  /** The attendance record after leaving at `now`: the whole minutes since
      the last join are added to the time spent. */
  function Close(a: Attendee, now: int): (r: Attendee)
    ensures r.leftAt == Some(now) && r.joinedAt == a.joinedAt
    ensures a.joinedAt.None? ==> r.durationMinutes == a.durationMinutes
    ensures a.joinedAt.Some? && now >= a.joinedAt.value ==> r.durationMinutes >= a.durationMinutes
    ensures a.joinedAt.Some? ==>
              var added, elapsed := r.durationMinutes - a.durationMinutes, now - a.joinedAt.value;
              if elapsed >= 0 then added * 60 <= elapsed < (added + 1) * 60
              else (added - 1) * 60 < elapsed <= added * 60
    ensures r == a.(leftAt := Some(now), durationMinutes := r.durationMinutes)
  {
    match a.joinedAt
    case None => a.(leftAt := Some(now))
    case Some(j) => a.(leftAt := Some(now), durationMinutes := a.durationMinutes + TruncDiv(now - j, 60))
  }

  /** `leave_live_class` as written: whatever the status, a user with a
      record leaves, and the count drops by one unless already zero. */
  function Leave(s: Session, user: UserId, now: int): (r: Result<Session, LiveError>)
    ensures r.Err? <==> user !in s.attendees
    ensures r.Err? ==> r.error == NotAttending
    ensures r.Ok? ==> r.value.attendees == s.attendees[user := Close(s.attendees[user], now)]
    ensures r.Ok? ==> r.value.currentParticipants
                      == if s.currentParticipants > 0 then s.currentParticipants - 1 else s.currentParticipants
    ensures r.Ok? && s.currentParticipants >= 0 ==> r.value.currentParticipants >= 0
    ensures r.Ok? ==> r.value.status == s.status
    ensures r.Ok? ==> r.value == s.(attendees := r.value.attendees, currentParticipants := r.value.currentParticipants)
  {
    if user !in s.attendees then Err(NotAttending)
    else
      var count := if s.currentParticipants > 0 then s.currentParticipants - 1 else s.currentParticipants;
      Ok(s.(attendees := s.attendees[user := Close(s.attendees[user], now)],
            currentParticipants := count))
  }

  /** `end_live_class`: a class not yet completed is completed and its count
      reset; a falsy recording URL leaves the stored one alone. */
  function End(found: Option<Session>, recordingUrl: Option<string>, now: int): (r: Result<Session, LiveError>)
    ensures found.None? ==> r == Err(NotFound)
    ensures found.Some? && found.value.status == Completed ==> r == Err(AlreadyEnded)
    ensures r.Ok? <==> found.Some? && found.value.status != Completed
    ensures r.Ok? ==> r.value.status == Completed && r.value.currentParticipants == 0
    ensures r.Ok? ==> r.value.actualEnd == Some(now) && r.value.attendees == found.value.attendees
    ensures r.Ok? ==> (r.value.recordingUrl == found.value.recordingUrl
                       <==> recordingUrl.None? || recordingUrl.value == []
                            || found.value.recordingUrl == recordingUrl)
    ensures r.Ok? && recordingUrl.Some? && recordingUrl.value != [] ==> r.value.recordingUrl == recordingUrl
    ensures r.Ok? && (recordingUrl.None? || recordingUrl.value == []) ==> r.value.recordingUrl == found.value.recordingUrl
    ensures r.Ok? ==> r.value == found.value.(status := Completed, actualEnd := Some(now), currentParticipants := 0,
                                              recordingUrl := r.value.recordingUrl)
  {
    match found
    case None => Err(NotFound)
    case Some(s) =>
      if s.status == Completed then Err(AlreadyEnded)
      else
        var rec := if recordingUrl.Some? && recordingUrl.value != [] then recordingUrl else s.recordingUrl;
        Ok(s.(status := Completed, actualEnd := Some(now), recordingUrl := rec, currentParticipants := 0))
  }

  /** `delete_live_class`: refused only while the class is running. */
  function Delete(found: Option<Session>): (r: Result<(), LiveError>)
    ensures found.None? ==> r == Err(NotFound)
    ensures r.Ok? <==> found.Some? && found.value.status != InProgress
    ensures found.Some? && found.value.status == InProgress ==> r == Err(DeleteInProgress)
  {
    match found
    case None => Err(NotFound)
    case Some(s) => if s.status == InProgress then Err(DeleteInProgress) else Ok(())
  }

  /** An ended class can be started again, and it is then joinable. */
  lemma RestartAfterEnd(s: Session, url: string, t0: int, t1: int, user: UserId)
    requires s.status != Completed
    ensures var ended := End(Some(s), None, t0).value;
            Start(Some(ended), url, t1).Ok?
            && Join(Some(Start(Some(ended), url, t1).value), user, t1).Ok?
  {
  }

  /** The users currently in the room: those with an open record. */
  function Present(s: Session): (p: set<UserId>)
    ensures forall u :: u in p <==> u in s.attendees && s.attendees[u].leftAt.None?
  {
    set u | u in s.attendees && s.attendees[u].leftAt.None?
  }

  /** The counter agrees with the room. */
  predicate Tracked(s: Session) {
    s.currentParticipants == |Present(s)|
  }

  /** Join, leave, join again: the user is back in the room but the
      counter says nobody is. */
  lemma RejoinUndercounts()
    ensures var s0 := Session(InProgress, Some("url"), Some(0), None, None, 0, map[]);
            var s1 := Join(Some(s0), "ada", 10).value;
            var s2 := Leave(s1, "ada", 70).value;
            var s3 := Join(Some(s2), "ada", 130).value;
            Tracked(s0) && Tracked(s1) && Tracked(s2)
            && s3.currentParticipants == 0 && Present(s3) == {"ada"} && !Tracked(s3)
  {
    var s0 := Session(InProgress, Some("url"), Some(0), None, None, 0, map[]);
    var s1 := Join(Some(s0), "ada", 10).value;
    assert Present(s1) == {"ada"};
    var s2 := Leave(s1, "ada", 70).value;
    assert Present(s2) == {};
    var s3 := Join(Some(s2), "ada", 130).value;
    assert Present(s3) == {"ada"};
  }

  /** Join counting the user only when they are not already in the room. */
  function JoinTracked(found: Option<Session>, user: UserId, now: int): (r: Result<Session, LiveError>)
    ensures r.Ok? <==> found.Some? && found.value.status == InProgress
    ensures r.Ok? ==> user in Present(r.value)
    ensures r.Ok? && Tracked(found.value) ==> Tracked(r.value)
    ensures r.Ok? ==> r.value == found.value.(attendees := r.value.attendees,
                                              currentParticipants := r.value.currentParticipants)
  {
    match found
    case None => Err(NotFound)
    case Some(s) =>
      if s.status != InProgress then Err(NotInProgress)
      else
        var a := if user in s.attendees then s.attendees[user].(joinedAt := Some(now), leftAt := None)
                 else Attendee(Some(now), None, 0);
        var r := s.(attendees := s.attendees[user := a]);
        var wasPresent := user in Present(s);
        PresentAfterOpen(s, r, user);
        Ok(r.(currentParticipants := s.currentParticipants + (if wasPresent then 0 else 1)))
  }

  /** Leave that closes only an open record and counts down only then. */
  function LeaveTracked(s: Session, user: UserId, now: int): (r: Result<Session, LiveError>)
    ensures r.Err? <==> user !in s.attendees
    ensures r.Ok? ==> user !in Present(r.value)
    ensures r.Ok? && Tracked(s) ==> Tracked(r.value)
    ensures r.Ok? && user !in Present(s) ==> r.value == s
    ensures r.Ok? ==> r.value == s.(attendees := r.value.attendees, currentParticipants := r.value.currentParticipants)
  {
    if user !in s.attendees then Err(NotAttending)
    else if user !in Present(s) then Ok(s)
    else
      var r := s.(attendees := s.attendees[user := Close(s.attendees[user], now)]);
      PresentAfterClose(s, r, user);
      Ok(r.(currentParticipants := s.currentParticipants - 1))
  }

  /** End that also closes every open record, so the room empties with the
      counter. */
  function EndTracked(found: Option<Session>, recordingUrl: Option<string>, now: int): (r: Result<Session, LiveError>)
    ensures r.Ok? <==> found.Some? && found.value.status != Completed
    ensures r.Ok? ==> r.value.status == Completed && Present(r.value) == {} && Tracked(r.value)
    ensures r.Ok? ==> r.value.attendees.Keys == found.value.attendees.Keys
  {
    match End(found, recordingUrl, now)
    case Err(e) => Err(e)
    case Ok(s) =>
      var closed := map u | u in s.attendees ::
                      if s.attendees[u].leftAt.None? then Close(s.attendees[u], now) else s.attendees[u];
      var r := s.(attendees := closed);
      assert Present(r) == {};
      Ok(r)
  }

  /** Opening `user`'s record adds exactly `user` to the room. */
  lemma PresentAfterOpen(s: Session, r: Session, user: UserId)
    requires user in r.attendees && r.attendees[user].leftAt.None?
    requires forall u :: u != user ==>
               (u in r.attendees <==> u in s.attendees)
               && (u in s.attendees ==> r.attendees[u] == s.attendees[u])
    ensures Present(r) == Present(s) + {user}
    ensures |Present(r)| == |Present(s)| + (if user in Present(s) then 0 else 1)
  {
  }

  /** Closing `user`'s open record removes exactly `user` from the room. */
  lemma PresentAfterClose(s: Session, r: Session, user: UserId)
    requires user in Present(s)
    requires user in r.attendees && r.attendees[user].leftAt.Some?
    requires forall u :: u != user ==>
               (u in r.attendees <==> u in s.attendees)
               && (u in s.attendees ==> r.attendees[u] == s.attendees[u])
    ensures Present(r) == Present(s) - {user}
    ensures |Present(r)| == |Present(s)| - 1
  {
  }

  /** On a first join the corrected join is the one as written. */
  lemma JoinAgrees(found: Option<Session>, user: UserId, now: int)
    requires found.Some? ==> user !in found.value.attendees
    ensures JoinTracked(found, user, now) == Join(found, user, now)
  {
  }

  /** When the counter is right, leaving the room is the same either way. */
  lemma LeaveAgrees(s: Session, user: UserId, now: int)
    requires Tracked(s) && user in Present(s)
    ensures LeaveTracked(s, user, now) == Leave(s, user, now)
  {
    assert |Present(s)| >= 1 by {
      assert user in Present(s);
    }
  }
}

=== FILE: next_action.dfy ===
/** The "next best action" cascade: keep going with the most recently
    opened unfinished course, else start the top recommendation when the
    learner has goals, else take a diagnostic assessment not yet
    attempted, else set a goal or browse. The queries become snapshots:
    enrollments most recently accessed first, active goals newest first,
    and the recommendation engine's answer as a parameter. */
module NextAction {
  import opened Text
  import AdaptiveAssessment

  datatype Enrollment = Enrollment(id: string, courseId: string, progress: real)
  datatype Recommendation = Recommendation(courseId: string, title: string, reasons: seq<string>)
  datatype Assessment = Assessment(id: string, title: string)

  datatype Action =
    | ContinueCourse(enrollmentId: string, courseId: string, progress: int)
    | StartNewCourse(courseId: string, title: string, reasons: seq<string>, goal: string)
    | TakeAssessment(assessmentId: string, assessmentTitle: string)
    | SetGoal
    | ExploreCourses

  /** The `reason` text shown with each action. */
  function Reason(a: Action): string {
    match a
    case ContinueCourse(_, _, p) =>
      "You're " + IntToString(p) + "% through this course. Maintain momentum!"
    case StartNewCourse(_, _, _, g) => "This course aligns with your goal: " + g
    case TakeAssessment(_, _) => "Assess your skills to get personalized recommendations"
    case SetGoal => "Define your learning objectives to get personalized course recommendations"
    case ExploreCourses => "Discover new courses to expand your skills"
  }

  /** The position of the first enrollment still below 100%. */
  function FirstIncomplete(es: seq<Enrollment>): (k: nat)
    ensures k <= |es|
    ensures forall i :: 0 <= i < k ==> es[i].progress >= 100.0
    ensures k < |es| ==> es[k].progress < 100.0
    decreases |es|
  {
    if es == [] then 0
    else if es[0].progress < 100.0 then 0
    else 1 + FirstIncomplete(es[1..])
  }

  /** The position of the first diagnostic assessment never attempted. */
  function FirstUntaken(assessments: seq<Assessment>, attempted: seq<string>): (k: nat)
    ensures k <= |assessments|
    ensures forall i :: 0 <= i < k ==> assessments[i].id in attempted
    ensures k < |assessments| ==> assessments[k].id !in attempted
    decreases |assessments|
  {
    if assessments == [] then 0
    else if assessments[0].id !in attempted then 0
    else 1 + FirstUntaken(assessments[1..], attempted)
  }

  /** `get_next_best_action`: exactly one action, chosen by priority. */
  function NextBestAction(enrollments: seq<Enrollment>, goals: seq<string>,
                          recommendations: seq<Recommendation>,
                          assessments: seq<Assessment>, attempted: seq<string>): (a: Action)
    ensures a.ContinueCourse? <==> exists i :: 0 <= i < |enrollments| && enrollments[i].progress < 100.0
    ensures a.ContinueCourse? ==>
              var e := enrollments[FirstIncomplete(enrollments)];
              a == ContinueCourse(e.id, e.courseId, AdaptiveAssessment.Trunc(e.progress))
    ensures a.StartNewCourse? <==> !a.ContinueCourse? && goals != [] && recommendations != []
    ensures a.StartNewCourse? ==>
              a == StartNewCourse(recommendations[0].courseId, recommendations[0].title,
                                  recommendations[0].reasons, goals[0])
    ensures a.TakeAssessment? <==>
              !a.ContinueCourse? && !a.StartNewCourse?
              && exists i :: 0 <= i < |assessments| && assessments[i].id !in attempted
    ensures a.TakeAssessment? ==>
              var t := assessments[FirstUntaken(assessments, attempted)];
              a == TakeAssessment(t.id, t.title)
    ensures a == SetGoal <==>
              !a.ContinueCourse? && !a.TakeAssessment? && goals == []
    ensures a == ExploreCourses <==>
              !a.ContinueCourse? && !a.StartNewCourse? && !a.TakeAssessment? && goals != []
  {
    var k := FirstIncomplete(enrollments);
    var u := FirstUntaken(assessments, attempted);
    if k < |enrollments| then
      var e := enrollments[k];
      ContinueCourse(e.id, e.courseId, AdaptiveAssessment.Trunc(e.progress))
    else if goals != [] && recommendations != [] then
      var top := recommendations[0];
      StartNewCourse(top.courseId, top.title, top.reasons, goals[0])
    else if u < |assessments| then
      TakeAssessment(assessments[u].id, assessments[u].title)
    else if goals == [] then SetGoal
    else ExploreCourses
  }

  /** Opening a course that is not finished makes it the next action,
      whatever else the learner has going on. */
  lemma RecentCourseComesFirst(e: Enrollment, enrollments: seq<Enrollment>, goals: seq<string>,
                               recommendations: seq<Recommendation>,
                               assessments: seq<Assessment>, attempted: seq<string>)
    requires e.progress < 100.0
    ensures NextBestAction([e] + enrollments, goals, recommendations, assessments, attempted)
            == ContinueCourse(e.id, e.courseId, AdaptiveAssessment.Trunc(e.progress))
  {
    assert ([e] + enrollments)[0] == e;
  }

  /** The progress reported for a course in progress is a whole percentage
      below 100 (for non-negative progress). */
  lemma ContinueProgressBelowHundred(enrollments: seq<Enrollment>, goals: seq<string>,
                                     recommendations: seq<Recommendation>,
                                     assessments: seq<Assessment>, attempted: seq<string>)
    requires forall i :: 0 <= i < |enrollments| ==> enrollments[i].progress >= 0.0
    requires NextBestAction(enrollments, goals, recommendations, assessments, attempted).ContinueCourse?
    ensures 0 <= NextBestAction(enrollments, goals, recommendations, assessments, attempted).progress <= 99
  {
  }

  /** Once every course is finished and every diagnostic is attempted, only
      the goals decide between setting one, following the top
      recommendation, and browsing. */
  lemma SettledLearner(enrollments: seq<Enrollment>, goals: seq<string>,
                       recommendations: seq<Recommendation>,
                       assessments: seq<Assessment>, attempted: seq<string>)
    requires forall i :: 0 <= i < |enrollments| ==> enrollments[i].progress >= 100.0
    requires forall i :: 0 <= i < |assessments| ==> assessments[i].id in attempted
    ensures goals == [] ==>
              NextBestAction(enrollments, goals, recommendations, assessments, attempted) == SetGoal
    ensures goals != [] && recommendations == [] ==>
              NextBestAction(enrollments, goals, recommendations, assessments, attempted) == ExploreCourses
  {
  }
}

=== FILE: rule_engine.dfy ===
/** The rule-based engine (services/recommendation_engine.py): a one-pass
    learning path over courses that teach missing skills, the next lesson of
    an enrollment, weak skills from poor quiz attempts, struggling-learner
    signals and difficulty adjustment. */
module RuleEngine {
  import opened Wrappers
  import opened Text
  import opened SkillLevels
  import opened CourseScoring
  import opened Uuid

  /** A level of 7 out of 10 counts as proficient. */
  const ProficientThreshold: real := 7.0

  /** `[skill.lower() for skill in targets if current.get(skill, 0) < 7.0]`:
      the level is looked up under the target's own spelling, and the gap is
      reported lower-cased. */
  function SkillGapList(levels: Levels, targets: seq<string>): (r: seq<string>)
    ensures |r| <= |targets|
    ensures forall i :: 0 <= i < |r| ==>
              exists j :: 0 <= j < |targets| && r[i] == Lower(targets[j]) && Get(levels, targets[j], 0.0) < ProficientThreshold
    ensures forall j :: 0 <= j < |targets| && Get(levels, targets[j], 0.0) < ProficientThreshold ==> Lower(targets[j]) in r
  {
    if targets == [] then []
    else
      var rest := SkillGapList(levels, targets[1..]);
      assert forall j :: 1 <= j < |targets| ==> targets[1..][j - 1] == targets[j];
      (if Get(levels, targets[0], 0.0) < ProficientThreshold then [Lower(targets[0])] else []) + rest
  }

  /** The skills the profile already rates proficient. */
  function InitiallyCovered(levels: Levels): (r: set<string>)
    ensures forall s :: s in r <==> exists i :: 0 <= i < |levels| && levels[i].0 == s && levels[i].1 >= ProficientThreshold
  {
    set i | 0 <= i < |levels| && levels[i].1 >= ProficientThreshold :: levels[i].0
  }

  /** How the reason text opens, by the course's level. */
  datatype ReasonKind = BuildsFoundation | Strengthens | AdvancedMastery

  function ReasonFor(level: string): (k: ReasonKind)
    ensures k == BuildsFoundation <==> level == "beginner"
    ensures k == Strengthens <==> level == "intermediate"
  {
    if level == "beginner" then BuildsFoundation
    else if level == "intermediate" then Strengthens
    else AdvancedMastery
  }

  /** One step: the course's position in the query result, the skills it
      newly covers, its hours (0 when unknown), the reason and the 1-based
      position in the path. */
  datatype RuleStep = RuleStep(course: nat, skillsCovered: set<string>, hours: int, reason: ReasonKind, sequence: nat)

  /** The covered set after the given steps. */
  function CoveredAfter(start: set<string>, steps: seq<RuleStep>): (r: set<string>)
    ensures start <= r
  {
    if steps == [] then start
    else CoveredAfter(start, steps[..|steps| - 1]) + steps[|steps| - 1].skillsCovered
  }

  /** The steps taken before course `i` was looked at. */
  function StepsBefore(steps: seq<RuleStep>, i: nat): (r: seq<RuleStep>)
    ensures r <= steps
  {
    if steps == [] || steps[|steps| - 1].course < i then steps
    else StepsBefore(steps[..|steps| - 1], i)
  }

  /** A path the single pass can produce: steps in query order, numbered
      from 1, each taken with its prerequisites covered and for the skills
      it newly covers, of which there is at least one. */
  predicate Justified(courses: seq<Course>, start: set<string>, steps: seq<RuleStep>) {
    (forall k :: 0 <= k < |steps| ==> steps[k].course < |courses| && steps[k].sequence == k + 1)
    && (forall a, b :: 0 <= a < b < |steps| ==> steps[a].course < steps[b].course)
    && (forall k :: 0 <= k < |steps| ==>
          var c := courses[steps[k].course];
          var before := CoveredAfter(start, steps[..k]);
          c.prereqs <= before
          && steps[k].skillsCovered == c.skills - before
          && steps[k].skillsCovered != {}
          && steps[k].hours == c.durationHours
          && steps[k].reason == ReasonFor(c.difficulty))
  }

  /** Course `i` was passed over: at its turn it had an uncovered
      prerequisite or taught nothing new. */
  predicate Skipped(c: Course, covered: set<string>) {
    !(c.prereqs <= covered) || c.skills <= covered
  }

  lemma PrefixCovered(start: set<string>, steps: seq<RuleStep>, s: RuleStep)
    ensures CoveredAfter(start, steps + [s]) == CoveredAfter(start, steps) + s.skillsCovered
  {
    assert (steps + [s])[..|steps|] == steps;
  }

  lemma StepsBeforeAppend(steps: seq<RuleStep>, s: RuleStep, i: nat)
    requires forall k :: 0 <= k < |steps| ==> steps[k].course < s.course
    requires i <= s.course
    ensures StepsBefore(steps + [s], i) == StepsBefore(steps, i)
  {
    assert (steps + [s])[..|steps|] == steps;
  }

  /** Every course before position `i` that is not on the path was
      rightly passed over. */
  predicate SkippedBefore(courses: seq<Course>, start: set<string>, steps: seq<RuleStep>, i: nat)
    requires i <= |courses|
  {
    forall j :: 0 <= j < i && !OnPath(steps, j) ==> Skipped(courses[j], CoveredAfter(start, StepsBefore(steps, j)))
  }

  predicate OnPath(steps: seq<RuleStep>, j: nat) {
    exists k :: 0 <= k < |steps| && steps[k].course == j
  }

  lemma SkippedAfterTake(courses: seq<Course>, start: set<string>, steps: seq<RuleStep>, step: RuleStep, i: nat)
    requires i < |courses| && step.course == i
    requires forall k :: 0 <= k < |steps| ==> steps[k].course < i
    requires SkippedBefore(courses, start, steps, i)
    ensures SkippedBefore(courses, start, steps + [step], i + 1)
  {
    var next := steps + [step];
    forall j | 0 <= j < i + 1 && !OnPath(next, j)
      ensures Skipped(courses[j], CoveredAfter(start, StepsBefore(next, j)))
    {
      assert next[|steps|].course == i;
      StepsBeforeAppend(steps, step, j);
    }
  }

  lemma SkippedAfterPass(courses: seq<Course>, start: set<string>, steps: seq<RuleStep>, i: nat)
    requires i < |courses|
    requires forall k :: 0 <= k < |steps| ==> steps[k].course < i
    requires SkippedBefore(courses, start, steps, i)
    requires Skipped(courses[i], CoveredAfter(start, steps))
    ensures SkippedBefore(courses, start, steps, i + 1)
  {
    assert StepsBefore(steps, i) == steps;
  }

  /** The single pass over the courses, in the order the query returns
      them (published courses teaching some gap skill, easiest first). */
  method BuildRulePath(courses: seq<Course>, start: set<string>)
    returns (steps: seq<RuleStep>, covered: set<string>)
    ensures Justified(courses, start, steps)
    ensures covered == CoveredAfter(start, steps)
    ensures SkippedBefore(courses, start, steps, |courses|)
  {
    steps := [];
    covered := start;
    var i := 0;
    while i < |courses|
      invariant 0 <= i <= |courses|
      invariant Justified(courses, start, steps)
      invariant forall k :: 0 <= k < |steps| ==> steps[k].course < i
      invariant covered == CoveredAfter(start, steps)
      invariant SkippedBefore(courses, start, steps, i)
    {
      var c := courses[i];
      if c.prereqs <= covered && !(c.skills <= covered) {
        var x :| x in c.skills && x !in covered;
        assert x in c.skills - covered;
        var step := RuleStep(i, c.skills - covered, c.durationHours, ReasonFor(c.difficulty), |steps| + 1);
        ExtendJustified(courses, start, steps, step);
        SkippedAfterTake(courses, start, steps, step, i);
        PrefixCovered(start, steps, step);
        CoursesBelow(steps, step, i);
        steps := steps + [step];
        covered := covered + step.skillsCovered;
      } else {
        SkippedAfterPass(courses, start, steps, i);
      }
      i := i + 1;
    }
  }

  lemma CoursesBelow(steps: seq<RuleStep>, step: RuleStep, i: nat)
    requires forall k :: 0 <= k < |steps| ==> steps[k].course < i
    requires step.course == i
    ensures forall k :: 0 <= k < |steps + [step]| ==> (steps + [step])[k].course < i + 1
  {
    forall k | 0 <= k < |steps + [step]| ensures (steps + [step])[k].course < i + 1 {
      if k < |steps| { assert (steps + [step])[k] == steps[k]; }
    }
  }

  lemma ExtendJustified(courses: seq<Course>, start: set<string>, steps: seq<RuleStep>, step: RuleStep)
    requires Justified(courses, start, steps)
    requires step.course < |courses| && step.sequence == |steps| + 1
    requires forall k :: 0 <= k < |steps| ==> steps[k].course < step.course
    requires var c := courses[step.course];
             var before := CoveredAfter(start, steps);
             c.prereqs <= before && step.skillsCovered == c.skills - before && step.skillsCovered != {}
             && step.hours == c.durationHours && step.reason == ReasonFor(c.difficulty)
    ensures Justified(courses, start, steps + [step])
  {
    var next := steps + [step];
    assert next[..|steps|] == steps;
    forall k | 0 <= k < |next|
      ensures var c := courses[next[k].course];
              var before := CoveredAfter(start, next[..k]);
              c.prereqs <= before && next[k].skillsCovered == c.skills - before && next[k].skillsCovered != {}
              && next[k].hours == c.durationHours && next[k].reason == ReasonFor(c.difficulty)
    {
      if k < |steps| {
        assert next[..k] == steps[..k];
      }
    }
  }

  /** No skill is credited to two steps. */
  lemma {:induction false} StepsDisjoint(courses: seq<Course>, start: set<string>, steps: seq<RuleStep>)
    requires Justified(courses, start, steps)
    ensures forall a, b :: 0 <= a < b < |steps| ==> steps[a].skillsCovered !! steps[b].skillsCovered
  {
    forall a, b | 0 <= a < b < |steps|
      ensures steps[a].skillsCovered !! steps[b].skillsCovered
    {
      CoveredGrows(start, steps[..b], a);
      assert steps[..b][a] == steps[a];
    }
  }

  /** What an earlier step covered is part of the covered set afterwards. */
  lemma {:induction false} CoveredGrows(start: set<string>, steps: seq<RuleStep>, a: nat)
    requires a < |steps|
    ensures steps[a].skillsCovered <= CoveredAfter(start, steps)
  {
    if a < |steps| - 1 {
      CoveredGrows(start, steps[..|steps| - 1], a);
    }
  }

  /** Python's `math.ceil(a / b)` for a non-zero divisor of either sign. */
  function Ceil(a: int, b: int): (r: int)
    requires b != 0
    ensures b > 0 ==> (r - 1) * b < a <= r * b
    ensures b < 0 ==> r * b <= a < (r - 1) * b
  {
    if b > 0 then -((-a) / b) else -(a / (-b))
  }

  datatype PathMetadata = PathMetadata(
    totalCourses: nat,
    totalHours: int,
    estimatedWeeks: int,
    skillsCovered: set<string>,
    remainingGaps: seq<string>)

  function HoursOf(steps: seq<RuleStep>): int {
    if steps == [] then 0 else steps[0].hours + HoursOf(steps[1..])
  }

  /** The gaps that the path leaves uncovered, in order. */
  function Remaining(gaps: seq<string>, covered: set<string>): (r: seq<string>)
    ensures forall i :: 0 <= i < |r| ==> r[i] in gaps && r[i] !in covered
    ensures forall i :: 0 <= i < |gaps| && gaps[i] !in covered ==> gaps[i] in r
  {
    if gaps == [] then []
    else
      assert forall i :: 1 <= i < |gaps| ==> gaps[1..][i - 1] == gaps[i];
      (if gaps[0] !in covered then [gaps[0]] else []) + Remaining(gaps[1..], covered)
  }

  /** Weekly study hours default to 10 when the profile does not say. */
  function Metadata(steps: seq<RuleStep>, covered: set<string>, gaps: seq<string>, studyHours: int): (m: PathMetadata)
    ensures m.totalCourses == |steps| && m.totalHours == HoursOf(steps)
    ensures var perWeek := if studyHours == 0 then 10 else studyHours;
            perWeek > 0 ==> (m.estimatedWeeks - 1) * perWeek < m.totalHours <= m.estimatedWeeks * perWeek
    ensures m.remainingGaps == Remaining(gaps, covered)
  {
    var perWeek := if studyHours == 0 then 10 else studyHours;
    PathMetadata(|steps|, HoursOf(steps), Ceil(HoursOf(steps), perWeek), covered, Remaining(gaps, covered))
  }

  /** The endpoint: no goal gives the empty list; a learner without a
      profile starts from an empty one. */
  method GenerateRulePath(levels: Levels, studyHours: int, goal: Option<seq<string>>, courses: seq<Course>)
    returns (r: Option<(seq<RuleStep>, PathMetadata)>)
    ensures goal.None? <==> r.None?
    ensures r.Some? ==> Justified(courses, InitiallyCovered(levels), r.value.0)
    ensures r.Some? ==> r.value.1.skillsCovered == CoveredAfter(InitiallyCovered(levels), r.value.0)
    ensures r.Some? ==>
              r.value.1.remainingGaps == Remaining(SkillGapList(levels, goal.value), r.value.1.skillsCovered)
    ensures r.Some? ==> SkippedBefore(courses, InitiallyCovered(levels), r.value.0, |courses|)
    ensures r.Some? ==>
              r.value.1 == Metadata(r.value.0, r.value.1.skillsCovered, SkillGapList(levels, goal.value), studyHours)
  {
    if goal.None? {
      return None;
    }
    var gaps := SkillGapList(levels, goal.value);
    var steps, covered := BuildRulePath(courses, InitiallyCovered(levels));
    r := Some((steps, Metadata(steps, covered, gaps, studyHours)));
  }

  /** The lower-casing of gaps but not of covered skills means a target
      spelled with a capital stays in the remaining gaps even when a course
      covers it under that spelling. */
  lemma CapitalisedGapStaysRemaining()
    ensures Remaining(SkillGapList([], ["R"]), {"R"}) == ["r"]
  {
    var targets: seq<string> := ["R"];
    assert Lower("R") == "r" by {
      assert LowerChar('R') == 'r';
    }
    assert targets[1..] == [];
    assert SkillGapList([], []) == [];
    assert SkillGapList([], targets) == ["r"];
    var gaps: seq<string> := ["r"];
    assert gaps[1..] == [];
    assert "r" !in {"R"} by {
      assert "r"[0] != "R"[0];
    }
    assert Remaining([], {"R"}) == [];
    assert Remaining(gaps, {"R"}) == ["r"];
  }

  // ----- next lesson -----

  /** A lesson in course order: its id as UUID digits, and what `UUID()`
      makes of each prerequisite string stored in its JSON column (`None`
      where it raises). The strings are read by `ReadLesson`; a rejected
      one only matters if the check reaches it. */
  datatype Lesson = Lesson(id: string, prerequisites: seq<Option<string>>)

  /** A lesson row with its prerequisite strings read by `UUID()`. */
  function ReadLesson(id: string, prerequisites: seq<string>): (l: Lesson)
    ensures |l.prerequisites| == |prerequisites|
    ensures forall k :: 0 <= k < |prerequisites| ==> l.prerequisites[k] == ParseUuid(prerequisites[k])
  {
    Lesson(id, Parsed(prerequisites))
  }

  /** `UUID(p)` for each prerequisite string, in order. */
  function Parsed(prerequisites: seq<string>): (r: seq<Option<string>>)
    ensures |r| == |prerequisites|
    ensures forall k :: 0 <= k < |r| ==> r[k] == ParseUuid(prerequisites[k])
  {
    seq(|prerequisites|, k requires 0 <= k < |prerequisites| => ParseUuid(prerequisites[k]))
  }

  /** `UUID(p) in completed`, for a prerequisite that parsed. */
  predicate Done(u: Option<string>, completed: set<string>) {
    u.Some? && u.value in completed
  }

  /** Where the left-to-right check of the prerequisites stops: the first
      one from `from` on that is not done, or the end. */
  function FirstNotDone(parsed: seq<Option<string>>, completed: set<string>, from: nat): (k: nat)
    requires from <= |parsed|
    ensures from <= k <= |parsed|
    ensures forall j :: from <= j < k ==> Done(parsed[j], completed)
    ensures k < |parsed| ==> !Done(parsed[k], completed)
    decreases |parsed| - from
  {
    if from == |parsed| || !Done(parsed[from], completed) then from
    else FirstNotDone(parsed, completed, from + 1)
  }

  /** `all(UUID(p) in completed for p in prerequisites)` on the parsed
      prerequisites, evaluated left to right: it stops at the first one not
      completed, and fails there when `UUID` rejected that string. */
  function PrereqsMet(parsed: seq<Option<string>>, completed: set<string>): (r: Result<bool, string>)
    ensures r == Ok(true) <==> forall k :: 0 <= k < |parsed| ==> Done(parsed[k], completed)
  {
    var k := FirstNotDone(parsed, completed, 0);
    if k == |parsed| then Ok(true)
    else if parsed[k].None? then Err("badly formed hexadecimal UUID string")
    else Ok(false)
  }

  /** The check fails exactly when it reaches a string `UUID` rejects
      before any prerequisite that is not completed. */
  lemma PrereqsMetFails(parsed: seq<Option<string>>, completed: set<string>)
    ensures PrereqsMet(parsed, completed).Err? <==>
              exists k :: 0 <= k < |parsed| && parsed[k].None? && forall j :: 0 <= j < k ==> Done(parsed[j], completed)
  {
    var k := FirstNotDone(parsed, completed, 0);
    if PrereqsMet(parsed, completed).Err? {
      assert parsed[k].None?;
    } else {
      forall k' | 0 <= k' < |parsed| && parsed[k'].None?
        ensures exists j :: 0 <= j < k' && !Done(parsed[j], completed)
      {
        assert k' != k && !Done(parsed[k'], completed);
      }
    }
  }

  /** The loop passes over a lesson that is completed or whose
      prerequisites are not all completed. */
  predicate Passed(l: Lesson, completed: set<string>) {
    l.id in completed || PrereqsMet(l.prerequisites, completed) == Ok(false)
  }

  /** The loop returns a lesson that is not completed and whose
      prerequisites all are. */
  predicate Eligible(l: Lesson, completed: set<string>) {
    l.id !in completed && PrereqsMet(l.prerequisites, completed) == Ok(true)
  }

  /** `get_next_lesson` over the lessons in (module, lesson) order: the
      first eligible lesson, `None` when the enrollment does not exist or
      every lesson is passed over, and an error when a prerequisite of a
      lesson the loop reaches is not a UUID. */
  function NextLesson(enrollmentFound: bool, lessons: seq<Lesson>, completed: set<string>): (r: Result<Option<nat>, string>)
    ensures !enrollmentFound ==> r == Ok(None)
    ensures r.Ok? && r.value.Some? ==> r.value.value < |lessons| && Eligible(lessons[r.value.value], completed)
    ensures r.Ok? && r.value.Some? ==> forall i :: 0 <= i < r.value.value ==> Passed(lessons[i], completed)
    ensures enrollmentFound && r == Ok(None) ==> forall i :: 0 <= i < |lessons| ==> Passed(lessons[i], completed)
    ensures r.Err? ==>
              exists i :: (0 <= i < |lessons| && lessons[i].id !in completed
                && PrereqsMet(lessons[i].prerequisites, completed).Err?
                && forall j :: 0 <= j < i ==> Passed(lessons[j], completed))
  {
    if !enrollmentFound then Ok(None)
    else
      var i := FirstStop(lessons, completed, 0);
      if i == |lessons| then Ok(None)
      else
        match PrereqsMet(lessons[i].prerequisites, completed)
        case Err(e) => Err(e)
        case Ok(_) => Ok(Some(i))
  }

  /** Where the loop over the lessons stops: the first lesson from `from`
      on that it does not pass over, or the end. */
  function FirstStop(lessons: seq<Lesson>, completed: set<string>, from: nat): (i: nat)
    requires from <= |lessons|
    ensures from <= i <= |lessons|
    ensures forall j :: from <= j < i ==> Passed(lessons[j], completed)
    ensures i < |lessons| ==> !Passed(lessons[i], completed)
    decreases |lessons| - from
  {
    if from == |lessons| || !Passed(lessons[from], completed) then from
    else FirstStop(lessons, completed, from + 1)
  }

  /** A prerequisite written with hyphens, in either case, or as bare
      digits still matches the completed lesson: ids are compared as UUIDs,
      not as strings. */
  lemma PrerequisiteSpelling(id: string, u: string, h: string, completed: set<string>)
    requires Canonical(u) && u in completed && id !in completed
    requires |h| == 32 && (forall k :: 0 <= k < 32 ==> IsHexDigit(h[k])) && Lower(h) == u
    ensures Eligible(ReadLesson(id, [Format(u), h, u]), completed)
  {
    ParseFormat(u);
    ParseHexDigits(h);
    var raw := [Format(u), h, u];
    var l := ReadLesson(id, raw);
    assert l.prerequisites[0] == Some(u) && l.prerequisites[1] == Some(u) && l.prerequisites[2] == Some(u);
    AllDone(l.prerequisites, u, completed);
  }

  /** Three prerequisites that all parsed to a completed id are met. */
  lemma AllDone(parsed: seq<Option<string>>, u: string, completed: set<string>)
    requires |parsed| == 3 && parsed[0] == Some(u) && parsed[1] == Some(u) && parsed[2] == Some(u)
    requires u in completed
    ensures PrereqsMet(parsed, completed) == Ok(true)
  {
  }

  /** A prerequisite that is not a UUID makes the call fail once the loop
      reaches its lesson. */
  lemma MalformedPrerequisiteFails(id: string)
    ensures NextLesson(true, [ReadLesson(id, ["not-a-uuid"])], {}).Err?
  {
    RejectsShort();
    var raw := ["not-a-uuid"];
    var l := ReadLesson(id, raw);
    assert l.prerequisites[0] == ParseUuid(raw[0]);
    PrereqsMetFails(l.prerequisites, {});
  }

  // ----- weak skills -----

  /** A score below 0.7 marks a skill as weak. */
  const WeakThreshold: real := 0.7

  /** The weak skills of the poor attempts, taking each attempt's
      `skill_scores` in order; a weak skill keeps its lowest score. */
  function WeakSkills(scores: seq<(string, real)>): (r: Levels)
    ensures DistinctKeys(r)
    ensures forall s :: HasKey(r, s) <==> exists i :: 0 <= i < |scores| && scores[i].0 == s && scores[i].1 < WeakThreshold
  {
    if scores == [] then []
    else
      var init := scores[..|scores| - 1];
      var last := scores[|scores| - 1];
      var prev := WeakSkills(init);
      assert forall i :: 0 <= i < |init| ==> init[i] == scores[i];
      if last.1 < WeakThreshold then
        var m := if Get(prev, last.0, 1.0) < last.1 then Get(prev, last.0, 1.0) else last.1;
        Put(prev, last.0, m)
      else prev
  }

  /** A weak skill's recorded score is no higher than any of its scores
      below the threshold. */
  lemma {:induction false} WeakSkillsMinimal(scores: seq<(string, real)>, i: nat)
    requires i < |scores| && scores[i].1 < WeakThreshold
    ensures Get(WeakSkills(scores), scores[i].0, 1.0) <= scores[i].1
    decreases |scores|
  {
    var init := scores[..|scores| - 1];
    var last := scores[|scores| - 1];
    var prev := WeakSkills(init);
    if i < |scores| - 1 {
      assert init[i] == scores[i];
      WeakSkillsMinimal(init, i);
    }
    if last.1 < WeakThreshold && i < |scores| - 1 && scores[i].0 != last.0 {
      assert Get(WeakSkills(scores), scores[i].0, 1.0) == Get(prev, scores[i].0, 1.0);
    }
  }

  /** A weak skill's recorded score is one of its actual scores. */
  lemma {:induction false} WeakSkillsAttained(scores: seq<(string, real)>, s: string)
    requires HasKey(WeakSkills(scores), s)
    ensures exists i :: 0 <= i < |scores| && scores[i].0 == s && Get(WeakSkills(scores), s, 1.0) == scores[i].1
    decreases |scores|
  {
    var n := |scores| - 1;
    var init, last := scores[..n], scores[n];
    var prev := WeakSkills(init);
    var g := Get(WeakSkills(scores), s, 1.0);
    if last.1 < WeakThreshold {
      var m := if Get(prev, last.0, 1.0) < last.1 then Get(prev, last.0, 1.0) else last.1;
      assert WeakSkills(scores) == Put(prev, last.0, m);
    } else {
      assert WeakSkills(scores) == prev;
    }
    if last.1 < WeakThreshold && last.0 == s {
      if HasKey(prev, s) && Get(prev, s, 1.0) < last.1 {
        assert g == Get(prev, s, 1.0);
        WeakSkillsAttained(init, s);
        var i :| 0 <= i < |init| && init[i].0 == s && Get(prev, s, 1.0) == init[i].1;
        assert scores[i] == init[i];
      } else {
        assert g == last.1;
        assert scores[n].0 == s && g == scores[n].1;
      }
    } else {
      assert g == Get(prev, s, 1.0);
      assert HasKey(prev, s);
      WeakSkillsAttained(init, s);
      var i :| 0 <= i < |init| && init[i].0 == s && Get(prev, s, 1.0) == init[i].1;
      assert scores[i] == init[i];
    }
  }

  // ----- struggling learner -----

  datatype StruggleReason =
    | SlowProgress(minutesTaken: int, expectedMinutes: int)
    | HighPauses(pauses: int)
    | FrequentRewinds(rewinds: int)
    | LowCompletion

  /** A lesson-progress row: seconds spent, completion percentage and the
      pause and rewind counters (0 when the interactions omit them). */
  datatype Progress = Progress(timeSpentSeconds: int, completion: int, pauses: int, rewinds: int)

  /** What goes wrong: the source reads the expected time before it is set
      when the lesson has no time estimate and completion is below 50. */
  datatype StruggleError = ExpectedTimeUnbound

  /** The rules as written. `estimatedMinutes` 0 stands for a lesson without
      an estimate; a missing progress row is not struggling. */
  function DetectStruggling(row: Option<Progress>, estimatedMinutes: int): (r: Result<(bool, seq<StruggleReason>), StruggleError>)
    ensures row.None? ==> r == Ok((false, []))
    ensures row.Some? && estimatedMinutes != 0 ==> r.Ok?
    ensures row.Some? && estimatedMinutes == 0 ==> (r.Err? <==> row.value.completion < 50)
    ensures r.Ok? ==> (r.value.0 <==> r.value.1 != [])
  {
    match row
    case None => Ok((false, []))
    case Some(p) =>
      if estimatedMinutes == 0 && p.completion < 50 then Err(ExpectedTimeUnbound)
      else Ok(StruggleRules(p, estimatedMinutes))
  }

  /** The rules as intended: the time-based checks apply only when the
      lesson has an estimate. */
  function StruggleRules(p: Progress, estimatedMinutes: int): (r: (bool, seq<StruggleReason>))
    ensures r.0 <==> r.1 != []
    ensures r.0 <==>
              (estimatedMinutes != 0 && p.timeSpentSeconds > estimatedMinutes * 60 * 2)
              || p.pauses > 10 || p.rewinds > 8
              || (estimatedMinutes != 0 && p.completion < 50 && p.timeSpentSeconds > estimatedMinutes * 60)
    ensures forall i :: 0 <= i < |r.1| ==> r.1[i].SlowProgress? ==> r.1[i].minutesTaken * 60 <= p.timeSpentSeconds
  {
    var expected := estimatedMinutes * 60;
    var reasons :=
      (if estimatedMinutes != 0 && p.timeSpentSeconds > expected * 2
       then [SlowProgress(p.timeSpentSeconds / 60, estimatedMinutes)] else [])
      + (if p.pauses > 10 then [HighPauses(p.pauses)] else [])
      + (if p.rewinds > 8 then [FrequentRewinds(p.rewinds)] else [])
      + (if estimatedMinutes != 0 && p.completion < 50 && p.timeSpentSeconds > expected then [LowCompletion] else []);
    (reasons != [], reasons)
  }

  /** Wherever the source does not fail, it agrees with the intended
      rules. */
  lemma DetectStrugglingAgrees(p: Progress, estimatedMinutes: int)
    requires DetectStruggling(Some(p), estimatedMinutes).Ok?
    ensures DetectStruggling(Some(p), estimatedMinutes).value == StruggleRules(p, estimatedMinutes)
  {
  }

  /** A lesson without an estimate and a learner below half completion
      makes the source fail. */
  lemma DetectStrugglingFailsWithoutEstimate()
    ensures DetectStruggling(Some(Progress(0, 10, 0, 0)), 0) == Err(ExpectedTimeUnbound)
  {
  }

  // ----- difficulty adjustment -----

  /** One level up at an average of 90 or more, one down below 60, within
      1..10; unchanged otherwise or with fewer than three recent attempts. */
  function AdjustDifficulty(current: int, attemptCount: nat, avgScore: real): (r: int)
    ensures attemptCount < 3 ==> r == current
    ensures attemptCount >= 3 && avgScore >= 90.0 ==> r == if current + 1 < 10 then current + 1 else 10
    ensures attemptCount >= 3 && avgScore < 60.0 ==> r == if current - 1 > 1 then current - 1 else 1
    ensures attemptCount >= 3 && 60.0 <= avgScore < 90.0 ==> r == current
    ensures 1 <= current <= 10 ==> 1 <= r <= 10
  {
    if attemptCount < 3 then current
    else if avgScore >= 90.0 then (if current + 1 < 10 then current + 1 else 10)
    else if avgScore >= 75.0 then current
    else if avgScore >= 60.0 then current
    else (if current - 1 > 1 then current - 1 else 1)
  }

  /** Better scores never lower the recommended difficulty. */
  lemma AdjustDifficultyMonotone(current: int, n: nat, a: real, b: real)
    requires 1 <= current <= 10 && a <= b
    ensures AdjustDifficulty(current, n, a) <= AdjustDifficulty(current, n, b)
  {
  }
}

=== FILE: skill_assessment.dfy ===
/** Skill estimation from assessments (services/skill_assessment.py): the
    answer checker, the diagnostic skill-level formula, the merge into the
    learner profile, the recency-weighted estimate from history and the
    per-skill breakdown of an attempt. */
module SkillAssessment {
  import opened Wrappers
  import opened Arith
  import opened Text
  import opened SkillLevels

  /** A submitted answer, as JSON gives it to Python. */
  datatype Value =
    | Null
    | Bool(b: bool)
    | Int(i: int)
    | Str(s: string)
    | StrList(items: seq<string>)

  /** Python truthiness. */
  predicate Truthy(v: Value) {
    match v
    case Null => false
    case Bool(b) => b
    case Int(i) => i != 0
    case Str(s) => s != []
    case StrList(items) => items != []
  }

  /** A string as Python's `repr` shows it inside a list: in double quotes
      when it holds a single quote and no double quote, else in single
      quotes (escapes are not modelled). */
  function Quoted(s: string): (r: string)
    ensures |r| == |s| + 2 && r[1..|s| + 1] == s
    ensures r[0] == r[|s| + 1] == (if '\'' in s && '"' !in s then '"' else '\'')
  {
    if '\'' in s && '"' !in s then "\"" + s + "\"" else "'" + s + "'"
  }

  function QuotedList(items: seq<string>): string {
    if items == [] then []
    else if |items| == 1 then Quoted(items[0])
    else Quoted(items[0]) + ", " + QuotedList(items[1..])
  }

  /** Python's `str(v)`. */
  function ToStr(v: Value): string {
    match v
    case Null => "None"
    case Bool(b) => if b then "True" else "False"
    case Int(i) => IntToString(i)
    case Str(s) => s
    case StrList(items) => "[" + QuotedList(items) + "]"
  }

  /** The stored answer key: the question type (absent means mcq), the
      single answer (`None` when the key has no `answer`, `Some(Null)` when
      it holds JSON null), the set of answers for multiple select and the
      accepted short answers. */
  datatype AnswerKey = AnswerKey(kind: Option<string>, answer: Option<Value>, answers: seq<Value>, accepted: seq<string>)

  /** `str(v).strip().lower()`. */
  function Normal(v: Value): string {
    Lower(Strip(ToStr(v)))
  }

  /** The options the learner picked: a list as its elements, anything else
      as a single option. */
  function Picked(u: Value): (r: set<Value>)
    ensures !u.StrList? ==> r == {u}
  {
    match u
    case StrList(items) => set i | 0 <= i < |items| :: Str(items[i])
    case _ => {u}
  }

  /** The member a Python set keeps for `v`: `True == 1` and `False == 0`
      hash alike, so each boolean stands for its integer. */
  function SetMember(v: Value): (r: Value)
    ensures !r.Bool?
    ensures !v.Bool? ==> r == v
  {
    match v
    case Bool(b) => Int(if b then 1 else 0)
    case _ => v
  }

  /** `set(xs)` as Python compares it. */
  function PySet(xs: set<Value>): set<Value> {
    set x | x in xs :: SetMember(x)
  }

  function LowerAll(xs: seq<string>): (r: seq<string>)
    ensures |r| == |xs| && forall i :: 0 <= i < |xs| ==> r[i] == Lower(xs[i])
  {
    seq(|xs|, i requires 0 <= i < |xs| => Lower(xs[i]))
  }

  /** `_check_answer`. */
  function CheckAnswer(u: Value, key: AnswerKey): (r: bool)
    ensures !Truthy(u) ==> !r
    ensures key.kind.GetOr("mcq") !in {"mcq", "multiple_select", "true_false", "short_answer"} ==> !r
    ensures Truthy(u) && key.kind.GetOr("mcq") == "true_false" ==> (r <==> key.answer.Some? && Truthy(key.answer.value))
    ensures Truthy(u) && key.kind.GetOr("mcq") == "multiple_select" ==>
              (r <==> PySet(Picked(u)) == PySet(set i | 0 <= i < |key.answers| :: key.answers[i]))
    ensures Truthy(u) && key.kind.GetOr("mcq") == "short_answer" ==>
              (r <==> exists i :: 0 <= i < |key.accepted| && Normal(u) == Lower(key.accepted[i]))
  {
    if !Truthy(u) then false
    else
      var kind := key.kind.GetOr("mcq");
      if kind == "mcq" then
        Normal(u) == Normal(key.answer.GetOr(Str("")))
      else if kind == "multiple_select" then
        PySet(Picked(u)) == PySet(set i | 0 <= i < |key.answers| :: key.answers[i])
      else if kind == "true_false" then
        key.answer.Some? && Truthy(key.answer.value)
      else if kind == "short_answer" then
        Normal(u) in LowerAll(key.accepted)
      else false
  }

  /** A multiple-choice answer is right exactly when it agrees with the key
      once both are trimmed and lower-cased. */
  lemma McqIgnoresCaseAndSpace(u: string, k: string)
    requires u != []
    ensures CheckAnswer(Str(u), AnswerKey(None, Some(Str(k)), [], [])) <==> Lower(Strip(u)) == Lower(Strip(k))
    ensures CheckAnswer(Str(u), AnswerKey(Some("mcq"), Some(Str(k)), [], [])) <==> Lower(Strip(u)) == Lower(Strip(k))
  {
  }

  /** Normalising an already normalised answer changes nothing. */
  lemma NormalIdempotent(s: string)
    ensures Lower(Strip(Lower(Strip(s)))) == Lower(Strip(s))
  {
    var t := Strip(s);
    StripIdempotent(s);
    LowerStripCommute(t);
    LowerIdempotent(t);
  }

  /** Surrounding whitespace and letter case never change an mcq verdict. */
  lemma McqNormalised(u: string, k: string)
    requires Strip(u) != []
    ensures CheckAnswer(Str(u), AnswerKey(None, Some(Str(k)), [], [])) ==
            CheckAnswer(Str(Lower(Strip(u))), AnswerKey(None, Some(Str(k)), [], []))
  {
    NormalIdempotent(u);
    assert |Lower(Strip(u))| == |Strip(u)|;
    McqVerdict(Str(u), AnswerKey(None, Some(Str(k)), [], []));
    McqVerdict(Str(Lower(Strip(u))), AnswerKey(None, Some(Str(k)), [], []));
  }

  /** How a truthy answer to a multiple-choice question is judged. */
  lemma McqVerdict(u: Value, key: AnswerKey)
    requires Truthy(u) && key.kind.GetOr("mcq") == "mcq"
    ensures CheckAnswer(u, key) <==> Normal(u) == Normal(key.answer.GetOr(Str("")))
  {
  }

  /** A single option answers a multiple-select question exactly when the
      key lists that option and nothing else. */
  lemma ScalarIsSingleton(x: string)
    requires x != []
    ensures CheckAnswer(Str(x), AnswerKey(Some("multiple_select"), None, [Str(x)], []))
    ensures !CheckAnswer(Str(x), AnswerKey(Some("multiple_select"), None, [Str(x), Str(x + "'")], []))
  {
    assert (set i | 0 <= i < 1 :: [Str(x)][i]) == {Str(x)} by {
      assert [Str(x)][0] == Str(x);
    }
    assert PySet({Str(x)}) == {Str(x)};
    var both := set i | 0 <= i < 2 :: [Str(x), Str(x + "'")][i];
    assert Str(x + "'") in both by {
      assert [Str(x), Str(x + "'")][1] == Str(x + "'");
    }
    assert Str(x + "'") in PySet(both) by {
      assert SetMember(Str(x + "'")) == Str(x + "'");
    }
    assert |x + "'"| != |x|;
  }

  /** A key whose `answer` is JSON null reads as `str(None)`: the answer
      "None" is right for it, and wrong when the key has no `answer`. */
  lemma NullKeyReadsNone()
    ensures CheckAnswer(Str("None"), AnswerKey(None, Some(Null), [], []))
    ensures !CheckAnswer(Str("None"), AnswerKey(None, None, [], []))
  {
    McqVerdict(Str("None"), AnswerKey(None, Some(Null), [], []));
    McqVerdict(Str("None"), AnswerKey(None, None, [], []));
    assert Normal(Str("")) == [];
  }

  /** `{True} == {1}`: a multiple-select answer `true` matches the key
      `[1]`, and `false` is not even considered, being falsy. */
  lemma TrueMatchesOne()
    ensures CheckAnswer(Bool(true), AnswerKey(Some("multiple_select"), None, [Int(1)], []))
    ensures !CheckAnswer(Bool(false), AnswerKey(Some("multiple_select"), None, [Int(0)], []))
  {
    assert (set i | 0 <= i < 1 :: [Int(1)][i]) == {Int(1)} by {
      assert [Int(1)][0] == Int(1);
    }
    assert PySet({Bool(true)}) == {Int(1)} by {
      assert SetMember(Bool(true)) == Int(1);
    }
    assert PySet({Int(1)}) == {Int(1)};
  }

  /** `str(["it's"])` is `["it's"]`: a string with a single quote in it is
      shown in double quotes. */
  lemma ReprSwitchesQuotes()
    ensures ToStr(StrList(["it's"])) == "[\"it's\"]"
  {
    assert '\'' in "it's" && '"' !in "it's";
  }

  // ----- diagnostic -----

  /** A question: its id, answer key, skill tags and difficulty. */
  datatype Question = Question(id: string, key: AnswerKey, skillTags: seq<string>, difficulty: int)

  /** One (skill tag, verdict, difficulty) record; a question produces one
      per tag, so a repeated tag counts twice. */
  datatype Event = Event(skill: string, correct: bool, difficulty: int)

  function EventsOf(q: Question, correct: bool): (r: seq<Event>)
    ensures |r| == |q.skillTags|
    ensures forall i :: 0 <= i < |r| ==> r[i] == Event(q.skillTags[i], correct, q.difficulty)
  {
    seq(|q.skillTags|, i requires 0 <= i < |q.skillTags| => Event(q.skillTags[i], correct, q.difficulty))
  }

  /** The answer given to a question, `None` when unanswered. */
  function AnswerFor(answers: map<string, Value>, id: string): Value {
    if id in answers then answers[id] else Null
  }

  /** Grade every question in order and emit its tag records. */
  function Events(questions: seq<Question>, answers: map<string, Value>): seq<Event> {
    if questions == [] then []
    else
      var q := questions[0];
      EventsOf(q, CheckAnswer(AnswerFor(answers, q.id), q.key)) + Events(questions[1..], answers)
  }

  datatype Stats = Stats(correct: nat, total: nat, difficultySum: int, maxDifficulty: int)

  const NoStats: Stats := Stats(0, 0, 0, 0)

  function Max(a: int, b: int): int { if a >= b then a else b }

  /** The stats of a skill after one more record of it. */
  function Bump(st: Stats, e: Event): (r: Stats)
    ensures r.total == st.total + 1
  {
    Stats(st.correct + (if e.correct then 1 else 0), st.total + 1,
          st.difficultySum + e.difficulty, Max(st.maxDifficulty, e.difficulty))
  }

  /** The running tally, built the way the source builds it: one dict entry
      per skill, created on first sight and bumped per record. */
  function Tally(events: seq<Event>): (r: Dict<Stats>)
    ensures DistinctKeys(r)
  {
    if events == [] then []
    else
      var prev := Tally(events[..|events| - 1]);
      var e := events[|events| - 1];
      Put(prev, e.skill, Bump(Get(prev, e.skill, NoStats), e))
  }

  /** Reference counts for one skill, record by record. */
  function StatsFor(events: seq<Event>, s: string): Stats {
    if events == [] then NoStats
    else
      var st := StatsFor(events[..|events| - 1], s);
      var e := events[|events| - 1];
      if e.skill != s then st else Bump(st, e)
  }

  predicate Mentions(events: seq<Event>, s: string) {
    exists i :: 0 <= i < |events| && events[i].skill == s
  }

  lemma MentionsSnoc(events: seq<Event>, s: string)
    requires events != []
    ensures Mentions(events, s) <==> Mentions(events[..|events| - 1], s) || events[|events| - 1].skill == s
  {
    var init := events[..|events| - 1];
    if Mentions(events, s) && events[|events| - 1].skill != s {
      var i :| 0 <= i < |events| && events[i].skill == s;
      assert init[i] == events[i];
    }
    if Mentions(init, s) {
      var i :| 0 <= i < |init| && init[i].skill == s;
      assert events[i] == init[i];
    }
  }

  /** The tally holds, for each skill, exactly its reference counts. */
  lemma {:induction false} TallyMatchesCounts(events: seq<Event>, s: string)
    ensures Get(Tally(events), s, NoStats) == StatsFor(events, s)
    decreases |events|
  {
    if events != [] {
      var init := events[..|events| - 1];
      var e := events[|events| - 1];
      var prev := Tally(init);
      TallyMatchesCounts(init, s);
      if e.skill == s {
        assert Get(Put(prev, s, Bump(Get(prev, s, NoStats), e)), s, NoStats) == Bump(Get(prev, s, NoStats), e);
      } else {
        assert Get(Put(prev, e.skill, Bump(Get(prev, e.skill, NoStats), e)), s, NoStats) == Get(prev, s, NoStats);
      }
    }
  }

  /** The tally has an entry exactly for the skills some record names. */
  lemma {:induction false} TallyKeys(events: seq<Event>, s: string)
    ensures HasKey(Tally(events), s) <==> Mentions(events, s)
    decreases |events|
  {
    if events != [] {
      var init := events[..|events| - 1];
      TallyKeys(init, s);
      MentionsSnoc(events, s);
    }
  }

  /** A skill's total counts its records, and it answers at most that many
      correctly. */
  lemma {:induction false} StatsBounds(events: seq<Event>, s: string)
    ensures StatsFor(events, s).correct <= StatsFor(events, s).total
    ensures StatsFor(events, s).total > 0 <==> Mentions(events, s)
    ensures StatsFor(events, s).maxDifficulty >= 0
    decreases |events|
  {
    if events != [] {
      StatsBounds(events[..|events| - 1], s);
      MentionsSnoc(events, s);
    }
  }

  /** `x` is a whole number of tenths. */
  predicate WholeTenths(x: real) {
    (x * 10.0).Floor as real == x * 10.0
  }

  /** Python's `round(x, 1)` on an exact value: to the nearest tenth, ties
      to the even tenth. */
  function Round1(x: real): (r: real)
    ensures -0.05 <= r - x <= 0.05
    ensures WholeTenths(r)
  {
    var t := x * 10.0;
    var f := t.Floor;
    var frac := t - f as real;
    var n := if frac < 0.5 then f else if frac > 0.5 then f + 1 else if f % 2 == 0 then f else f + 1;
    assert WholeTenths(n as real / 10.0) by {
      assert n as real / 10.0 * 10.0 == n as real;
    }
    n as real / 10.0
  }

  lemma Round1Monotone(x: real, y: real)
    requires x <= y
    ensures Round1(x) <= Round1(y)
  {
    var tx, ty := x * 10.0, y * 10.0;
    assert tx.Floor <= ty.Floor;
  }

  /** Full confidence from five answers on. */
  function Confidence(total: nat): (r: real)
    ensures 0.0 <= r <= 1.0
    ensures r == 1.0 <==> total >= 5
  {
    if total as real / 5.0 < 1.0 then total as real / 5.0 else 1.0
  }

  /** Accuracy times average difficulty times confidence, unrounded. */
  function RawLevel(st: Stats): real
    requires st.total > 0
  {
    var accuracy := st.correct as real / st.total as real;
    var avgDifficulty := st.difficultySum as real / st.total as real;
    accuracy * (avgDifficulty * Confidence(st.total))
  }

  /** `min(10, round(accuracy * avg_difficulty * confidence, 1))`. */
  function SkillLevel(st: Stats): (r: real)
    requires st.total > 0
    ensures r <= 10.0
  {
    var level := Round1(RawLevel(st));
    if level < 10.0 then level else 10.0
  }

  lemma RawLevelMonotone(c1: nat, c2: nat, total: nat, sum: int, m: int)
    requires c1 <= c2 <= total && total > 0 && sum >= 0
    ensures RawLevel(Stats(c1, total, sum, m)) <= RawLevel(Stats(c2, total, sum, m))
    ensures RawLevel(Stats(0, total, sum, m)) == 0.0
  {
    ShareTimesMonotone(c1 as real, c2 as real, total as real, sum as real, Confidence(total));
    RawLevelOf(c1, total, sum, m);
    RawLevelOf(c2, total, sum, m);
    RawLevelOf(0, total, sum, m);
  }

  /** A larger share of the same positive whole, times the same
      non-negative factor, is no smaller. */
  lemma ShareTimesMonotone(a: real, b: real, t: real, s: real, k: real)
    requires 0.0 <= a <= b && t > 0.0 && s >= 0.0 && k >= 0.0
    ensures a / t * (s / t * k) <= b / t * (s / t * k)
    ensures 0.0 / t * (s / t * k) == 0.0
  {
    var p := s / t * k;
    assert 0.0 <= p by {
      DivMonotone(0.0, s, t);
      MulMonotone(0.0, s / t, k);
    }
    DivMonotone(a, b, t);
    MulMonotone(a / t, b / t, p);
  }

  /** The raw level as a share of the attempts times a factor that does not
      depend on the number answered correctly. */
  lemma RawLevelOf(c: nat, total: nat, sum: int, m: int)
    requires total > 0
    ensures RawLevel(Stats(c, total, sum, m))
         == c as real / total as real * (sum as real / total as real * Confidence(total))
  {
  }

  /** With non-negative difficulties, more correct answers never lower the
      level, and no correct answer gives level 0. */
  lemma SkillLevelMonotone(c1: nat, c2: nat, total: nat, sum: int, m: int)
    requires c1 <= c2 <= total && total > 0 && sum >= 0
    ensures SkillLevel(Stats(c1, total, sum, m)) <= SkillLevel(Stats(c2, total, sum, m))
    ensures SkillLevel(Stats(0, total, sum, m)) == 0.0
  {
    RawLevelMonotone(c1, c2, total, sum, m);
    Round1Monotone(RawLevel(Stats(c1, total, sum, m)), RawLevel(Stats(c2, total, sum, m)));
    assert Round1(0.0) == 0.0;
  }

  /** Below level 5, or under 60% accuracy on questions of average
      difficulty 3 or less, a skill is a knowledge gap. */
  predicate IsGap(st: Stats)
    requires st.total > 0
  {
    SkillLevel(st) < 5.0
    || (st.difficultySum as real / st.total as real <= 3.0 && (st.correct as real / st.total as real) < 0.6)
  }

  /** Skill levels and gaps, in the order the skills were first seen. */
  function LevelsAndGaps(tally: Dict<Stats>): (r: (Levels, seq<string>))
    requires forall i :: 0 <= i < |tally| ==> tally[i].1.total > 0
    ensures |r.0| == |tally|
    ensures forall i :: 0 <= i < |tally| ==> r.0[i] == (tally[i].0, SkillLevel(tally[i].1))
    ensures forall s :: s in r.1 <==> exists i :: 0 <= i < |tally| && tally[i].0 == s && IsGap(tally[i].1)
  {
    if tally == [] then ([], [])
    else
      var rest := LevelsAndGaps(tally[1..]);
      assert forall i :: 1 <= i < |tally| ==> tally[1..][i - 1] == tally[i];
      var e := tally[0];
      ([(e.0, SkillLevel(e.1))] + rest.0, (if IsGap(e.1) then [e.0] else []) + rest.1)
  }

  /** `process_diagnostic_assessment` before the profile update: each
      skill some question names gets the level of its own records, and the
      gaps are the skills whose records make them a gap. */
  function Diagnose(questions: seq<Question>, answers: map<string, Value>): (r: (Levels, seq<string>))
    ensures var events := Events(questions, answers);
            forall s :: HasKey(r.0, s) <==> Mentions(events, s)
    ensures var events := Events(questions, answers);
            forall i :: 0 <= i < |r.0| ==>
              var st := StatsFor(events, r.0[i].0);
              st.total > 0 && r.0[i].1 == SkillLevel(st)
    ensures var events := Events(questions, answers);
            forall s :: s in r.1 <==> (var st := StatsFor(events, s); st.total > 0 && IsGap(st))
  {
    var events := Events(questions, answers);
    var tally := Tally(events);
    TallyPositive(events);
    var r := LevelsAndGaps(tally);
    forall s ensures HasKey(r.0, s) <==> Mentions(events, s) {
      TallyKeys(events, s);
      if HasKey(r.0, s) {
        var i :| 0 <= i < |r.0| && r.0[i].0 == s;
        assert tally[i].0 == s;
      }
      if HasKey(tally, s) {
        var i :| 0 <= i < |tally| && tally[i].0 == s;
        assert r.0[i].0 == s;
      }
    }
    forall i | 0 <= i < |r.0|
      ensures var st := StatsFor(events, r.0[i].0); st.total > 0 && r.0[i].1 == SkillLevel(st)
    {
      TallyEntry(events, i);
    }
    forall s ensures s in r.1 <==> (var st := StatsFor(events, s); st.total > 0 && IsGap(st)) {
      StatsBounds(events, s);
      TallyKeys(events, s);
      if s in r.1 {
        var i :| 0 <= i < |tally| && tally[i].0 == s && IsGap(tally[i].1);
        TallyEntry(events, i);
      }
      if StatsFor(events, s).total > 0 && IsGap(StatsFor(events, s)) {
        var i :| 0 <= i < |tally| && tally[i].0 == s;
        TallyEntry(events, i);
      }
    }
    r
  }

  /** Each tally entry carries its skill's reference counts. */
  lemma TallyEntry(events: seq<Event>, i: nat)
    requires i < |Tally(events)|
    ensures Tally(events)[i].1 == StatsFor(events, Tally(events)[i].0)
  {
    var t := Tally(events);
    TallyMatchesCounts(events, t[i].0);
  }

  /** Every entry of the tally has at least one record. */
  lemma TallyPositive(events: seq<Event>)
    ensures forall i :: 0 <= i < |Tally(events)| ==> Tally(events)[i].1.total > 0
  {
    var t := Tally(events);
    forall i | 0 <= i < |t| ensures t[i].1.total > 0 {
      TallyMatchesCounts(events, t[i].0);
      TallyKeys(events, t[i].0);
      assert HasKey(t, t[i].0);
      StatsBounds(events, t[i].0);
    }
  }

  // ----- profile merge -----

  /** `_update_learner_profile`: without a profile the new levels and gaps
      are stored as they are; otherwise each assessed skill keeps the higher
      of its old and new level and the gaps are replaced. */
  function MergeProfile(profile: Option<Levels>, levels: Levels, gaps: seq<string>): (r: (Levels, seq<string>))
    requires profile.Some? ==> DistinctKeys(profile.value)
    ensures r.1 == gaps
    ensures profile.None? ==> r.0 == levels
    ensures profile.Some? ==> r.0 == MergeLevels(profile.value, levels)
    ensures profile.Some? ==> forall i :: 0 <= i < |levels| ==>
              Get(r.0, levels[i].0, 0.0) >= levels[i].1
              && Get(r.0, levels[i].0, 0.0) >= Get(profile.value, levels[i].0, 0.0)
  {
    match profile
    case None => (levels, gaps)
    case Some(existing) =>
      forall i | 0 <= i < |levels| {
        MergeDominates(existing, levels, i);
      }
      (MergeLevels(existing, levels), gaps)
  }

  /** `_update_learner_profile` as stored. The merge updates the loaded
      `skill_levels` dict in place and assigns the same object back; the
      column is a plain `JSONB`, so the change tracking compares the dict
      with itself, finds nothing changed, and writes only the gaps. Only an
      empty dict, which `or {}` replaces by a fresh one, is written. */
  function MergeProfileAsWritten(profile: Option<Levels>, levels: Levels, gaps: seq<string>): (r: (Levels, seq<string>))
    requires profile.Some? ==> DistinctKeys(profile.value)
    ensures r.1 == gaps
    ensures profile.None? ==> r.0 == levels
    ensures profile.Some? && profile.value != [] ==> r.0 == profile.value
    ensures profile.Some? && profile.value == [] ==> r.0 == MergeLevels([], levels)
  {
    match profile
    case None => (levels, gaps)
    case Some(existing) => if existing == [] then (MergeLevels([], levels), gaps) else (existing, gaps)
  }

  /** A profile at python 3 assessed at python 7: the code as written keeps
      3 stored, where the merge raises it to 7. */
  lemma StoredLevelsNotRaised()
    ensures var existing, levels := [("python", 3.0)], [("python", 7.0)];
            Get(MergeProfileAsWritten(Some(existing), levels, []).0, "python", 0.0) == 3.0
            && Get(MergeProfile(Some(existing), levels, []).0, "python", 0.0) == 7.0
  {
    var existing, levels := [("python", 3.0)], [("python", 7.0)];
    MergeExact(existing, levels, 0);
  }

  /** Without a profile, or with an empty one, the code as written stores
      the merge. */
  lemma MergeProfileAgrees(profile: Option<Levels>, levels: Levels, gaps: seq<string>)
    requires profile.None? || profile.value == []
    ensures MergeProfileAsWritten(profile, levels, gaps) == MergeProfile(profile, levels, gaps)
  {
  }

  function MaxReal(a: real, b: real): real { if a >= b then a else b }

  /** Fold the new levels into the existing ones, skill by skill. */
  function MergeLevels(existing: Levels, levels: Levels): (r: Levels)
    requires DistinctKeys(existing)
    ensures DistinctKeys(r)
    ensures forall s :: HasKey(r, s) <==> HasKey(existing, s) || HasKey(levels, s)
    ensures forall s :: !HasKey(levels, s) ==> Get(r, s, 0.0) == Get(existing, s, 0.0)
    decreases |levels|
  {
    if levels == [] then existing
    else
      var e := levels[0];
      var next := Put(existing, e.0, MaxReal(Get(existing, e.0, 0.0), e.1));
      assert levels == [e] + levels[1..];
      forall s ensures HasKey(levels, s) <==> s == e.0 || HasKey(levels[1..], s) {
        if HasKey(levels, s) && s != e.0 {
          var i :| 0 <= i < |levels| && levels[i].0 == s;
          assert levels[1..][i - 1] == levels[i];
        }
        if HasKey(levels[1..], s) {
          var i :| 0 <= i < |levels[1..]| && levels[1..][i].0 == s;
          assert levels[i + 1] == levels[1..][i];
        }
      }
      MergeLevels(next, levels[1..])
  }

  /** After the merge an assessed skill's level is at least its old level
      and at least every new level reported for it. */
  lemma {:induction false} MergeDominates(existing: Levels, levels: Levels, i: nat)
    requires DistinctKeys(existing) && i < |levels|
    ensures Get(MergeLevels(existing, levels), levels[i].0, 0.0) >= levels[i].1
    ensures Get(MergeLevels(existing, levels), levels[i].0, 0.0) >= Get(existing, levels[i].0, 0.0)
    decreases |levels|
  {
    var e := levels[0];
    var next := Put(existing, e.0, MaxReal(Get(existing, e.0, 0.0), e.1));
    if i == 0 {
      MergeNeverLowers(next, levels[1..], e.0);
    } else {
      assert levels[1..][i - 1] == levels[i];
      MergeDominates(next, levels[1..], i - 1);
      if levels[i].0 != e.0 {
        assert Get(next, levels[i].0, 0.0) == Get(existing, levels[i].0, 0.0);
      }
    }
  }

  /** With distinct keys on both sides, an assessed skill ends up at
      exactly the higher of its old level and its new one. */
  lemma {:induction false} MergeExact(existing: Levels, levels: Levels, i: nat)
    requires DistinctKeys(existing) && DistinctKeys(levels) && i < |levels|
    ensures Get(MergeLevels(existing, levels), levels[i].0, 0.0) == MaxReal(Get(existing, levels[i].0, 0.0), levels[i].1)
    decreases |levels|
  {
    DistinctTail(levels);
    if i == 0 {
      MergeFirst(existing, levels);
    } else {
      var e, k, v := levels[0], levels[i].0, levels[i].1;
      var next := Put(existing, e.0, MaxReal(Get(existing, e.0, 0.0), e.1));
      assert levels[1..][i - 1] == levels[i];
      calc {
        Get(MergeLevels(existing, levels), k, 0.0);
        { MergeUnfold(existing, levels); }
        Get(MergeLevels(next, levels[1..]), k, 0.0);
        { MergeExact(next, levels[1..], i - 1); }
        MaxReal(Get(next, k, 0.0), v);
        { assert k != e.0; }
        MaxReal(Get(existing, k, 0.0), v);
      }
    }
  }

  /** One step of the merge: the first new level is folded in, then the
      rest. */
  lemma MergeUnfold(existing: Levels, levels: Levels)
    requires DistinctKeys(existing) && levels != []
    ensures var e := levels[0];
            MergeLevels(existing, levels) == MergeLevels(Put(existing, e.0, MaxReal(Get(existing, e.0, 0.0), e.1)), levels[1..])
  {
  }

  /** Distinct keys stay distinct in the tail, which never repeats the
      first key. */
  lemma DistinctTail(levels: Levels)
    requires DistinctKeys(levels) && levels != []
    ensures DistinctKeys(levels[1..])
    ensures !HasKey(levels[1..], levels[0].0)
  {
    var rest := levels[1..];
    forall a, b | 0 <= a < b < |rest| ensures rest[a].0 != rest[b].0 {
      assert rest[a] == levels[a + 1] && rest[b] == levels[b + 1];
    }
    forall j | 0 <= j < |rest| ensures rest[j].0 != levels[0].0 {
      assert rest[j] == levels[j + 1];
    }
  }

  /** A first key the rest never repeats ends at the higher of the two. */
  lemma MergeFirst(existing: Levels, levels: Levels)
    requires DistinctKeys(existing) && levels != [] && !HasKey(levels[1..], levels[0].0)
    ensures Get(MergeLevels(existing, levels), levels[0].0, 0.0) == MaxReal(Get(existing, levels[0].0, 0.0), levels[0].1)
  {
    var e := levels[0];
    var next := Put(existing, e.0, MaxReal(Get(existing, e.0, 0.0), e.1));
    assert MergeLevels(existing, levels) == MergeLevels(next, levels[1..]);
  }

  /** The merge never lowers a level. */
  lemma {:induction false} MergeNeverLowers(existing: Levels, levels: Levels, s: string)
    requires DistinctKeys(existing)
    ensures Get(MergeLevels(existing, levels), s, 0.0) >= Get(existing, s, 0.0)
    decreases |levels|
  {
    if levels != [] {
      var e := levels[0];
      var next := Put(existing, e.0, MaxReal(Get(existing, e.0, 0.0), e.1));
      MergeNeverLowers(next, levels[1..], s);
    }
  }

  // ----- history -----

  /** The scores for `skill` in the attempts, most recent first; an
      attempt without `skill_scores` or without the skill contributes
      nothing. */
  function ScoresFor(attempts: seq<Levels>, skill: string): (r: seq<real>)
    ensures |r| <= |attempts|
  {
    if attempts == [] then []
    else (if HasKey(attempts[0], skill) then [Get(attempts[0], skill, 0.0)] else []) + ScoresFor(attempts[1..], skill)
  }

  /** Harmonic weights: the i-th score (from 0) weighs 1/(i+1). */
  function Weight(i: nat): (w: real)
    ensures w > 0.0
  {
    1.0 / (i + 1) as real
  }

  function WeightedSum(scores: seq<real>, from: nat): real
    decreases |scores|
  {
    if scores == [] then 0.0 else scores[0] * Weight(from) + WeightedSum(scores[1..], from + 1)
  }

  function WeightTotal(n: nat, from: nat): (r: real)
    ensures n > 0 ==> r > 0.0
    ensures n == 0 ==> r == 0.0
  {
    if n == 0 then 0.0 else Weight(from) + WeightTotal(n - 1, from + 1)
  }

  function Minimum(xs: seq<real>): (m: real)
    requires xs != []
    ensures forall i :: 0 <= i < |xs| ==> m <= xs[i]
  {
    if |xs| == 1 then xs[0] else var m := Minimum(xs[1..]); if xs[0] <= m then xs[0] else m
  }

  function Maximum(xs: seq<real>): (m: real)
    requires xs != []
    ensures forall i :: 0 <= i < |xs| ==> xs[i] <= m
  {
    if |xs| == 1 then xs[0] else var m := Maximum(xs[1..]); if xs[0] >= m then xs[0] else m
  }

  /** Both sums split into the first score's share and the rest. */
  lemma WeightedSumHead(scores: seq<real>, from: nat)
    requires scores != []
    ensures WeightedSum(scores, from) == scores[0] * Weight(from) + WeightedSum(scores[1..], from + 1)
    ensures WeightTotal(|scores|, from) == Weight(from) + WeightTotal(|scores[1..]|, from + 1)
  {
  }

  /** One step of the weighted-sum bounds: `sum` adds `x` at weight `w` to
      a tail sum `y` of weight `wt`. */
  lemma SplitBound(lo: real, x: real, w: real, y: real, wt: real, total: real, sum: real)
    requires lo <= x && w >= 0.0 && lo * wt <= y
    requires total == w + wt && sum == x * w + y
    ensures lo * total <= sum
  {
    MulMonotone(lo, x, w);
  }

  lemma SplitBoundUpper(hi: real, x: real, w: real, y: real, wt: real, total: real, sum: real)
    requires x <= hi && w >= 0.0 && y <= hi * wt
    requires total == w + wt && sum == x * w + y
    ensures sum <= hi * total
  {
    MulMonotone(x, hi, w);
  }

  /** A weighted sum is at least the smallest score times the total
      weight. */
  lemma {:induction false} WeightedSumAbove(scores: seq<real>, from: nat, lo: real)
    requires forall i :: 0 <= i < |scores| ==> lo <= scores[i]
    ensures lo * WeightTotal(|scores|, from) <= WeightedSum(scores, from)
    decreases |scores|
  {
    if scores != [] {
      TailBounds(scores, lo, scores[0]);
      WeightedSumAbove(scores[1..], from + 1, lo);
      AboveStep(scores, from, lo);
    }
  }


  /** A weighted sum is at most the largest score times the total weight. */
  lemma {:induction false} WeightedSumBelow(scores: seq<real>, from: nat, hi: real)
    requires forall i :: 0 <= i < |scores| ==> scores[i] <= hi
    ensures WeightedSum(scores, from) <= hi * WeightTotal(|scores|, from)
    decreases |scores|
  {
    if scores != [] {
      TailBounds(scores, scores[0], hi);
      WeightedSumBelow(scores[1..], from + 1, hi);
      BelowStep(scores, from, hi);
    }
  }

  /** The lower bound carries from the tail to the whole sequence. */
  lemma AboveStep(scores: seq<real>, from: nat, lo: real)
    requires scores != [] && lo <= scores[0]
    requires lo * WeightTotal(|scores[1..]|, from + 1) <= WeightedSum(scores[1..], from + 1)
    ensures lo * WeightTotal(|scores|, from) <= WeightedSum(scores, from)
  {
    WeightedSumHead(scores, from);
    SplitBound(lo, scores[0], Weight(from), WeightedSum(scores[1..], from + 1), WeightTotal(|scores[1..]|, from + 1),
               WeightTotal(|scores|, from), WeightedSum(scores, from));
  }

  /** The upper bound carries from the tail to the whole sequence. */
  lemma BelowStep(scores: seq<real>, from: nat, hi: real)
    requires scores != [] && scores[0] <= hi
    requires WeightedSum(scores[1..], from + 1) <= hi * WeightTotal(|scores[1..]|, from + 1)
    ensures WeightedSum(scores, from) <= hi * WeightTotal(|scores|, from)
  {
    WeightedSumHead(scores, from);
    SplitBoundUpper(hi, scores[0], Weight(from), WeightedSum(scores[1..], from + 1), WeightTotal(|scores[1..]|, from + 1),
                    WeightTotal(|scores|, from), WeightedSum(scores, from));
  }

  /** Bounds every score keeps, the scores after the first keep too. */
  lemma TailBounds(scores: seq<real>, lo: real, hi: real)
    requires scores != []
    ensures (forall i :: 0 <= i < |scores| ==> lo <= scores[i]) ==> forall i :: 0 <= i < |scores[1..]| ==> lo <= scores[1..][i]
    ensures (forall i :: 0 <= i < |scores| ==> scores[i] <= hi) ==> forall i :: 0 <= i < |scores[1..]| ==> scores[1..][i] <= hi
  {
  }


  /** At most ten attempts are read, most recent first. */
  const HistoryLimit: nat := 10

  /** `calculate_skill_from_history`: `None` without attempts or without a
      score for the skill; otherwise the weighted mean score on a 10-point
      scale, rounded to a tenth, which stays within the range of the
      scores. */
  function SkillFromHistory(attempts: seq<Levels>, skill: string): (r: Option<real>)
    ensures var recent := if |attempts| <= HistoryLimit then attempts else attempts[..HistoryLimit];
            r.None? <==> ScoresFor(recent, skill) == []
    ensures r.Some? ==>
              var recent := if |attempts| <= HistoryLimit then attempts else attempts[..HistoryLimit];
              var scores := ScoresFor(recent, skill);
              Minimum(scores) * 10.0 - 0.05 <= r.value <= Maximum(scores) * 10.0 + 0.05
  {
    var recent := if |attempts| <= HistoryLimit then attempts else attempts[..HistoryLimit];
    var scores := ScoresFor(recent, skill);
    if scores == [] then None
    else
      var mean := WeightedMean(scores);
      WeightedMeanBounds(scores);
      Some(Round1(mean * 10.0))
  }

  /** Each score weighted by `1/(i+1)` for its position `i`, most recent
      first, over the total weight. */
  function WeightedMean(scores: seq<real>): real
    requires scores != []
  {
    WeightedSum(scores, 0) / WeightTotal(|scores|, 0)
  }

  /** The weighted mean lies between the smallest and the largest score. */
  lemma WeightedMeanBetween(scores: seq<real>)
    requires scores != []
    ensures Minimum(scores) <= WeightedMean(scores) <= Maximum(scores)
  {
    var sum, weight := WeightedSum(scores, 0), WeightTotal(|scores|, 0);
    var lo, hi := Minimum(scores), Maximum(scores);
    assert lo * weight <= sum by { WeightedSumAbove(scores, 0, lo); }
    assert sum <= hi * weight by { WeightedSumBelow(scores, 0, hi); }
    MeanBounds(sum, weight, lo, hi);
  }

  /** The weighted mean on the 10-point scale, rounded, stays within the
      range of the scores, give or take the rounding. */
  lemma WeightedMeanBounds(scores: seq<real>)
    requires scores != []
    ensures var r := Round1(WeightedMean(scores) * 10.0);
            Minimum(scores) * 10.0 - 0.05 <= r <= Maximum(scores) * 10.0 + 0.05
  {
    WeightedMeanBetween(scores);
    ScaledRoundBounds(WeightedMean(scores), Minimum(scores), Maximum(scores));
  }

  /** A value between `lo` and `hi`, scaled by ten and rounded, lies
      between the scaled bounds give or take the rounding. */
  lemma ScaledRoundBounds(mean: real, lo: real, hi: real)
    requires lo <= mean <= hi
    ensures lo * 10.0 - 0.05 <= Round1(mean * 10.0) <= hi * 10.0 + 0.05
  {
  }

  /** The newest score counts most: one attempt at 0.9 after one at 0.4
      gives 7.3, not the plain mean 6.5. */
  lemma RecentScoreWeighsMore()
    ensures SkillFromHistory([[("sql", 0.9)], [("sql", 0.4)]], "sql") == Some(7.3)
  {
    var a := [[("sql", 0.9)], [("sql", 0.4)]];
    assert HasKey(a[0], "sql") by { assert a[0][0].0 == "sql"; }
    assert HasKey(a[1], "sql") by { assert a[1][0].0 == "sql"; }
    assert ScoresFor(a, "sql") == [0.9, 0.4] by {
      assert a[1..] == [a[1]];
      assert ScoresFor(a[1..][1..], "sql") == [];
    }
    assert WeightedSum([0.9, 0.4], 0) == 0.9 + 0.4 * 0.5 by {
      assert [0.9, 0.4][1..] == [0.4];
    }
    assert Round1(1.1 / 1.5 * 10.0) == 7.3 by {
      assert (1.1 / 1.5 * 10.0 * 10.0).Floor == 73;
    }
  }

  // ----- breakdown -----

  datatype Breakdown = Breakdown(correct: nat, total: nat, difficultySum: int, accuracy: real, avgDifficulty: real)

  function RatioOrZero(a: real, total: nat): real {
    if total > 0 then a / total as real else 0.0
  }

  /** Accuracy is correct over total and the average difficulty is the
      difficulty sum over total; both ratios are 0 without answers. */
  predicate SoundBreakdown(b: Breakdown) {
    && b.correct <= b.total
    && (b.total == 0 ==> b.accuracy == 0.0 && b.avgDifficulty == 0.0)
    && (b.total > 0 ==> b.accuracy * b.total as real == b.correct as real)
    && (b.total > 0 ==> b.avgDifficulty * b.total as real == b.difficultySum as real)
    && 0.0 <= b.accuracy <= 1.0
  }

  function BreakdownOf(st: Stats): (r: Breakdown)
    requires st.correct <= st.total
    ensures SoundBreakdown(r)
    ensures r.correct == st.correct && r.total == st.total && r.difficultySum == st.difficultySum
  {
    Breakdown(st.correct, st.total, st.difficultySum,
              RatioOrZero(st.correct as real, st.total),
              RatioOrZero(st.difficultySum as real, st.total))
  }

  function Breakdowns(tally: Dict<Stats>): (r: Dict<Breakdown>)
    requires forall i :: 0 <= i < |tally| ==> tally[i].1.correct <= tally[i].1.total
    ensures |r| == |tally|
    ensures forall i :: 0 <= i < |r| ==> r[i].0 == tally[i].0 && r[i].1 == BreakdownOf(tally[i].1)
  {
    if tally == [] then []
    else
      assert forall i :: 1 <= i < |tally| ==> tally[1..][i - 1] == tally[i];
      [(tally[0].0, BreakdownOf(tally[0].1))] + Breakdowns(tally[1..])
  }

  /** Every tally entry has at most as many correct answers as answers. */
  lemma TallyConsistent(events: seq<Event>)
    ensures forall i :: 0 <= i < |Tally(events)| ==> Tally(events)[i].1.correct <= Tally(events)[i].1.total
  {
    var t := Tally(events);
    forall i | 0 <= i < |t| ensures t[i].1.correct <= t[i].1.total {
      TallyMatchesCounts(events, t[i].0);
      StatsBounds(events, t[i].0);
    }
  }

  /** `get_skill_breakdown`: the tally of a stored attempt with accuracy and
      average difficulty, or an empty result when the attempt is missing. */
  function SkillBreakdown(found: bool, questions: seq<Question>, answers: map<string, Value>): (r: Dict<Breakdown>)
    ensures !found ==> r == []
    ensures found ==> |r| == |Tally(Events(questions, answers))|
    ensures found ==> forall s :: HasKey(r, s) <==> Mentions(Events(questions, answers), s)
    ensures forall i :: 0 <= i < |r| ==> SoundBreakdown(r[i].1)
    ensures found ==> forall i :: 0 <= i < |r| ==>
              var st := StatsFor(Events(questions, answers), r[i].0);
              r[i].1.correct == st.correct && r[i].1.total == st.total && r[i].1.difficultySum == st.difficultySum
                && st.total > 0
  {
    if !found then []
    else
      var events := Events(questions, answers);
      TallyConsistent(events);
      var r := Breakdowns(Tally(events));
      TallyPositive(events);
      forall i | 0 <= i < |r|
        ensures var st := StatsFor(events, r[i].0);
                r[i].1.correct == st.correct && r[i].1.total == st.total && r[i].1.difficultySum == st.difficultySum
                && st.total > 0
      {
        TallyEntry(events, i);
      }
      forall s ensures HasKey(r, s) <==> Mentions(events, s) {
        TallyKeys(events, s);
        if HasKey(r, s) {
          var i :| 0 <= i < |r| && r[i].0 == s;
          assert Tally(events)[i].0 == s;
        }
        if HasKey(Tally(events), s) {
          var i :| 0 <= i < |Tally(events)| && Tally(events)[i].0 == s;
          assert r[i].0 == s;
        }
      }
      r
  }
}

=== FILE: skill_gaps.dfy ===
/** Skill-gap analysis (services/ai_recommendations.py, `SkillGapAnalyzer`):
    how far the learner is from each target skill, their strengths, two
    kinds of advice and an overall readiness figure. */
module SkillGaps {
  import opened Wrappers
  import opened Text
  import opened SkillLevels
  import GreedyPath

  /** Level 7 and above counts as proficient. */
  const Proficient: real := 7.0

  /** The gap's priority; its size (large, medium, small) follows the same
      thresholds. */
  datatype Priority = High | Medium | Low

  datatype Gap = Gap(skill: string, currentLevel: real, priority: Priority)

  function PriorityRank(p: Priority): nat {
    match p
    case High => 0
    case Medium => 1
    case Low => 2
  }

  /** Below 3 is a high-priority gap, below 7 a medium one, otherwise low. */
  function Classify(level: real): (p: Priority)
    ensures p == High <==> level < 3.0
    ensures p == Medium <==> 3.0 <= level < Proficient
    ensures p == Low <==> level >= Proficient
  {
    if level < 3.0 then High else if level < Proficient then Medium else Low
  }

  /** A higher level never gives a more urgent priority. */
  lemma ClassifyMonotone(a: real, b: real)
    requires a <= b
    ensures PriorityRank(Classify(a)) <= PriorityRank(Classify(b))
  {
  }

  /** One gap per target skill, in the order the target set is walked; a
      skill the profile does not rate counts as level 0. */
  function Gaps(levels: Levels, targets: seq<string>): (r: seq<Gap>)
    ensures |r| == |targets|
    ensures forall i :: 0 <= i < |r| ==>
              r[i].skill == targets[i]
              && r[i].currentLevel == Get(levels, targets[i], 0.0)
              && r[i].priority == Classify(r[i].currentLevel)
  {
    seq(|targets|, i requires 0 <= i < |targets| =>
      Gap(targets[i], Get(levels, targets[i], 0.0), Classify(Get(levels, targets[i], 0.0))))
  }

  /** The gaps of one priority, in their original order. */
  function WithPriority(gaps: seq<Gap>, p: Priority): (r: seq<Gap>)
    ensures forall i :: 0 <= i < |r| ==> r[i].priority == p
  {
    if gaps == [] then []
    else
      assert gaps == [gaps[0]] + gaps[1..];
      (if gaps[0].priority == p then [gaps[0]] else []) + WithPriority(gaps[1..], p)
  }

  /** `sorted(gaps, key=priority rank)`: high, then medium, then low, each
      group in its original order. */
  function SortByPriority(gaps: seq<Gap>): (r: seq<Gap>)
    ensures multiset(r) == multiset(gaps)
    ensures forall a, b :: 0 <= a < b < |r| ==> PriorityRank(r[a].priority) <= PriorityRank(r[b].priority)
    ensures forall p :: WithPriority(r, p) == WithPriority(gaps, p)
  {
    var h, m, l := WithPriority(gaps, High), WithPriority(gaps, Medium), WithPriority(gaps, Low);
    PartitionMultiset(gaps);
    GroupsInOrder(h, m, l);
    forall p ensures WithPriority(h + m + l, p) == WithPriority(gaps, p) {
      GroupsFilter(h, m, l, p);
    }
    h + m + l
  }

  lemma GroupsInOrder(h: seq<Gap>, m: seq<Gap>, l: seq<Gap>)
    requires forall i :: 0 <= i < |h| ==> h[i].priority == High
    requires forall i :: 0 <= i < |m| ==> m[i].priority == Medium
    requires forall i :: 0 <= i < |l| ==> l[i].priority == Low
    ensures var r := h + m + l;
            forall a, b :: 0 <= a < b < |r| ==> PriorityRank(r[a].priority) <= PriorityRank(r[b].priority)
  {
    var r := h + m + l;
    forall a, b | 0 <= a < b < |r|
      ensures PriorityRank(r[a].priority) <= PriorityRank(r[b].priority)
    {
      if b < |h| {
      } else if b < |h| + |m| {
        assert r[b] == m[b - |h|];
      } else {
        assert r[b] == l[b - |h| - |m|];
      }
    }
  }

  lemma GroupsFilter(h: seq<Gap>, m: seq<Gap>, l: seq<Gap>, p: Priority)
    requires forall i :: 0 <= i < |h| ==> h[i].priority == High
    requires forall i :: 0 <= i < |m| ==> m[i].priority == Medium
    requires forall i :: 0 <= i < |l| ==> l[i].priority == Low
    ensures WithPriority(h + m + l, p) == match p case High => h case Medium => m case Low => l
  {
    WithPriorityAppend(h + m, l, p);
    WithPriorityAppend(h, m, p);
    WithPriorityOfGroup(h, High, p);
    WithPriorityOfGroup(m, Medium, p);
    WithPriorityOfGroup(l, Low, p);
  }

  lemma {:induction false} PartitionMultiset(gaps: seq<Gap>)
    ensures multiset(WithPriority(gaps, High) + WithPriority(gaps, Medium) + WithPriority(gaps, Low)) == multiset(gaps)
  {
    if gaps != [] {
      var t := gaps[1..];
      PartitionMultiset(t);
      assert gaps == [gaps[0]] + t;
      var h, m, l := WithPriority(t, High), WithPriority(t, Medium), WithPriority(t, Low);
      match gaps[0].priority
      case High =>
        assert WithPriority(gaps, High) == [gaps[0]] + h;
        assert WithPriority(gaps, Medium) == m;
        assert WithPriority(gaps, Low) == l;
      case Medium =>
        assert WithPriority(gaps, High) == h;
        assert WithPriority(gaps, Medium) == [gaps[0]] + m;
        assert WithPriority(gaps, Low) == l;
      case Low =>
        assert WithPriority(gaps, High) == h;
        assert WithPriority(gaps, Medium) == m;
        assert WithPriority(gaps, Low) == [gaps[0]] + l;
    }
  }

  lemma {:induction false} WithPriorityAppend(a: seq<Gap>, b: seq<Gap>, p: Priority)
    ensures WithPriority(a + b, p) == WithPriority(a, p) + WithPriority(b, p)
    decreases |a|
  {
    if a == [] {
      assert a + b == b;
    } else {
      var ab := a + b;
      assert ab[0] == a[0];
      assert ab[1..] == a[1..] + b;
      WithPriorityAppend(a[1..], b, p);
    }
  }

  /** Filtering a group whose members all have priority `q`: by `q` it is
      kept whole, by any other priority it empties. */
  lemma {:induction false} WithPriorityOfGroup(group: seq<Gap>, q: Priority, p: Priority)
    requires forall i :: 0 <= i < |group| ==> group[i].priority == q
    ensures WithPriority(group, p) == if p == q then group else []
  {
    if group != [] {
      WithPriorityOfGroup(group[1..], q, p);
      assert group == [group[0]] + group[1..];
    }
  }

  /** Skills at proficient level or above, in the profile's order. */
  function Strengths(levels: Levels): (r: Levels)
    ensures forall i :: 0 <= i < |r| ==> r[i].1 >= Proficient && r[i] in levels
    ensures forall i :: 0 <= i < |levels| && levels[i].1 >= Proficient ==> levels[i] in r
  {
    if levels == [] then []
    else
      assert levels == [levels[0]] + levels[1..];
      (if levels[0].1 >= Proficient then [levels[0]] else []) + Strengths(levels[1..])
  }

  datatype Recommendation =
    | FocusArea(message: string, skills: seq<string>)
    | LeverageStrength(message: string, skills: seq<string>)

  function Take<T>(s: seq<T>, n: nat): (r: seq<T>)
    ensures r == if |s| <= n then s else s[..n]
  {
    if |s| <= n then s else s[..n]
  }

  function SkillsOf(gaps: seq<Gap>): (r: seq<string>)
    ensures |r| == |gaps| && forall i :: 0 <= i < |r| ==> r[i] == gaps[i].skill
  {
    seq(|gaps|, i requires 0 <= i < |gaps| => gaps[i].skill)
  }

  function NamesOf(levels: Levels): (r: seq<string>)
    ensures |r| == |levels| && forall i :: 0 <= i < |r| ==> r[i] == levels[i].0
  {
    seq(|levels|, i requires 0 <= i < |levels| => levels[i].0)
  }

  /** A focus-area advice listing all high-priority gaps (naming the first
      three) when there is one, then a leverage-strength advice listing all
      strengths (naming the first two) when there is one. */
  function Recommendations(gaps: seq<Gap>, strengths: Levels): (r: seq<Recommendation>)
    ensures |r| <= 2
    ensures WithPriority(gaps, High) != [] <==> |r| > 0 && r[0].FocusArea?
    ensures strengths != [] <==> |r| > 0 && r[|r| - 1].LeverageStrength?
    ensures forall i :: 0 <= i < |r| && r[i].FocusArea? ==> r[i].skills == SkillsOf(WithPriority(gaps, High))
    ensures forall i :: 0 <= i < |r| && r[i].LeverageStrength? ==> r[i].skills == NamesOf(strengths)
  {
    var high := WithPriority(gaps, High);
    (if high != [] then
       [FocusArea("Focus on foundational skills: " + Join(", ", Take(SkillsOf(high), 3)), SkillsOf(high))]
     else [])
    + (if strengths != [] then
         [LeverageStrength("Build on your strengths in " + Join(", ", Take(NamesOf(strengths), 2)), NamesOf(strengths))]
       else [])
  }

  datatype ReadinessStatus = Ready | Progressing | BuildingFoundation

  /** Overall readiness; the counts are reported only when there are target
      skills. */
  datatype Readiness = Readiness(percentage: int, status: ReadinessStatus, counts: Option<(nat, nat)>)

  /** How many targets the learner is proficient in. */
  function Acquired(levels: Levels, targets: seq<string>): (r: nat)
    ensures r <= |targets|
    ensures r == |targets| <==> forall i :: 0 <= i < |targets| ==> Get(levels, targets[i], 0.0) >= Proficient
  {
    if targets == [] then 0
    else
      assert forall i :: 1 <= i < |targets| ==> targets[1..][i - 1] == targets[i];
      (if Get(levels, targets[0], 0.0) >= Proficient then 1 else 0) + Acquired(levels, targets[1..])
  }

  function StatusFor(percentage: int): (s: ReadinessStatus)
    ensures s == Ready <==> percentage >= 80
    ensures s == Progressing <==> 50 <= percentage < 80
  {
    if percentage >= 80 then Ready else if percentage >= 50 then Progressing else BuildingFoundation
  }

  /** With no targets the learner is fully ready. Otherwise the percentage of
      targets at proficient level, rounded down, with 80 and 50 as the
      thresholds of the status. */
  function CalculateReadiness(levels: Levels, targets: seq<string>): (r: Readiness)
    ensures 0 <= r.percentage <= 100
    ensures targets == [] ==> r == Readiness(100, Ready, None)
    ensures targets != [] ==> r.counts == Some((Acquired(levels, targets), |targets|))
    ensures targets != [] ==>
              r.percentage * |targets| <= 100 * Acquired(levels, targets) < (r.percentage + 1) * |targets|
    ensures r.percentage == 100 <==> forall i :: 0 <= i < |targets| ==> Get(levels, targets[i], 0.0) >= Proficient
    ensures r.status == StatusFor(r.percentage)
  {
    if targets == [] then Readiness(100, Ready, None)
    else
      var acquired := Acquired(levels, targets);
      var pct := GreedyPath.Percent(acquired, |targets|);
      Readiness(pct, StatusFor(pct), Some((acquired, |targets|)))
  }

  datatype Analysis = Analysis(
    targets: seq<string>,
    gaps: seq<Gap>,
    strengths: Levels,
    recommendations: seq<Recommendation>,
    readiness: Readiness)

  /** The endpoint: an error without a profile, otherwise gaps sorted by
      priority, strengths, advice and readiness. Recommendations are built
      from the gaps before sorting. */
  function AnalyzeSkillGaps(profile: Option<Levels>, targets: seq<string>): (r: Result<Analysis, string>)
    ensures profile.None? <==> r.Err?
    ensures r.Ok? ==> multiset(r.value.gaps) == multiset(Gaps(profile.value, targets))
    ensures r.Ok? ==> forall a, b :: 0 <= a < b < |r.value.gaps| ==>
              PriorityRank(r.value.gaps[a].priority) <= PriorityRank(r.value.gaps[b].priority)
    ensures r.Ok? ==> r.value.readiness == CalculateReadiness(profile.value, targets)
    ensures r.Ok? ==> r.value.targets == targets
    ensures r.Ok? ==> r.value.strengths == Strengths(profile.value)
    ensures r.Ok? ==> r.value.recommendations
                      == Recommendations(Gaps(profile.value, targets), Strengths(profile.value))
  {
    match profile
    case None => Err("User not found")
    case Some(levels) =>
      var gaps := Gaps(levels, targets);
      var strengths := Strengths(levels);
      Ok(Analysis(targets, SortByPriority(gaps), strengths, Recommendations(gaps, strengths),
                  CalculateReadiness(levels, targets)))
  }
}

=== FILE: skill_levels.dfy ===
/** A learner profile's `skill_levels`: a JSON object from skill name to
    proficiency, which Python reads as an insertion-ordered dict. It is
    modelled as a list of (skill, level) pairs with distinct skills. */
module SkillLevels {

  type Levels = seq<(string, real)>

  /** Any insertion-ordered dict keyed by strings. */
  type Dict<V> = seq<(string, V)>

  predicate DistinctKeys<V>(levels: Dict<V>) {
    forall a, b :: 0 <= a < b < |levels| ==> levels[a].0 != levels[b].0
  }

  predicate HasKey<V>(levels: Dict<V>, k: string) {
    exists i :: 0 <= i < |levels| && levels[i].0 == k
  }

  /** `levels.get(k, default)`. */
  function Get<V>(levels: Dict<V>, k: string, default: V): (r: V)
    ensures !HasKey(levels, k) ==> r == default
    ensures forall i :: 0 <= i < |levels| && levels[i].0 == k && DistinctKeys(levels) ==> r == levels[i].1
    decreases |levels|
  {
    if levels == [] then default
    else if levels[0].0 == k then levels[0].1
    else
      var r := Get(levels[1..], k, default);
      assert forall i :: 1 <= i < |levels| ==> levels[1..][i - 1] == levels[i];
      r
  }

  /** The set of skills that have a level. */
  function Keys<V>(levels: Dict<V>): (r: set<string>)
    ensures forall k :: k in r <==> HasKey(levels, k)
  {
    set i | 0 <= i < |levels| :: levels[i].0
  }

  /** Where skill `k` sits. */
  function IndexOf<V>(levels: Dict<V>, k: string): (i: nat)
    requires HasKey(levels, k)
    ensures i < |levels| && levels[i].0 == k
  {
    if levels[0].0 == k then 0
    else
      assert forall i :: 1 <= i < |levels| ==> levels[1..][i - 1] == levels[i];
      assert HasKey(levels[1..], k) by {
        var i :| 0 <= i < |levels| && levels[i].0 == k;
        assert levels[1..][i - 1] == levels[i];
      }
      IndexOf(levels[1..], k) + 1
  }

  /** `levels[k] = v`: overwrite in place when the skill is present, append
      otherwise; every other skill keeps its level and its place. */
  function Put<V(!new)>(levels: Dict<V>, k: string, v: V): (r: Dict<V>)
    requires DistinctKeys(levels)
    ensures DistinctKeys(r)
    ensures forall d :: Get(r, k, d) == v
    ensures forall j :: HasKey(r, j) <==> HasKey(levels, j) || j == k
    ensures forall j, d :: j != k ==> Get(r, j, d) == Get(levels, j, d)
    ensures HasKey(levels, k) ==> |r| == |levels|
    ensures !HasKey(levels, k) ==> r == levels + [(k, v)]
  {
    if HasKey(levels, k) then
      var i := IndexOf(levels, k);
      var r := levels[i := (k, v)];
      assert DistinctKeys(r);
      assert r[i] == (k, v);
      forall j ensures HasKey(r, j) <==> HasKey(levels, j) || j == k {
        if HasKey(levels, j) && j != k {
          var m := IndexOf(levels, j);
          assert r[m] == levels[m];
        }
        if HasKey(r, j) && j != k {
          var m :| 0 <= m < |r| && r[m].0 == j;
          assert levels[m] == r[m];
        }
      }
      forall j, d | j != k ensures Get(r, j, d) == Get(levels, j, d) {
        if HasKey(levels, j) {
          var m := IndexOf(levels, j);
          assert r[m] == levels[m];
        } else {
          assert !HasKey(r, j);
        }
      }
      r
    else
      var r := levels + [(k, v)];
      assert r[|levels|].0 == k;
      assert DistinctKeys(r);
      forall j ensures HasKey(r, j) <==> HasKey(levels, j) || j == k {
        if HasKey(levels, j) {
          var m := IndexOf(levels, j);
          assert r[m] == levels[m];
        }
        if HasKey(r, j) && j != k {
          var m :| 0 <= m < |r| && r[m].0 == j;
          assert levels[m] == r[m];
        }
      }
      forall j, d | j != k ensures Get(r, j, d) == Get(levels, j, d) {
        if HasKey(levels, j) {
          var m := IndexOf(levels, j);
          assert r[m] == levels[m];
        } else {
          assert !HasKey(r, j);
        }
      }
      r
  }

  /** The entries of several dicts, one dict after another. */
  function Flatten<V>(dicts: seq<Dict<V>>): seq<(string, V)> {
    if dicts == [] then [] else dicts[0] + Flatten(dicts[1..])
  }
}

=== FILE: sorting.dfy ===
/** Python's `sorted`/`list.sort` with a key: a stable sort. The model sorts
    positions rather than values, so that ties can be broken by original
    position, which is exactly what stability means. A descending sort with
    `reverse=True` is also stable, and is the ascending sort of the negated
    keys. */
module Sorting {

  /** Position `i` goes strictly before position `j` when sorting by `keys`
      ascending: a smaller key, or an equal key and an earlier position. */
  predicate Before(keys: seq<real>, i: nat, j: nat)
    requires i < |keys| && j < |keys|
  {
    keys[i] < keys[j] || (keys[i] == keys[j] && i < j)
  }

  predicate InRange(keys: seq<real>, s: seq<nat>) {
    forall k :: 0 <= k < |s| ==> s[k] < |keys|
  }

  /** `s` lists positions of `keys` in stable ascending order. */
  predicate Ordered(keys: seq<real>, s: seq<nat>) {
    InRange(keys, s) && forall a, b :: 0 <= a < b < |s| ==> Before(keys, s[a], s[b])
  }

  /** The positions `lo, lo + 1, ..., hi - 1`. */
  function Range(lo: nat, hi: nat): (r: seq<nat>)
    requires lo <= hi
    ensures |r| == hi - lo
    ensures forall k :: 0 <= k < |r| ==> r[k] == lo + k
    decreases hi - lo
  {
    if lo == hi then [] else [lo] + Range(lo + 1, hi)
  }

  /** Insert one position into an ordered list of positions. */
  function Insert(keys: seq<real>, x: nat, s: seq<nat>): (r: seq<nat>)
    requires x < |keys| && Ordered(keys, s) && x !in s
    ensures Ordered(keys, r)
    ensures multiset(r) == multiset(s) + multiset{x}
    decreases |s|
  {
    if s == [] then [x]
    else if Before(keys, x, s[0]) then
      assert forall b :: 0 < b < |s| ==> Before(keys, s[0], s[b]);
      [x] + s
    else
      var rest := Insert(keys, x, s[1..]);
      assert s == [s[0]] + s[1..];
      InsertHeadBefore(keys, x, s, rest);
      [s[0]] + rest
  }

  /** The head of `s` still precedes everything once `x` joins the tail. */
  lemma InsertHeadBefore(keys: seq<real>, x: nat, s: seq<nat>, rest: seq<nat>)
    requires x < |keys| && Ordered(keys, s) && s != [] && x != s[0]
    requires !Before(keys, x, s[0])
    requires InRange(keys, rest)
    requires multiset(rest) == multiset(s[1..]) + multiset{x}
    ensures forall b :: 0 <= b < |rest| ==> Before(keys, s[0], rest[b])
  {
    forall b | 0 <= b < |rest|
      ensures Before(keys, s[0], rest[b])
    {
      assert rest[b] in multiset(rest);
      if rest[b] != x {
        assert rest[b] in multiset(s[1..]);
        var k :| 0 <= k < |s[1..]| && s[1..][k] == rest[b];
        assert s[k + 1] == rest[b];
      }
    }
  }

  /** The first `n` positions of `keys` in stable ascending order. */
  function SortPrefix(keys: seq<real>, n: nat): (r: seq<nat>)
    requires n <= |keys|
    ensures Ordered(keys, r)
    ensures multiset(r) == multiset(Range(0, n))
    decreases n
  {
    if n == 0 then []
    else
      var s := SortPrefix(keys, n - 1);
      var last: nat := n - 1;
      var prior := Range(0, last);
      assert last !in prior;
      assert last !in multiset(s) by {
        assert multiset(s) == multiset(prior);
      }
      RangeSnoc(last);
      assert multiset(Range(0, n)) == multiset(prior) + multiset{last};
      Insert(keys, last, s)
  }

  lemma RangeSnoc(n: nat)
    ensures Range(0, n + 1) == Range(0, n) + [n]
  {
    var a := Range(0, n + 1);
    var b := Range(0, n) + [n];
    assert |a| == |b|;
    assert forall k :: 0 <= k < |a| ==> a[k] == b[k];
  }

  /** A stable ascending sort of all positions of `keys`. */
  function SortIndices(keys: seq<real>): (r: seq<nat>)
    ensures Ordered(keys, r)
    ensures multiset(r) == multiset(Range(0, |keys|))
  {
    SortPrefix(keys, |keys|)
  }

  /** `sorted(..., reverse=True)` on `keys`: descending, ties in original order. */
  function SortIndicesDesc(keys: seq<real>): (r: seq<nat>)
    ensures multiset(r) == multiset(Range(0, |keys|))
    ensures InRange(keys, r)
    ensures forall a, b :: 0 <= a < b < |r| ==>
              keys[r[a]] > keys[r[b]] || (keys[r[a]] == keys[r[b]] && r[a] < r[b])
  {
    var neg := seq(|keys|, i requires 0 <= i < |keys| => -keys[i]);
    var r := SortIndices(neg);
    forall a, b | 0 <= a < b < |r|
      ensures keys[r[a]] > keys[r[b]] || (keys[r[a]] == keys[r[b]] && r[a] < r[b])
    {
      assert Before(neg, r[a], r[b]);
      assert neg[r[a]] == -keys[r[a]] && neg[r[b]] == -keys[r[b]];
    }
    r
  }

  /** A list of positions that covers `0..n` once each has length `n`, no
      repeats, and every position. */
  lemma PermutationFacts(r: seq<nat>, n: nat)
    requires multiset(r) == multiset(Range(0, n))
    ensures |r| == n
    ensures forall k :: 0 <= k < |r| ==> r[k] < n
    ensures forall i :: 0 <= i < n ==> i in r
  {
    assert |multiset(r)| == |multiset(Range(0, n))|;
    forall k | 0 <= k < |r|
      ensures r[k] < n
    {
      assert r[k] in multiset(Range(0, n));
    }
    forall i | 0 <= i < n
      ensures i in r
    {
      assert Range(0, n)[i] == i;
      assert i in multiset(Range(0, n));
    }
  }

  /** No position occurs twice in a permutation of `0..n`. */
  lemma DistinctFromMultiset(r: seq<nat>, n: nat)
    requires multiset(r) == multiset(Range(0, n))
    ensures forall a, b :: 0 <= a < b < |r| ==> r[a] != r[b]
  {
    forall a, b | 0 <= a < b < |r|
      ensures r[a] != r[b]
    {
      if r[a] == r[b] {
        var x := r[a];
        assert multiset(r)[x] >= 2 by {
          assert r == r[..a] + [r[a]] + r[a + 1..b] + [r[b]] + r[b + 1..];
        }
        RangeCountsOnce(0, n, x);
      }
    }
  }

  lemma {:induction false} RangeCountsOnce(lo: nat, hi: nat, x: nat)
    requires lo <= hi
    ensures multiset(Range(lo, hi))[x] <= 1
    decreases hi - lo
  {
    if lo < hi {
      RangeCountsOnce(lo + 1, hi, x);
      assert Range(lo, hi) == [lo] + Range(lo + 1, hi);
      if x == lo {
        assert x !in Range(lo + 1, hi);
      }
    }
  }

  /** A prefix of a descending permutation holds the largest keys. */
  lemma PrefixHoldsLargest(keys: seq<real>, order: seq<nat>, m: nat)
    requires InRange(keys, order) && m <= |order|
    requires forall i :: 0 <= i < |keys| ==> i in order
    requires forall a, b :: 0 <= a < b < |order| ==> keys[order[a]] >= keys[order[b]]
    ensures forall j :: 0 <= j < |keys| && j !in order[..m] ==> forall a :: 0 <= a < m ==> keys[order[a]] >= keys[j]
  {
    forall j | 0 <= j < |keys| && j !in order[..m]
      ensures forall a :: 0 <= a < m ==> keys[order[a]] >= keys[j]
    {
      assert j in order;
      var p :| 0 <= p < |order| && order[p] == j;
      assert forall k :: 0 <= k < m ==> order[..m][k] != j;
    }
  }

  /** The prefix itself: distinct positions, largest key first, and no
      position left out has a larger key than one kept. */
  lemma PrefixFacts(keys: seq<real>, order: seq<nat>, m: nat)
    requires InRange(keys, order) && m <= |order|
    requires forall a, b :: 0 <= a < b < |order| ==> order[a] != order[b]
    requires forall a, b :: 0 <= a < b < |order| ==> keys[order[a]] >= keys[order[b]]
    requires forall j :: 0 <= j < |keys| && j !in order[..m] ==> forall a :: 0 <= a < m ==> keys[order[a]] >= keys[j]
    ensures var r := order[..m];
            && |r| == m
            && (forall a :: 0 <= a < |r| ==> r[a] < |keys|)
            && (forall a, b :: 0 <= a < b < |r| ==> r[a] != r[b])
            && (forall a, b :: 0 <= a < b < |r| ==> keys[r[a]] >= keys[r[b]])
            && (forall j :: 0 <= j < |keys| && j !in r ==> forall a :: 0 <= a < |r| ==> keys[r[a]] >= keys[j])
  {
    var r := order[..m];
    assert forall a :: 0 <= a < m ==> r[a] == order[a];
  }

  /** `sorted(..., reverse=True)[:limit]`: the positions of the `limit`
      largest keys, largest first, ties in original order. */
  function TopK(keys: seq<real>, limit: nat): (r: seq<nat>)
    ensures |r| == if limit < |keys| then limit else |keys|
    ensures forall a :: 0 <= a < |r| ==> r[a] < |keys|
    ensures forall a, b :: 0 <= a < b < |r| ==> r[a] != r[b]
    ensures forall a, b :: 0 <= a < b < |r| ==> keys[r[a]] >= keys[r[b]]
    ensures forall j :: 0 <= j < |keys| && j !in r ==> forall a :: 0 <= a < |r| ==> keys[r[a]] >= keys[j]
  {
    var order := SortIndicesDesc(keys);
    var m := if limit < |keys| then limit else |keys|;
    PermutationFacts(order, |keys|);
    DistinctFromMultiset(order, |keys|);
    PrefixHoldsLargest(keys, order, m);
    PrefixFacts(keys, order, m);
    order[..m]
  }
}

=== FILE: text.dfy ===
/** The handful of Python string operations the engines rely on:
    `str.lower`, `str.strip`, `str.split()`, `in` on strings, `str(int)`
    and `', '.join`. Letters are folded for ASCII only; the whitespace set is
    exactly the one Python's `str.isspace` accepts. */
module Text {

  /** Python's `str.isspace`: the ASCII controls 9-13 and 28-31, the space,
      and the Unicode separators. */
  predicate IsSpace(c: char) {
    || ('\t' <= c <= '\r')
    || ('\U{1C}' <= c <= ' ')
    || c == '\U{85}' || c == '\U{A0}' || c == '\U{1680}'
    || ('\U{2000}' <= c <= '\U{200A}')
    || c == '\U{2028}' || c == '\U{2029}' || c == '\U{202F}'
    || c == '\U{205F}' || c == '\U{3000}'
  }

  predicate IsUpper(c: char) { 'A' <= c <= 'Z' }
  predicate IsDigit(c: char) { '0' <= c <= '9' }
  predicate IsAlpha(c: char) { ('A' <= c <= 'Z') || ('a' <= c <= 'z') }

  function LowerChar(c: char): (r: char)
    ensures IsUpper(c) ==> r as int == c as int + 32
    ensures !IsUpper(c) ==> r == c
    ensures IsSpace(r) <==> IsSpace(c)
  {
    if IsUpper(c) then (c as int + 32) as char else c
  }

  /** `s.lower()` restricted to ASCII letters. */
  function Lower(s: string): (r: string)
    ensures |r| == |s|
    ensures forall i :: 0 <= i < |s| ==> r[i] == LowerChar(s[i])
  {
    seq(|s|, i requires 0 <= i < |s| => LowerChar(s[i]))
  }

  lemma LowerIdempotent(s: string)
    ensures Lower(Lower(s)) == Lower(s)
  {
  }

  /** Every character of `s` in `[lo, hi)` is whitespace. */
  predicate SpaceBetween(s: string, lo: int, hi: int)
    requires 0 <= lo <= hi <= |s|
  {
    forall i :: lo <= i < hi ==> IsSpace(s[i])
  }

  predicate AllSpace(s: string) {
    SpaceBetween(s, 0, |s|)
  }

  /** The first index at or after `i` that is not whitespace. */
  function SkipSpace(s: string, i: nat): (j: nat)
    requires i <= |s|
    ensures i <= j <= |s| && SpaceBetween(s, i, j)
    ensures j == |s| || !IsSpace(s[j])
    decreases |s| - i
  {
    if i < |s| && IsSpace(s[i]) then SkipSpace(s, i + 1) else i
  }

  /** The least `k` in `[lo, j]` such that only whitespace lies in `[k, j)`. */
  function BackSpace(s: string, lo: nat, j: nat): (k: nat)
    requires lo <= j <= |s|
    ensures lo <= k <= j && SpaceBetween(s, k, j)
    ensures k == lo || !IsSpace(s[k - 1])
    decreases j
  {
    if lo < j && IsSpace(s[j - 1]) then BackSpace(s, lo, j - 1) else j
  }

  function StripStart(s: string): (lo: nat)
    ensures lo <= |s|
  {
    SkipSpace(s, 0)
  }

  function StripEnd(s: string): (hi: nat)
    ensures StripStart(s) <= hi <= |s|
  {
    BackSpace(s, StripStart(s), |s|)
  }

  /** `s.strip()`: the infix left after cutting whitespace from both ends;
      what is cut away is whitespace only, and what is kept starts and ends
      with a non-whitespace character. */
  function Strip(s: string): (r: string)
    ensures r == s[StripStart(s)..StripEnd(s)]
    ensures SpaceBetween(s, 0, StripStart(s)) && SpaceBetween(s, StripEnd(s), |s|)
    ensures r == [] || (!IsSpace(r[0]) && !IsSpace(r[|r| - 1]))
    ensures r == [] <==> AllSpace(s)
  {
    s[StripStart(s)..StripEnd(s)]
  }

  lemma {:induction false} SkipSpaceLower(s: string, i: nat)
    requires i <= |s|
    ensures SkipSpace(Lower(s), i) == SkipSpace(s, i)
    decreases |s| - i
  {
    if i < |s| && IsSpace(s[i]) {
      SkipSpaceLower(s, i + 1);
    }
  }

  lemma {:induction false} BackSpaceLower(s: string, lo: nat, j: nat)
    requires lo <= j <= |s|
    ensures BackSpace(Lower(s), lo, j) == BackSpace(s, lo, j)
    decreases j
  {
    if lo < j && IsSpace(s[j - 1]) {
      BackSpaceLower(s, lo, j - 1);
    }
  }

  /** Case folding and stripping commute, because no letter is whitespace. */
  lemma LowerStripCommute(s: string)
    ensures Lower(Strip(s)) == Strip(Lower(s))
  {
    var lo, hi := StripStart(s), StripEnd(s);
    SkipSpaceLower(s, 0);
    assert StripStart(Lower(s)) == lo;
    BackSpaceLower(s, lo, |s|);
    assert StripEnd(Lower(s)) == hi;
    assert Strip(Lower(s)) == Lower(s)[lo..hi];
    LowerSlice(s, lo, hi);
  }

  lemma LowerSlice(s: string, lo: nat, hi: nat)
    requires lo <= hi <= |s|
    ensures Lower(s[lo..hi]) == Lower(s)[lo..hi]
  {
    var a, b := Lower(s[lo..hi]), Lower(s)[lo..hi];
    assert |a| == |b|;
    forall i | 0 <= i < |a| ensures a[i] == b[i] {
      assert a[i] == LowerChar(s[lo + i]);
    }
  }

  /** Stripping twice is stripping once. */
  lemma StripIdempotent(s: string)
    ensures Strip(Strip(s)) == Strip(s)
  {
    var r := Strip(s);
    assert SkipSpace(r, 0) == 0;
    assert BackSpace(r, 0, |r|) == |r|;
  }

  /** The end of the run of non-whitespace that starts at `j`. */
  function WordEnd(s: string, j: nat): (k: nat)
    requires j <= |s|
    ensures j <= k <= |s|
    ensures forall i :: j <= i < k ==> !IsSpace(s[i])
    ensures k == |s| || IsSpace(s[k])
    decreases |s| - j
  {
    if j < |s| && !IsSpace(s[j]) then WordEnd(s, j + 1) else j
  }

  predicate IsWord(w: string) {
    w != [] && forall i :: 0 <= i < |w| ==> !IsSpace(w[i])
  }

  function WordsFrom(s: string, i: nat): (r: seq<string>)
    requires i <= |s|
    ensures forall k :: 0 <= k < |r| ==> IsWord(r[k])
    ensures SpaceBetween(s, i, |s|) ==> r == []
    decreases |s| - i
  {
    var j := SkipSpace(s, i);
    if j == |s| then []
    else
      var k := WordEnd(s, j);
      [s[j..k]] + WordsFrom(s, k)
  }

  /** `s.split()` with no separator: the maximal runs of non-whitespace. */
  function Words(s: string): (r: seq<string>)
    ensures forall k :: 0 <= k < |r| ==> IsWord(r[k])
    ensures AllSpace(s) ==> r == []
  {
    WordsFrom(s, 0)
  }

  /** A string without whitespace splits into itself alone. */
  lemma WordsOfWord(w: string)
    requires IsWord(w)
    ensures Words(w) == [w]
  {
    assert SkipSpace(w, 0) == 0;
    assert WordEnd(w, 0) == |w| by { WordEndOfWord(w, 0); }
    assert w[0..|w|] == w;
  }

  lemma {:induction false} WordEndOfWord(w: string, j: nat)
    requires j <= |w|
    requires forall i :: 0 <= i < |w| ==> !IsSpace(w[i])
    ensures WordEnd(w, j) == |w|
    decreases |w| - j
  {
    if j < |w| {
      WordEndOfWord(w, j + 1);
    }
  }

  /** Python's `k in text` for strings, scanning left to right. */
  predicate Contains(text: string, k: string)
    decreases |text|
  {
    if |k| > |text| then false
    else text[..|k|] == k || (|text| > 0 && Contains(text[1..], k))
  }

  /** `k` occurs in `text` at offset `i`. */
  ghost predicate MatchAt(text: string, k: string, i: int) {
    0 <= i && i + |k| <= |text| && text[i..i + |k|] == k
  }

  lemma MatchShift(text: string, k: string, i: int)
    requires MatchAt(text, k, i) && i > 0
    ensures MatchAt(text[1..], k, i - 1)
  {
    assert text[1..][i - 1..i - 1 + |k|] == text[i..i + |k|];
  }

  /** The scan finds `k` exactly when `k` occurs at some offset. */
  lemma {:induction false} ContainsIffMatch(text: string, k: string)
    ensures Contains(text, k) <==> exists i :: MatchAt(text, k, i)
    decreases |text|
  {
    if |k| > |text| {
    } else if text[..|k|] == k {
      assert MatchAt(text, k, 0);
    } else if |text| > 0 {
      ContainsIffMatch(text[1..], k);
      if Contains(text[1..], k) {
        var i :| MatchAt(text[1..], k, i);
        assert text[1..][i..i + |k|] == text[i + 1..i + 1 + |k|];
        assert MatchAt(text, k, i + 1);
      } else {
        forall i | MatchAt(text, k, i)
          ensures false
        {
          MatchShift(text, k, i);
        }
      }
    }
  }

  /** `sep.join(parts)`. */
  function Join(sep: string, parts: seq<string>): (r: string)
    ensures parts == [] ==> r == []
    ensures |parts| > 0 ==> parts[0] <= r
  {
    if parts == [] then []
    else if |parts| == 1 then parts[0]
    else parts[0] + sep + Join(sep, parts[1..])
  }

  /** Where the `i`-th part starts in `Join(sep, parts)`: after each
      earlier part and its separator. */
  function JoinOffset(sep: string, parts: seq<string>, i: nat): nat
    requires i <= |parts|
  {
    if i == 0 then 0 else JoinOffset(sep, parts, i - 1) + |parts[i - 1]| + |sep|
  }

  /** Where the separator after the `i`-th part starts. */
  function SepOffset(sep: string, parts: seq<string>, i: nat): nat
    requires i < |parts|
  {
    JoinOffset(sep, parts, i) + |parts[i]|
  }

  lemma {:induction false} JoinOffsetShift(sep: string, parts: seq<string>, i: nat)
    requires 0 < i <= |parts|
    ensures JoinOffset(sep, parts, i) == |parts[0]| + |sep| + JoinOffset(sep, parts[1..], i - 1)
  {
    if i > 1 {
      JoinOffsetShift(sep, parts, i - 1);
      assert parts[1..][i - 2] == parts[i - 1];
    }
  }

  lemma {:induction false} JoinLength(sep: string, parts: seq<string>)
    requires parts != []
    ensures |Join(sep, parts)| + |sep| == JoinOffset(sep, parts, |parts|)
  {
    if |parts| > 1 {
      JoinLength(sep, parts[1..]);
      JoinOffsetShift(sep, parts, |parts|);
    }
  }

  /** A match inside `rest` is a match, further on, inside `front + rest`. */
  lemma MatchAfter(front: string, rest: string, k: string, o: int)
    requires MatchAt(rest, k, o)
    ensures MatchAt(front + rest, k, |front| + o)
  {
    assert (front + rest)[|front| + o..|front| + o + |k|] == rest[o..o + |k|];
  }

  /** The `i`-th part sits at its offset in `sep.join(parts)`. */
  lemma {:induction false} JoinPartAt(sep: string, parts: seq<string>, i: nat)
    requires i < |parts|
    ensures MatchAt(Join(sep, parts), parts[i], JoinOffset(sep, parts, i))
  {
    var r := Join(sep, parts);
    if i > 0 {
      var rest := Join(sep, parts[1..]);
      assert r == (parts[0] + sep) + rest;
      JoinPartAt(sep, parts[1..], i - 1);
      JoinOffsetShift(sep, parts, i);
      assert parts[1..][i - 1] == parts[i];
      MatchAfter(parts[0] + sep, rest, parts[i], JoinOffset(sep, parts[1..], i - 1));
    } else if |parts| > 1 {
      assert r == parts[0] + (sep + Join(sep, parts[1..]));
    }
  }

  /** The separator follows every part but the last. */
  lemma {:induction false} JoinSepAt(sep: string, parts: seq<string>, i: nat)
    requires i + 1 < |parts|
    ensures MatchAt(Join(sep, parts), sep, SepOffset(sep, parts, i))
  {
    var r := Join(sep, parts);
    var rest := Join(sep, parts[1..]);
    assert r == (parts[0] + sep) + rest;
    if i > 0 {
      JoinSepAt(sep, parts[1..], i - 1);
      JoinOffsetShift(sep, parts, i);
      assert parts[1..][i - 1] == parts[i];
      MatchAfter(parts[0] + sep, rest, sep, SepOffset(sep, parts[1..], i - 1));
    } else {
      assert r[|parts[0]|..|parts[0]| + |sep|] == sep;
    }
  }

  /** `sep.join(parts)` is tiled by the parts, each at its offset, with
      `sep` after every part but the last, and nothing else. */
  lemma JoinTiles(sep: string, parts: seq<string>)
    requires parts != []
    ensures |Join(sep, parts)| + |sep| == JoinOffset(sep, parts, |parts|)
    ensures forall i :: 0 <= i < |parts| ==> MatchAt(Join(sep, parts), parts[i], JoinOffset(sep, parts, i))
    ensures forall i :: 0 <= i < |parts| - 1 ==> MatchAt(Join(sep, parts), sep, SepOffset(sep, parts, i))
  {
    JoinLength(sep, parts);
    forall i | 0 <= i < |parts| ensures MatchAt(Join(sep, parts), parts[i], JoinOffset(sep, parts, i)) {
      JoinPartAt(sep, parts, i);
    }
    forall i | 0 <= i < |parts| - 1 ensures MatchAt(Join(sep, parts), sep, SepOffset(sep, parts, i)) {
      JoinSepAt(sep, parts, i);
    }
  }

  function DigitChar(d: nat): (c: char)
    requires d < 10
    ensures IsDigit(c)
  {
    ('0' as int + d) as char
  }

  function DigitValue(c: char): nat
    requires IsDigit(c)
  {
    c as int - '0' as int
  }

  predicate AllDigits(s: string) {
    forall i :: 0 <= i < |s| ==> IsDigit(s[i])
  }

  /** `str(n)` for a natural number: decimal digits, no leading zero. */
  function NatToString(n: nat): (r: string)
    ensures |r| >= 1 && AllDigits(r)
    ensures r[0] == '0' ==> n == 0 && r == "0"
    decreases n
  {
    if n < 10 then [DigitChar(n)] else NatToString(n / 10) + [DigitChar(n % 10)]
  }

  function ParseNat(s: string): nat
    requires AllDigits(s)
  {
    if s == [] then 0 else ParseNat(s[..|s| - 1]) * 10 + DigitValue(s[|s| - 1])
  }

  /** Reading back the digits of `str(n)` gives `n`. */
  lemma {:induction false} ParseNatToString(n: nat)
    ensures ParseNat(NatToString(n)) == n
    decreases n
  {
    if n >= 10 {
      var a := NatToString(n / 10);
      var s := a + [DigitChar(n % 10)];
      assert s[..|s| - 1] == a;
      ParseNatToString(n / 10);
    }
  }

  /** `str(i)` for any integer. */
  function IntToString(i: int): (r: string)
    ensures |r| >= 1
    ensures i >= 0 ==> AllDigits(r)
    ensures i < 0 ==> r[0] == '-' && AllDigits(r[1..])
  {
    if i < 0 then "-" + NatToString(-i) else NatToString(i)
  }
}

=== FILE: upload.dfy ===
/** File-type classification of the upload endpoints. The object store is
    a parameter: for each file it yields the URL it stored the file under,
    or the empty string when it returned nothing or raised. */
module Upload {
  import opened Wrappers
  import opened Text

  datatype FileType = Video | Image | Document

  const VideoExtensions: seq<string> := [".mp4", ".avi", ".mov", ".mkv", ".webm"]
  const ImageExtensions: seq<string> := [".jpg", ".jpeg", ".png", ".gif", ".webp"]
  /** The single-document endpoint also takes slides. */
  const DocumentExtensions: seq<string> := [".pdf", ".doc", ".docx", ".zip", ".ppt", ".pptx"]
  /** The batch endpoint's document list, which has no slide formats. */
  const BatchDocumentExtensions: seq<string> := [".pdf", ".doc", ".docx", ".zip"]
  const BatchLimit := 10

  /** `s.split('.')[-1]`: what follows the last '.', or all of `s` when it
      has none. */
  function AfterLastDot(s: string): (r: string)
    ensures '.' !in r
    ensures |r| <= |s| && r == s[|s| - |r|..]
    ensures |r| < |s| ==> s[|s| - |r| - 1] == '.'
    ensures '.' !in s ==> r == s
    decreases |s|
  {
    if s == [] then []
    else if s[|s| - 1] == '.' then []
    else
      var init := s[..|s| - 1];
      assert s == init + [s[|s| - 1]];
      AfterLastDot(init) + [s[|s| - 1]]
  }

  /** Splitting `stem.ext` at its last dot gives back `ext`, whatever the
      stem holds. */
  lemma {:induction false} AfterLastDotOfName(stem: string, ext: string)
    requires '.' !in ext
    ensures AfterLastDot(stem + "." + ext) == ext
    decreases |ext|
  {
    var s := stem + "." + ext;
    if ext == [] {
      assert s[|s| - 1] == '.';
    } else {
      var init := ext[..|ext| - 1];
      assert s[..|s| - 1] == stem + "." + init;
      assert s[|s| - 1] == ext[|ext| - 1];
      AfterLastDotOfName(stem, init);
      assert ext == init + [ext[|ext| - 1]];
    }
  }

  /** `file.filename.lower().split('.')[-1]`. */
  function Extension(filename: string): string {
    AfterLastDot(Lower(filename))
  }

  /** The test every endpoint applies: `f'.{ext}' in allowed`. */
  predicate Allowed(filename: string, allowed: seq<string>) {
    "." + Extension(filename) in allowed
  }

  datatype Response = Response(url: string, filename: string, fileType: FileType, size: Option<int>)

  datatype FileIn = FileIn(filename: string, size: Option<int>)

  datatype UploadError =
    | InvalidType(allowed: seq<string>)   // 400, lists the accepted extensions
    | UploadFailed                        // 500 "Upload failed"
    | TooManyFiles                        // 400 "Maximum 10 files allowed per batch"
    | NothingUploaded                     // 500 "Failed to upload any files"

  function AllowedFor(t: FileType): seq<string> {
    match t
    case Video => VideoExtensions
    case Image => ImageExtensions
    case Document => DocumentExtensions
  }

  /** One of the three single-file endpoints. The store's falsy result is
      raised inside the `try` and so surfaces as the generic failure. */
  function UploadOne(t: FileType, file: FileIn, url: string): (r: Result<Response, UploadError>)
    ensures !Allowed(file.filename, AllowedFor(t)) ==> r == Err(InvalidType(AllowedFor(t)))
    ensures Allowed(file.filename, AllowedFor(t)) && url == [] ==> r == Err(UploadFailed)
    ensures r.Ok? <==> Allowed(file.filename, AllowedFor(t)) && url != []
    ensures r.Ok? ==> r.value == Response(url, file.filename, t, file.size)
  {
    if !Allowed(file.filename, AllowedFor(t)) then Err(InvalidType(AllowedFor(t)))
    else if url == [] then Err(UploadFailed)
    else Ok(Response(url, file.filename, t, file.size))
  }

  /** Case does not matter: `clip.MP4` is a video. */
  lemma ExtensionIgnoresCase(filename: string)
    ensures Extension(Lower(filename)) == Extension(filename)
  {
    LowerIdempotent(filename);
  }

  /** A name with no dot at all is its own extension, so a file called
      `mp4` passes the video check. */
  lemma BareExtensionAccepted()
    ensures Allowed("mp4", VideoExtensions)
  {
    assert Lower("mp4") == "mp4";
    assert Extension("mp4") == "mp4";
    assert "." + "mp4" == VideoExtensions[0];
  }

  /** The type the batch endpoint gives a file: video first, then image,
      then its own document list; `None` means the file is skipped. */
  function BatchType(filename: string): (r: Option<FileType>)
    ensures r == Some(Video) <==> Allowed(filename, VideoExtensions)
    ensures r == Some(Image) <==> !Allowed(filename, VideoExtensions) && Allowed(filename, ImageExtensions)
    ensures r == Some(Document) <==>
              !Allowed(filename, VideoExtensions) && !Allowed(filename, ImageExtensions)
              && Allowed(filename, BatchDocumentExtensions)
  {
    if Allowed(filename, VideoExtensions) then Some(Video)
    else if Allowed(filename, ImageExtensions) then Some(Image)
    else if Allowed(filename, BatchDocumentExtensions) then Some(Document)
    else None
  }

  /** Whatever the batch accepts, the matching single endpoint accepts too. */
  lemma BatchTypeAgreesWithSingle(filename: string)
    requires BatchType(filename).Some?
    ensures Allowed(filename, AllowedFor(BatchType(filename).value))
  {
  }

  /** ... but not the other way round: slides pass the single document
      endpoint and are skipped by the batch. */
  lemma BatchSkipsSlides(stem: string)
    ensures Allowed(stem + ".ppt", DocumentExtensions)
    ensures BatchType(stem + ".ppt") == None
  {
    var name := stem + ".ppt";
    assert Lower(name) == Lower(stem) + ".ppt";
    AfterLastDotOfName(Lower(stem), "ppt");
    assert Lower(stem) + "." + "ppt" == Lower(stem) + ".ppt";
    assert Extension(name) == "ppt";
    assert "." + "ppt" == ".ppt";
  }

  /** The file at index `i` of a batch ends up in the response. */
  predicate Uploaded(files: seq<FileIn>, urls: seq<string>, i: int)
    requires |urls| == |files|
  {
    0 <= i < |files| && BatchType(files[i].filename).Some? && urls[i] != []
  }

  function ResponseAt(files: seq<FileIn>, urls: seq<string>, i: int): Response
    requires |urls| == |files| && Uploaded(files, urls, i)
  {
    Response(urls[i], files[i].filename, BatchType(files[i].filename).value, files[i].size)
  }

  /** The response comes from a file of the batch that was uploaded. */
  ghost predicate FromBatch(files: seq<FileIn>, urls: seq<string>, x: Response)
    requires |urls| == |files|
  {
    exists i :: Uploaded(files, urls, i) && x == ResponseAt(files, urls, i)
  }

  /** A position before the last is uploaded in the batch exactly when it is
      in the batch without its last file, with the same response. */
  lemma UploadedPrefix(files: seq<FileIn>, urls: seq<string>, i: int)
    requires |urls| == |files| && 0 <= i < |files| - 1
    ensures Uploaded(files, urls, i) <==> Uploaded(files[..|files| - 1], urls[..|files| - 1], i)
    ensures Uploaded(files, urls, i) ==>
              ResponseAt(files, urls, i) == ResponseAt(files[..|files| - 1], urls[..|files| - 1], i)
  {
    var n := |files| - 1;
    assert files[..n][i] == files[i] && urls[..n][i] == urls[i];
  }

  /** The loop of `upload_batch`: skipped and failed files are passed over
      without aborting, the rest answered in order, one response each. */
  function BatchResults(files: seq<FileIn>, urls: seq<string>): (r: seq<Response>)
    requires |urls| == |files|
    ensures |r| <= |files|
    ensures forall x :: x in r ==> FromBatch(files, urls, x)
    ensures forall i :: Uploaded(files, urls, i) ==> ResponseAt(files, urls, i) in r
    ensures r == [] <==> forall i :: 0 <= i < |files| ==> !Uploaded(files, urls, i)
    ensures |r| == |UploadedIndices(files, urls)|
    ensures forall k :: 0 <= k < |r| ==> r[k] == ResponseAt(files, urls, UploadedIndices(files, urls)[k])
    decreases |files|
  {
    if files == [] then []
    else
      var n := |files| - 1;
      var rest := BatchResults(files[..n], urls[..n]);
      OrderStep(files, urls, rest);
      BatchStep(files, urls, rest);
      rest + (if Uploaded(files, urls, n) then [ResponseAt(files, urls, n)] else [])
  }

  /** The positions holding `true`, in increasing order. */
  function TrueIndices(flags: seq<bool>): (idx: seq<nat>)
    ensures forall k :: 0 <= k < |idx| ==> idx[k] < |flags| && flags[idx[k]]
    ensures forall k, l :: 0 <= k < l < |idx| ==> idx[k] < idx[l]
    ensures forall i :: 0 <= i < |flags| && flags[i] ==> i in idx
    decreases |flags|
  {
    if flags == [] then []
    else
      var n := |flags| - 1;
      var before := TrueIndices(flags[..n]);
      assert forall i :: 0 <= i < n ==> flags[..n][i] == flags[i];
      if flags[n] then before + [n] else before
  }

  /** Which files of the batch were uploaded, position by position. */
  function UploadFlags(files: seq<FileIn>, urls: seq<string>): (flags: seq<bool>)
    requires |urls| == |files|
    ensures |flags| == |files| && forall i :: 0 <= i < |files| ==> (flags[i] <==> Uploaded(files, urls, i))
  {
    seq(|files|, i requires 0 <= i < |files| => Uploaded(files, urls, i))
  }

  /** The positions of the files that were uploaded, in increasing order. */
  function UploadedIndices(files: seq<FileIn>, urls: seq<string>): (idx: seq<nat>)
    requires |urls| == |files|
    ensures forall k :: 0 <= k < |idx| ==> Uploaded(files, urls, idx[k])
    ensures forall k, l :: 0 <= k < l < |idx| ==> idx[k] < idx[l]
    ensures forall i :: Uploaded(files, urls, i) ==> i in idx
  {
    TrueIndices(UploadFlags(files, urls))
  }

  /** Responses `rest` to the batch without its last file, in the order of
      its uploaded positions, followed by the last file's response if it
      was uploaded, are the whole batch's responses in order. */
  lemma OrderStep(files: seq<FileIn>, urls: seq<string>, rest: seq<Response>)
    requires |urls| == |files| > 0
    requires var n := |files| - 1;
             |rest| == |UploadedIndices(files[..n], urls[..n])|
             && forall k :: 0 <= k < |rest| ==>
                  rest[k] == ResponseAt(files[..n], urls[..n], UploadedIndices(files[..n], urls[..n])[k])
    ensures var n := |files| - 1;
            var r := rest + (if Uploaded(files, urls, n) then [ResponseAt(files, urls, n)] else []);
            |r| == |UploadedIndices(files, urls)|
            && forall k :: 0 <= k < |r| ==> r[k] == ResponseAt(files, urls, UploadedIndices(files, urls)[k])
  {
    var n := |files| - 1;
    var pf, pu := files[..n], urls[..n];
    FlagsPrefix(files, urls);
    var before := UploadedIndices(pf, pu);
    var idx := UploadedIndices(files, urls);
    assert idx == before + (if Uploaded(files, urls, n) then [n] else []);
    var r := rest + (if Uploaded(files, urls, n) then [ResponseAt(files, urls, n)] else []);
    forall k | 0 <= k < |r|
      ensures r[k] == ResponseAt(files, urls, idx[k])
    {
      if k < |rest| {
        assert r[k] == rest[k] == ResponseAt(pf, pu, before[k]);
        UploadedPrefix(files, urls, before[k]);
      } else {
        assert r[k] == ResponseAt(files, urls, n) && idx[k] == n;
      }
    }
  }

  /** The flags of the batch without its last file are the first flags. */
  lemma FlagsPrefix(files: seq<FileIn>, urls: seq<string>)
    requires |urls| == |files| > 0
    ensures UploadFlags(files[..|files| - 1], urls[..|files| - 1]) == UploadFlags(files, urls)[..|files| - 1]
  {
    var n := |files| - 1;
    forall i | 0 <= i < n
      ensures UploadFlags(files[..n], urls[..n])[i] == UploadFlags(files, urls)[i]
    {
      UploadedPrefix(files, urls, i);
    }
  }

  /** What the prefix's results say, said about the whole batch. */
  lemma BatchStep(files: seq<FileIn>, urls: seq<string>, rest: seq<Response>)
    requires |urls| == |files| > 0
    requires forall x :: x in rest ==> FromBatch(files[..|files| - 1], urls[..|files| - 1], x)
    ensures forall x :: x in rest ==> FromBatch(files, urls, x)
    ensures forall i :: 0 <= i < |files| - 1 ==>
              (Uploaded(files, urls, i) <==> Uploaded(files[..|files| - 1], urls[..|files| - 1], i))
    ensures forall i :: Uploaded(files[..|files| - 1], urls[..|files| - 1], i) ==>
              ResponseAt(files, urls, i) == ResponseAt(files[..|files| - 1], urls[..|files| - 1], i)
  {
    var n := |files| - 1;
    forall i | 0 <= i < n
      ensures Uploaded(files, urls, i) <==> Uploaded(files[..n], urls[..n], i)
      ensures Uploaded(files, urls, i) ==> ResponseAt(files, urls, i) == ResponseAt(files[..n], urls[..n], i)
    {
      assert files[..n][i] == files[i] && urls[..n][i] == urls[i];
    }
    forall x | x in rest
      ensures FromBatch(files, urls, x)
    {
      var i :| Uploaded(files[..n], urls[..n], i) && x == ResponseAt(files[..n], urls[..n], i);
      assert Uploaded(files, urls, i) && x == ResponseAt(files, urls, i);
    }
  }

  /** `upload_batch`: more than ten files are refused outright, and a batch
      in which nothing was uploaded is an error. */
  function UploadBatch(files: seq<FileIn>, urls: seq<string>): (r: Result<seq<Response>, UploadError>)
    requires |urls| == |files|
    ensures |files| > BatchLimit ==> r == Err(TooManyFiles)
    ensures r.Ok? <==> |files| <= BatchLimit && exists i :: Uploaded(files, urls, i)
    ensures r.Err? && |files| <= BatchLimit ==> r == Err(NothingUploaded)
    ensures r.Ok? ==> r.value == BatchResults(files, urls) && r.value != []
  {
    if |files| > BatchLimit then Err(TooManyFiles)
    else
      var results := BatchResults(files, urls);
      if results == [] then Err(NothingUploaded) else Ok(results)
  }
}

=== FILE: user_schema.dfy ===
/** The registration and profile-update validators of the user schema.
    A field's declared length bounds are checked first, then the
    field's validator runs on the value that passed them. */
module UserSchema {
  import opened Wrappers
  import opened Text

  datatype SchemaError =
    | TooShort        // below the declared minimum length
    | TooLong         // above the declared maximum length
    | NoDigit         // "Password must contain at least one digit"
    | NoLetter        // "Password must contain at least one letter"
    | BlankName       // "Full name cannot be empty or whitespace"

  const PasswordMin := 8
  const PasswordMax := 128
  const NameMin := 2
  const NameMax := 255

  /** `any(char.isdigit() for char in v)`, scanning left to right. */
  function AnyDigit(v: string): (r: bool)
    ensures r <==> exists i :: 0 <= i < |v| && IsDigit(v[i])
  {
    if v == [] then false
    else
      assert forall i :: 0 < i < |v| ==> v[i] == v[1..][i - 1];
      IsDigit(v[0]) || AnyDigit(v[1..])
  }

  /** `any(char.isalpha() for char in v)`, scanning left to right. */
  function AnyLetter(v: string): (r: bool)
    ensures r <==> exists i :: 0 <= i < |v| && IsAlpha(v[i])
  {
    if v == [] then false
    else
      assert forall i :: 0 < i < |v| ==> v[i] == v[1..][i - 1];
      IsAlpha(v[0]) || AnyLetter(v[1..])
  }

  /** The declared `min_length`/`max_length` of a string field. */
  function Bounded(v: string, lo: nat, hi: nat): (r: Result<string, SchemaError>)
    ensures r.Ok? <==> lo <= |v| <= hi
    ensures r.Ok? ==> r.value == v
    ensures |v| < lo ==> r == Err(TooShort)
  {
    if |v| < lo then Err(TooShort)
    else if |v| > hi then Err(TooLong)
    else Ok(v)
  }

  /** `UserCreate.password_strength`: the digit rule is checked before the
      letter rule, and an accepted password is returned unchanged. */
  function PasswordStrength(v: string): (r: Result<string, SchemaError>)
    ensures (forall i :: 0 <= i < |v| ==> !IsDigit(v[i])) ==> r == Err(NoDigit)
    ensures ((exists i :: 0 <= i < |v| && IsDigit(v[i]))
             && (forall i :: 0 <= i < |v| ==> !IsAlpha(v[i]))) ==> r == Err(NoLetter)
    ensures r.Ok? <==> (exists i :: 0 <= i < |v| && IsDigit(v[i]))
                       && (exists i :: 0 <= i < |v| && IsAlpha(v[i]))
    ensures r.Ok? ==> r.value == v
  {
    if !AnyDigit(v) then Err(NoDigit)
    else if !AnyLetter(v) then Err(NoLetter)
    else Ok(v)
  }

  /** The password field as registration sees it: bounds, then strength. */
  function Password(v: string): Result<string, SchemaError> {
    match Bounded(v, PasswordMin, PasswordMax)
    case Err(e) => Err(e)
    case Ok(w) => PasswordStrength(w)
  }

  /** An accepted password has 8 to 128 characters, a digit and a letter,
      and is stored exactly as typed. */
  lemma PasswordAccepted(v: string)
    requires Password(v).Ok?
    ensures Password(v).value == v
    ensures PasswordMin <= |v| <= PasswordMax
    ensures exists i :: 0 <= i < |v| && IsDigit(v[i])
    ensures exists i :: 0 <= i < |v| && IsAlpha(v[i])
  {
  }

  /** `UserCreate.name_not_empty`: a whitespace-only name is rejected, any
      other name is stored stripped. */
  function NameNotEmpty(v: string): (r: Result<string, SchemaError>)
    ensures r.Err? <==> AllSpace(v)
    ensures r.Err? ==> r.error == BlankName
    ensures r.Ok? ==> r.value == Strip(v) && r.value != []
    ensures r.Ok? ==> !IsSpace(r.value[0]) && !IsSpace(r.value[|r.value| - 1])
  {
    var s := Strip(v);
    if s == [] then Err(BlankName) else Ok(s)
  }

  /** Feeding an accepted name back in changes nothing. */
  lemma NameNotEmptyIdempotent(v: string)
    requires NameNotEmpty(v).Ok?
    ensures NameNotEmpty(NameNotEmpty(v).value) == NameNotEmpty(v)
  {
    StripIdempotent(v);
  }

  /** `UserUpdate.name_not_empty`: a missing or empty name passes through
      unchanged, any other name is judged as at registration. */
  function UpdateName(v: Option<string>): (r: Result<Option<string>, SchemaError>)
    ensures (v == None || v == Some([])) ==> r == Ok(v)
    ensures v.Some? && v.value != [] ==>
              (r.Ok? <==> !AllSpace(v.value))
    ensures v.Some? && v.value != [] && r.Ok? ==> r.value == Some(Strip(v.value))
  {
    match v
    case None => Ok(v)
    case Some(s) =>
      if s == [] then Ok(v)
      else
        match NameNotEmpty(s)
        case Err(e) => Err(e)
        case Ok(t) => Ok(Some(t))
  }

  /** Updating with a non-empty name agrees with registering it. */
  lemma UpdateAgreesWithCreate(s: string)
    requires s != []
    ensures UpdateName(Some(s)).Ok? <==> NameNotEmpty(s).Ok?
    ensures NameNotEmpty(s).Ok? ==> UpdateName(Some(s)) == Ok(Some(NameNotEmpty(s).value))
  {
  }

  /** The optional full-name field of a profile update: an absent name is
      left alone; a present one meets the same declared bounds and the same
      validator as at registration, so the two accept and store alike. */
  function UpdateFullName(v: Option<string>): (r: Result<Option<string>, SchemaError>)
    ensures v.None? ==> r == Ok(None)
    ensures v.Some? ==> (r.Ok? <==> FullNameAsWritten(v.value).Ok?)
    ensures v.Some? && r.Ok? ==> r.value == Some(FullNameAsWritten(v.value).value)
    ensures v == Some([]) ==> r == Err(TooShort)
  {
    match v
    case None => Ok(None)
    case Some(s) =>
      match Bounded(s, NameMin, NameMax)
      case Err(e) => Err(e)
      case Ok(w) => UpdateName(Some(w))
  }

  /** The full-name field at registration as written: the length bounds are
      checked on the raw input, and the stripped result is not re-checked. */
  function FullNameAsWritten(v: string): (r: Result<string, SchemaError>)
    ensures r.Ok? <==> NameMin <= |v| <= NameMax && !AllSpace(v)
    ensures r.Ok? ==> r.value == Strip(v)
  {
    match Bounded(v, NameMin, NameMax)
    case Err(e) => Err(e)
    case Ok(w) => NameNotEmpty(w)
  }

  /** " a " passes the two-character minimum and is stored as "a". */
  lemma FullNameBelowMinimum()
    ensures FullNameAsWritten(" a ") == Ok("a")
    ensures |FullNameAsWritten(" a ").value| < NameMin
  {
    var v := " a ";
    assert IsSpace(v[0]) && !IsSpace(v[1]) && IsSpace(v[2]);
    assert SkipSpace(v, 1) == 1;
    assert SkipSpace(v, 0) == 1;
    assert BackSpace(v, 1, 2) == 2;
    assert BackSpace(v, 1, 3) == 2;
    assert Strip(v) == "a";
    assert Bounded(v, NameMin, NameMax) == Ok(v);
  }

  /** The full-name rule with the declared bounds applied to the stored
      value, so that every accepted name has 2 to 255 characters. */
  function FullName(v: string): (r: Result<string, SchemaError>)
    ensures r.Ok? <==> NameMin <= |Strip(v)| <= NameMax
    ensures r.Ok? ==> r.value == Strip(v) && NameMin <= |r.value| <= NameMax
    ensures AllSpace(v) ==> r == Err(BlankName)
  {
    match NameNotEmpty(v)
    case Err(e) => Err(e)
    case Ok(s) => Bounded(s, NameMin, NameMax)
  }

  /** The two agree on every name that has no surrounding whitespace. */
  lemma FullNameAgrees(v: string)
    requires v != [] && Strip(v) == v
    ensures FullName(v) == FullNameAsWritten(v)
  {
  }
}

=== FILE: uuid.dfy ===
/** Python's `uuid.UUID(hex)` constructor on a string: the `urn:` and
    `uuid:` markers are removed, surrounding braces stripped, hyphens
    dropped, and what is left must be 32 hexadecimal digits. A UUID is kept
    here as its 32 lower-case digits, so two strings name the same UUID
    exactly when they parse to the same digits. */
module Uuid {
  import opened Wrappers
  import opened Text

  predicate IsHexDigit(c: char) {
    ('0' <= c <= '9') || ('a' <= c <= 'f') || ('A' <= c <= 'F')
  }

  /** 32 lower-case hexadecimal digits: the form every parsed UUID takes. */
  predicate Canonical(u: string) {
    |u| == 32 && forall k :: 0 <= k < |u| ==> ('0' <= u[k] <= '9') || ('a' <= u[k] <= 'f')
  }

  /** `s.replace(pat, '')`: one left-to-right pass removing each occurrence
      that does not overlap an earlier one. */
  function RemoveAll(s: string, pat: string): (r: string)
    requires pat != []
    ensures |r| <= |s|
    ensures forall c :: c in r ==> c in s
    ensures (forall k :: 0 <= k < |s| ==> s[k] != pat[0]) ==> r == s
    decreases |s|
  {
    if |s| < |pat| then s
    else if s[..|pat|] == pat then RemoveAll(s[|pat|..], pat)
    else [s[0]] + RemoveAll(s[1..], pat)
  }

  /** `s.lstrip(cs)`: the suffix left after dropping leading characters of
      `cs`. */
  function TrimStart(s: string, cs: set<char>): (r: string)
    ensures |r| <= |s| && r == s[|s| - |r|..]
    ensures forall k :: 0 <= k < |s| - |r| ==> s[k] in cs
    ensures r == [] || r[0] !in cs
    decreases |s|
  {
    if s != [] && s[0] in cs then TrimStart(s[1..], cs) else s
  }

  /** `s.rstrip(cs)`: the prefix left after dropping trailing characters of
      `cs`. */
  function TrimEnd(s: string, cs: set<char>): (r: string)
    ensures |r| <= |s| && r == s[..|r|]
    ensures forall k :: |r| <= k < |s| ==> s[k] in cs
    ensures r == [] || r[|r| - 1] !in cs
    decreases |s|
  {
    if s != [] && s[|s| - 1] in cs then TrimEnd(s[..|s| - 1], cs) else s
  }

  /** `s.replace(c, '')` for a single character. */
  function DropChar(s: string, c: char): (r: string)
    ensures |r| <= |s| && c !in r
    ensures forall x :: x in r <==> x in s && x != c
    ensures c !in s ==> r == s
  {
    if s == [] then []
    else if s[0] == c then DropChar(s[1..], c)
    else [s[0]] + DropChar(s[1..], c)
  }

  /** Dropping a character works piece by piece. */
  lemma {:induction false} DropCharConcat(a: string, b: string, c: char)
    ensures DropChar(a + b, c) == DropChar(a, c) + DropChar(b, c)
    decreases |a|
  {
    if a == [] {
      assert a + b == b;
    } else {
      assert (a + b)[1..] == a[1..] + b;
      DropCharConcat(a[1..], b, c);
    }
  }

  const Braces: set<char> := {'{', '}'}

  /** What `UUID(s)` keeps of `s` before it counts the digits. */
  function Digits(s: string): string {
    DropChar(TrimEnd(TrimStart(RemoveAll(RemoveAll(s, "urn:"), "uuid:"), Braces), Braces), '-')
  }

  /** `UUID(s)`: the UUID's digits, or `None` where Python raises
      `ValueError('badly formed hexadecimal UUID string')`. */
  function ParseUuid(s: string): (r: Option<string>)
    ensures r.Some? ==> Canonical(r.value)
    ensures r.Some? <==> |Digits(s)| == 32 && forall k :: 0 <= k < 32 ==> IsHexDigit(Digits(s)[k])
  {
    var digits := Digits(s);
    if |digits| == 32 && forall k :: 0 <= k < 32 ==> IsHexDigit(digits[k]) then Some(Lower(digits)) else None
  }

  /** `str(uuid)`: the digits in groups of 8-4-4-4-12. */
  function Format(u: string): (r: string)
    requires Canonical(u)
    ensures |r| == 36
  {
    u[..8] + "-" + u[8..12] + "-" + u[12..16] + "-" + u[16..20] + "-" + u[20..]
  }

  /** On a string without `u` or braces only the hyphens go. */
  lemma DigitsOfPlain(s: string)
    requires 'u' !in s && forall b :: b in Braces ==> b !in s
    ensures Digits(s) == DropChar(s, '-')
  {
    assert "urn:"[0] == 'u' && "uuid:"[0] == 'u';
    var a := RemoveAll(s, "urn:");
    assert a == s;
    var b := RemoveAll(a, "uuid:");
    assert b == s;
    assert TrimStart(s, Braces) == s;
    assert TrimEnd(s, Braces) == s;
  }

  /** A string of 32 hexadecimal digits in either case parses to the same
      digits in lower case: the comparison ignores case. */
  lemma ParseHexDigits(h: string)
    requires |h| == 32 && forall k :: 0 <= k < 32 ==> IsHexDigit(h[k])
    ensures ParseUuid(h) == Some(Lower(h))
  {
    DigitsOfPlain(h);
    assert '-' !in h;
    assert Digits(h) == h;
  }

  /** Lower-casing leaves a parsed UUID as it is. */
  lemma LowerCanonical(u: string)
    requires Canonical(u)
    ensures Lower(u) == u
  {
    forall k | 0 <= k < |u| ensures Lower(u)[k] == u[k] {
      assert !IsUpper(u[k]);
    }
  }

  /** Dropping the hyphens of `a + "-" + b` when `b` has none. */
  lemma HyphenThen(a: string, b: string)
    requires '-' !in b
    ensures DropChar(a + "-" + b, '-') == DropChar(a, '-') + b
  {
    calc {
      DropChar(a + "-" + b, '-');
      { DropCharConcat(a + "-", b, '-'); }
      DropChar(a + "-", '-') + DropChar(b, '-');
      { DropCharAbsent(b, '-'); }
      DropChar(a + "-", '-') + b;
      { DropCharConcat(a, "-", '-'); DropCharOnly('-'); }
      DropChar(a, '-') + b;
    }
  }

  /** A string without the character loses nothing. */
  lemma DropCharAbsent(s: string, c: char)
    requires c !in s
    ensures DropChar(s, c) == s
  {
  }

  /** The character alone is dropped entirely. */
  lemma DropCharOnly(c: char)
    ensures DropChar([c], c) == []
  {
    assert [c][0] == c && [c][1..] == [];
  }

  /** The printed form of a UUID, and its bare digits, parse back to it. */
  lemma ParseFormat(u: string)
    requires Canonical(u)
    ensures ParseUuid(Format(u)) == Some(u)
    ensures ParseUuid(u) == Some(u)
  {
    var p0, p1, p2, p3, p4 := u[..8], u[8..12], u[12..16], u[16..20], u[20..];
    assert u == p0 + p1 + p2 + p3 + p4;
    assert forall x :: x in u ==> x != 'u' && x != '-' && x !in Braces;
    var s1 := p0 + "-" + p1;
    HyphenThen(p0, p1);
    var s2 := s1 + "-" + p2;
    HyphenThen(s1, p2);
    var s3 := s2 + "-" + p3;
    HyphenThen(s2, p3);
    var f := s3 + "-" + p4;
    HyphenThen(s3, p4);
    assert f == Format(u);
    assert forall x :: x in f ==> x in u || x == '-';
    DigitsOfPlain(f);
    assert DropChar(f, '-') == u;
    LowerCanonical(u);
    ParseHexDigits(u);
  }

  /** `UUID("not-a-uuid")` raises. */
  lemma RejectsShort()
    ensures ParseUuid("not-a-uuid").None?
  {
    assert |Digits("not-a-uuid")| <= |"not-a-uuid"|;
  }
}

=== FILE: wrappers.dfy ===
/** Failure-carrying wrappers shared by every module of the model.
    `Option` stands for Python's `None`-or-value, `Result` for a value or
    a raised exception (the error payload names which one). */
module Wrappers {

  datatype Option<+T> = None | Some(value: T) {
    function GetOr(default: T): T {
      match this
      case Some(v) => v
      case None => default
    }
  }

  datatype Result<+T, +E> = Ok(value: T) | Err(error: E)
}

=== FILE: ws_registry.dfy ===
/** The bookkeeping of the websocket connection manager: which connections
    each user has open, which connections sit in each chat room, and the
    user behind each connection. Connections are opaque identities; the
    sends themselves are not modelled. */
module WsRegistry {
  import opened Wrappers

  type Ws = nat

  datatype Registry = Registry(
    active: map<string, set<Ws>>,   // user id -> that user's connections
    rooms: map<string, set<Ws>>,    // room id -> connections in the room
    users: map<Ws, string>)         // connection -> user id

  const Empty := Registry(map[], map[], map[])

  /** A `defaultdict(set)` read: the stored set, or the empty one. */
  function Members(m: map<string, set<Ws>>, k: string): (s: set<Ws>)
    ensures k in m ==> s == m[k]
    ensures k !in m ==> s == {}
  {
    if k in m then m[k] else {}
  }

  /** The registry's invariant: every connection of a user maps back to that
      user, every mapped connection is in its user's set, and no user or
      room is kept with an empty set. */
  ghost predicate Good(r: Registry) {
    && (forall u :: u in r.active ==> r.active[u] != {})
    && (forall u, w :: u in r.active && w in r.active[u] ==> w in r.users && r.users[w] == u)
    && (forall w :: w in r.users ==> r.users[w] in r.active && w in r.active[r.users[w]])
    && (forall room :: room in r.rooms ==> r.rooms[room] != {})
  }

  lemma EmptyGood()
    ensures Good(Empty)
  {
  }

  /** `connect`: the connection joins the user's set and maps to the user. */
  function Connect(r: Registry, w: Ws, user: string): (r': Registry)
    ensures user in r'.active && w in r'.active[user]
    ensures w in r'.users && r'.users[w] == user
    ensures r'.rooms == r.rooms
    ensures forall u :: u != user ==> Members(r'.active, u) == Members(r.active, u)
    ensures forall v :: v != w ==> (v in r'.users <==> v in r.users)
    ensures forall v :: v != w && v in r.users ==> r'.users[v] == r.users[v]
  {
    r.(active := r.active[user := Members(r.active, user) + {w}], users := r.users[w := user])
  }

  /** Connecting keeps the invariant unless the connection was already
      registered to somebody else. */
  lemma ConnectGood(r: Registry, w: Ws, user: string)
    requires Good(r)
    requires w in r.users ==> r.users[w] == user
    ensures Good(Connect(r, w, user))
  {
  }

  /** The rooms after `w` leaves all of them: only rooms holding `w` are
      touched, and those it empties are dropped. */
  function DropFromRooms(rooms: map<string, set<Ws>>, w: Ws): (r: map<string, set<Ws>>)
    ensures forall room :: room in r <==>
              room in rooms && (w !in rooms[room] || rooms[room] - {w} != {})
    ensures forall room :: room in r ==> r[room] == rooms[room] - {w}
  {
    map room | room in rooms && (w !in rooms[room] || rooms[room] - {w} != {}) :: rooms[room] - {w}
  }

  /** `disconnect`: a connection with no user, or with an empty user id,
      changes nothing; otherwise it leaves its user's set (dropping the user
      when that set empties), the connection map and every room. */
  function Disconnect(r: Registry, w: Ws): (r': Registry)
    ensures (w !in r.users || r.users[w] == []) ==> r' == r
    ensures w in r.users && r.users[w] != [] ==>
              && w !in r'.users
              && (forall room :: room in r'.rooms ==> w !in r'.rooms[room])
              && w !in Members(r'.active, r.users[w])
              && (forall v :: v != w ==> (v in r'.users <==> v in r.users))
              && (forall u :: u != r.users[w] ==> Members(r'.active, u) == Members(r.active, u))
              && (forall room :: room in r.rooms && w !in r.rooms[room] ==>
                    room in r'.rooms && r'.rooms[room] == r.rooms[room])
              && r'.rooms == DropFromRooms(r.rooms, w)
              && (forall v :: v != w && v in r.users ==> r'.users[v] == r.users[v])
              && Members(r'.active, r.users[w]) == Members(r.active, r.users[w]) - {w}
  {
    if w !in r.users || r.users[w] == [] then r
    else
      var u := r.users[w];
      var rest := Members(r.active, u) - {w};
      var active := if rest == {} then r.active - {u} else r.active[u := rest];
      Registry(active, DropFromRooms(r.rooms, w), r.users - {w})
  }

  /** Disconnecting keeps the invariant, and under it a disconnected
      connection is left in no user's set. */
  lemma DisconnectGood(r: Registry, w: Ws)
    requires Good(r)
    ensures Good(Disconnect(r, w))
    ensures w in r.users && r.users[w] != [] ==>
              forall u :: w !in Members(Disconnect(r, w).active, u)
  {
  }

  /** Connecting a fresh connection and disconnecting it again restores the
      registry, provided it joined no room in between. */
  lemma ConnectDisconnect(r: Registry, w: Ws, user: string)
    requires Good(r) && w !in r.users && user != []
    requires forall room :: room in r.rooms ==> w !in r.rooms[room]
    ensures Disconnect(Connect(r, w, user), w) == r
  {
    var r' := Disconnect(Connect(r, w, user), w);
    assert Members(r.active, user) + {w} - {w} == Members(r.active, user);
    assert r'.active == r.active;
    assert r'.rooms == r.rooms;
    assert r'.users == r.users;
  }

  /** `join_room`: the room is created on first use. Any connection may
      join, registered or not. */
  function JoinRoom(r: Registry, w: Ws, room: string): (r': Registry)
    ensures room in r'.rooms && r'.rooms[room] == Members(r.rooms, room) + {w}
    ensures forall other :: other != room ==> Members(r'.rooms, other) == Members(r.rooms, other)
    ensures r'.active == r.active && r'.users == r.users
  {
    r.(rooms := r.rooms[room := Members(r.rooms, room) + {w}])
  }

  /** `leave_room`: an unknown room is left alone; a room the connection
      empties is dropped. */
  function LeaveRoom(r: Registry, w: Ws, room: string): (r': Registry)
    ensures room !in r.rooms ==> r' == r
    ensures room in r.rooms ==>
              (room in r'.rooms <==> r.rooms[room] - {w} != {})
              && (room in r'.rooms ==> r'.rooms[room] == r.rooms[room] - {w})
    ensures forall other :: other != room ==> Members(r'.rooms, other) == Members(r.rooms, other)
    ensures r'.active == r.active && r'.users == r.users
  {
    if room !in r.rooms then r
    else
      var rest := r.rooms[room] - {w};
      if rest == {} then r.(rooms := r.rooms - {room}) else r.(rooms := r.rooms[room := rest])
  }

  lemma RoomsGood(r: Registry, w: Ws, room: string)
    requires Good(r)
    ensures Good(JoinRoom(r, w, room)) && Good(LeaveRoom(r, w, room))
  {
  }

  /** Joining a room and leaving it again restores the registry. */
  lemma JoinLeaveRoom(r: Registry, w: Ws, room: string)
    requires Good(r) && w !in Members(r.rooms, room)
    ensures LeaveRoom(JoinRoom(r, w, room), w, room) == r
  {
    var r' := LeaveRoom(JoinRoom(r, w, room), w, room);
    assert Members(r.rooms, room) + {w} - {w} == Members(r.rooms, room);
    assert r'.rooms == r.rooms;
  }

  /** `get_room_users`: the users behind the room's registered
      connections; unregistered connections and empty user ids add
      nobody. */
  function RoomUsers(r: Registry, room: string): (us: set<string>)
    ensures forall u :: u in us <==>
              u != [] && exists w :: w in Members(r.rooms, room) && w in r.users && r.users[w] == u
  {
    set w | w in Members(r.rooms, room) && w in r.users && r.users[w] != [] :: r.users[w]
  }

  /** `get_online_status`. */
  predicate Online(r: Registry, user: string) {
    user in r.active && |r.active[user]| > 0
  }

  /** Under the invariant a user is online exactly when some connection
      maps to them. */
  lemma OnlineIffConnected(r: Registry, user: string)
    requires Good(r)
    ensures Online(r, user) <==> exists w :: w in r.users && r.users[w] == user
  {
    if Online(r, user) {
      var w :| w in r.active[user];
      assert w in r.users && r.users[w] == user;
    }
  }

  /** A user is online after connecting, and offline once their last
      connection is gone. */
  lemma ConnectOnline(r: Registry, w: Ws, user: string)
    ensures Online(Connect(r, w, user), user)
  {
    assert w in Connect(r, w, user).active[user];
  }

  lemma LastDisconnectOffline(r: Registry, w: Ws)
    requires Good(r) && w in r.users && r.users[w] != []
    requires r.active[r.users[w]] == {w}
    ensures !Online(Disconnect(r, w), r.users[w])
  {
  }

  /** `broadcast_to_room`'s recipients: the room's connections except the
      excluded one; an unknown room reaches nobody. */
  function Recipients(r: Registry, room: string, exclude: Option<Ws>): (ws: set<Ws>)
    ensures room !in r.rooms ==> ws == {}
    ensures forall w :: w in ws <==> w in Members(r.rooms, room) && exclude != Some(w)
  {
    Members(r.rooms, room) - (if exclude.Some? then {exclude.value} else {})
  }
}
